=== FILE: README.md ===
# lua-rs core in Dafny

This project models the sequential core of lua-rs, a partly finished Lua 5.3 toolchain written in Rust, and proves properties of that model. It covers five pieces of the repository:

- **Binary chunk codec** (`src/binary/`).
  - The Lua 5.3 precompiled-chunk layout: header constants, constant tags and the prototype tree.
  - The writer, the reader, and `decode`.
  - Everything is modelled over byte sequences.
  - A reader function takes the remaining bytes and returns the value read together with the bytes left over.
  - A writer function returns the bytes it appends, so the property "writing only appends" holds by construction.
- **Instruction words** (`src/vm/`).
  - The 47-row opcode table.
  - Field extraction from a 32-bit word: `opcode`, `abc`, `a_bx`, `a_sbx`, `ax`.
  - The table lookups `opname`, `opmode`, `b_mode` and `c_mode`.
- **Code-generator bookkeeping** (`src/compiler/codegen2.rs` and the older `codegen.rs`).
  - The bump register allocator with its high-water mark.
  - The deduplicating constant pool and `get_constants`.
  - Scopes with their break lists, and `get_jump_arg_a`.
  - The `emit_*` encoders, including `emit_load_k` and the operator emitters.
  - The older generator's local-variable tombstones, `up_value_index` and `u32` emitters.
- **Lexer and parser helpers** (`src/compiler/lexer.rs`, `src/compiler/parser.rs`).
  - Lexer: the cursor primitives, whitespace and comment skipping with line counting, the token dispatch with its longest-match rules, the keyword table, and the scanners.
  - The lexer's own unit test, stated as a theorem.
  - Parser: the block-end predicates, `parse_stats`, `parse_ret_exps` and `parse_block`.
- **Value stack** (`src/state/`).
  - The stack: `LuaStack` with index normalisation, get/set and segment reversal.
  - The state API: rotation by three reversals, insert/remove, `set_top` and the other basic stack operations.
  - The `LuaValue` type ids and truthiness.

**How Rust behaviour is represented.**

- A Rust panic is a `None` or an `Err` outcome, never a precondition. This covers an index out of bounds, `unwrap` on `None`, `unimplemented!()`, `unreachable!()` and an explicit `panic!`.
- Integer overflow in the Rust arithmetic is a panic, as in a debug build. A release build wraps around instead. This matters only for `CodegenLegacy.EmitAsBx`, where `b + MAXARG_SBX` in `u32` can overflow.
- A Rust `assert!` that guards the caller's own obligation is a `requires`; `free_register` is the example.
- A float is its 64-bit pattern.
- Integer widths are written out where the code depends on them:
  - `as u8`, `as u32` and `as i64` casts;
  - 32-bit instruction truncation;
  - `usize` wrap-around of a negative `isize`.

**What the proofs establish.**

- Byte-level and whole-chunk round trips.
- Field-wise instruction round trips in both directions.
- Frame properties ("nothing else changes") for every state operation.
- Maximal munch for identifiers, numbers and short strings, and longest match for operators.
- The semantics of the relational-operator idiom on a small VM.
- Rotation as a reference "turn the segment" function.

Where the code as written breaks a property its design evidently intends, the model keeps the code as written and adds a corrected definition that the rest of the model uses (see "## Findings").

The modules follow the source files:

| module | file |
|---|---|
| `Bits` | integer widths, byte order, bitwise or |
| `Wrappers` | `Option` / `Result` |
| `Chunk` | `src/binary/chunk.rs` |
| `Writer` | `src/binary/writer.rs` |
| `Reader` | `src/binary/reader.rs` |
| `Codec` | `src/binary/mod.rs`, plus round trips |
| `Opcode` | `src/vm/opcode.rs` |
| `Instruction` | `src/vm/instruction.rs` and the encoders |
| `Codegen`, `CodegenOps` | `src/compiler/codegen2.rs` |
| `CodegenLegacy` | `src/compiler/codegen.rs` |
| `Tokens`, `Errors`, `Ast` | `src/compiler/token.rs`, `error.rs`, `ast.rs` |
| `Lexing`, `LexerScenario` | `src/compiler/lexer.rs` |
| `Parsing` | `src/compiler/parser.rs` |
| `LuaValues`, `LuaStacks`, `LuaStates` | `src/state/` |

## Model

| member | source | states |
|---|---|---|
| Bits.I64ToU64 | src/binary/writer.rs:47-50 | `i as u64` keeps the two's-complement bits: the result is congruent to `i` modulo 2^64 |
| Bits.U64ToI64 | src/binary/reader.rs:41-44 | `u as i64` keeps the bits: the result is congruent to `u` modulo 2^64 |
| Bits.SignedRoundTrip | src/binary/reader.rs:41-44 | reinterpreting an `i64` as `u64` and back gives the original integer |
| Bits.BytesOfU32 | src/binary/writer.rs:26-35 | cutting a 32-bit value into its four bytes and recombining them little-endian gives the value back |
| Bits.OrOfShiftedBytes | src/binary/reader.rs:24-31 | `(a3 << 24) \| (a2 << 16) \| (a1 << 8) \| a0` on bytes is the little-endian sum, since the fields do not overlap |
| Bits.OrOfShiftedWords | src/binary/reader.rs:33-39 | `(a1 << 32) \| a0` on 32-bit halves is `a0 + a1 * 2^32` |
| Bits.LeValueInjective | src/binary/reader.rs:24-39 | two byte strings of equal length with the same little-endian value are equal |
| Chunk.TagsDistinct | src/binary/chunk.rs:19-24 | the six constant tag bytes are pairwise distinct |
| Chunk.AsciiIsUtf8 | src/binary/reader.rs:73-75 | `String::from_utf8` accepts every ASCII byte string |
| Writer.WriteU32 | src/binary/writer.rs:26-35 | exactly four bytes whose little-endian value is the argument |
| Writer.WriteU64 | src/binary/writer.rs:37-45 | exactly eight bytes whose little-endian value is the argument (low word first) |
| Writer.LeValueAppend | src/binary/writer.rs:43-44 | the low word's bytes followed by the high word's have value `low + 2^32 * high` |
| Writer.WriteLuaInteger | src/binary/writer.rs:47-50 | eight bytes carrying the two's-complement bits of the integer |
| Writer.WriteString0 | src/binary/writer.rs:69-80 | as written: fails exactly for strings of 255 bytes or more; writes nothing for the empty string, else `len + 1` bytes ending with the string; in the Lua 5.3 layout it never fails and ends with the string |
| Writer.WriteHeader | src/binary/writer.rs:82-94 | the header is 33 bytes (its exact bytes are `Codec.HeaderParts`) |
| Writer.WriteConstant | src/binary/writer.rs:140-164 | fails only on a long string written as written; otherwise the first byte is the constant's tag (long-string tag from 255 bytes) |
| Writer.WriteUpValue | src/binary/writer.rs:167-171 | an upvalue takes exactly two bytes |
| Writer.WriteLocVar | src/binary/writer.rs:173-178 | a local variable is writable exactly when its name is (in the as-written layout, shorter than 255 bytes) |
| Writer.WriteCount | src/binary/writer.rs:104 | the `len() as u32` prefix: four bytes whose value is the length modulo 2^32 |
| Writer.WriteItems | src/binary/writer.rs:109-112 | a vector's elements are written exactly when every element can be written |
| Writer.WriteProtoHead | src/binary/writer.rs:98-117 | the fields before the children fail exactly when some constant cannot be written |
| Writer.WriteProtoTail | src/binary/writer.rs:124-137 | the vectors after the children fail exactly when, as written, a local name or upvalue name is 255 bytes or longer |
| Writer.WriteProtoOk | src/binary/writer.rs:96-138 | `write_proto` succeeds exactly on writable trees: every prototype has a source and, as written, no string reaches 255 bytes |
| Writer.WriteProtosOk | src/binary/writer.rs:119-122 | the children from `i` on are written exactly when each of them is writable |
| Reader.ReadByte | src/binary/reader.rs:17-22 | succeeds exactly when a byte remains, returns it and advances by one |
| Reader.ReadBytes | src/binary/reader.rs:52-58 | succeeds exactly when `n` bytes remain, and splits them off in order |
| Reader.ReadU32 | src/binary/reader.rs:24-31 | succeeds exactly when four bytes remain; the value is their little-endian reading |
| Reader.ReadU64 | src/binary/reader.rs:33-39 | succeeds exactly when eight bytes remain; the value is their little-endian reading |
| Reader.LeValueSplit | src/binary/reader.rs:35-38 | eight bytes read as low word then high word give the little-endian value of all eight |
| Reader.ReadLuaInteger | src/binary/reader.rs:41-44 | eight bytes whose two's-complement reading is the integer |
| Reader.ReadLuaNumber | src/binary/reader.rs:46-50 | the float's bit pattern is the little-endian value of eight bytes |
| Reader.ReadString0 | src/binary/reader.rs:65-76 | size byte 0 is `None` and consumes one byte; a size byte below 0xFF takes `size - 1` bytes, `None` unless they are UTF-8; after 0xFF the size is the next eight bytes little-endian, a size of 0 underflows, and otherwise `size - 1` bytes follow; a result always consumes input |
| Reader.ReadString | src/binary/reader.rs:60-63 | a missing string reads as empty; the result is valid UTF-8 |
| Reader.ReadItems | src/binary/reader.rs:84-86 | exactly `n` elements, never more input than there is |
| Reader.ReadVec | src/binary/reader.rs:78-88 | the element count is the little-endian u32 in front of them |
| Reader.CheckHeader | src/binary/reader.rs:90-102 | an accepted header is 33 bytes and the rest is left in place |
| Reader.CheckIdentity | src/binary/reader.rs:91-94 | the signature, version, format and check data span 12 bytes |
| Reader.CheckSizes | src/binary/reader.rs:95-99 | the five size bytes |
| Reader.CheckSentinels | src/binary/reader.rs:100-101 | the integer and float sentinels span 16 bytes |
| Reader.ReadConstant | src/binary/reader.rs:128-139 | every tag outside the six is a corruption error; each result matches its tag byte; a boolean is true iff its byte is nonzero |
| Reader.ReadUpValue | src/binary/reader.rs:141-147 | succeeds exactly when two bytes remain: `instack` then `idx` |
| Reader.ReadLocVar | src/binary/reader.rs:149-156 | a local variable consumes input |
| Reader.ReadProtoHead | src/binary/reader.rs:113-120 | the fields between the source and the children consume input |
| Reader.ReadProtoTail | src/binary/reader.rs:122-124 | the three debug vectors consume input |
| Reader.ReadProto0 | src/binary/reader.rs:109-126 | a prototype whose source byte is 0 takes its parent's source |
| Reader.ReadProtos | src/binary/reader.rs:121 | exactly `n` children |
| Reader.ReadProtoSourced | src/binary/reader.rs:110-121 | below a sourced parent every prototype read has a source, all the way down, because the resolved source is passed to the children |
| Reader.ReadProtosSourced | src/binary/reader.rs:121 | every child read below a sourced parent is sourced all the way down |
| Reader.ReadProtosTail | src/binary/reader.rs:121 | `n > 0` children are a first child followed by `n - 1` more |
| Codec.Decode | src/binary/mod.rs:6-11 | a header mismatch aborts decoding with that error; a decoded chunk has at least 34 bytes |
| Codec.Encode | src/bin/lua_rs.rs:54 | the chunk `decode` reads back (header, size byte, root in the Lua 5.3 string layout) exists exactly when every prototype has a source |
| Codec.WritableLua53IsAllSourced | src/binary/writer.rs:96-97 | in the Lua 5.3 layout only a missing source stops `write_proto` |
| Codec.U32RoundTrip | src/binary/reader.rs:24-31 | `read_u32` after `write_u32` gives the value and leaves what follows |
| Codec.U64RoundTrip | src/binary/reader.rs:33-39 | `read_u64` after `write_u64` gives the value and leaves what follows |
| Codec.LuaIntegerRoundTrip | src/binary/reader.rs:41-44 | an `i64` written and read back is unchanged |
| Codec.StringRoundTrip | src/binary/reader.rs:65-76 | in the Lua 5.3 layout every UTF-8 string, short or long, reads back as written (the corrected half of finding 1) |
| Codec.ShortStringRoundTrip | src/binary/reader.rs:65-76 | a string shorter than 254 bytes is written as size byte `len + 1` and reads back |
| Codec.LongStringRoundTrip | src/binary/reader.rs:70-73 | a longer string is written as 0xFF and a 64-bit size, and reads back |
| Codec.ReadStringOfWritten | src/binary/reader.rs:60-63 | `read_string` after `write_string` gives the string back |
| Codec.ConstantRoundTrip | src/binary/reader.rs:128-139 | every constant, under its own tag, reads back as written |
| Codec.BooleanRoundTrip | src/binary/reader.rs:132 | a boolean constant reads back as written |
| Codec.IntegerConstantRoundTrip | src/binary/reader.rs:133 | an integer constant reads back as written |
| Codec.NumberConstantRoundTrip | src/binary/reader.rs:134 | a float constant reads back with the same bits |
| Codec.StrConstantRoundTrip | src/binary/reader.rs:135-136 | a string constant reads back as written in the Lua 5.3 layout |
| Codec.ReadStrConstant | src/binary/reader.rs:135-136 | behind either string tag, `read_constant` is `read_string` |
| Codec.UpValueRoundTrip | src/binary/reader.rs:141-147 | an upvalue reads back as written |
| Codec.LocVarRoundTrip | src/binary/reader.rs:149-156 | a local variable reads back as written |
| Codec.ItemsRoundTrip | src/binary/reader.rs:84-86 | items written back to back are read back in order by `n` item reads |
| Codec.AllRoundTrip | src/binary/reader.rs:84-86 | the same for items whose writer cannot fail |
| Codec.CountRoundTrip | src/binary/reader.rs:82 | a count below 2^32 reads back |
| Codec.U32VecRoundTrip | src/binary/reader.rs:118 | a code or line-info vector reads back |
| Codec.UpValueVecRoundTrip | src/binary/reader.rs:120 | an upvalue vector reads back |
| Codec.ConstantVecRoundTrip | src/binary/reader.rs:119 | a constant vector reads back |
| Codec.LocVarVecRoundTrip | src/binary/reader.rs:123 | a local-variable vector reads back |
| Codec.StringVecRoundTrip | src/binary/reader.rs:124 | an upvalue-name vector reads back |
| Codec.HeadRoundTrip | src/binary/reader.rs:113-120 | the fields before the children read back |
| Codec.TailRoundTrip | src/binary/reader.rs:122-124 | the fields after the children read back |
| Codec.ProtoRoundTrip | src/binary/reader.rs:109-126 | a prototype tree written in the Lua 5.3 layout reads back unchanged, whatever source the reader would inherit |
| Codec.ProtoRoundTripOver | src/binary/reader.rs:109-126 | the induction step of the tree round trip, once the children round-trip |
| Codec.WriteProtoShape | src/binary/writer.rs:96-138 | `write_proto` is the source, the head, the child count, the children and the tail in that order |
| Codec.ReadProto0Steps | src/binary/reader.rs:109-126 | `read_proto0` is the composition of its reads, with the source inherited when absent |
| Codec.ProtosRoundTrip | src/binary/reader.rs:121 | the children from `i` on read back in order |
| Codec.NoProtos | src/binary/reader.rs:121 | no children write nothing and read nothing |
| Codec.WriteProtosShape | src/binary/writer.rs:120-122 | the children from `i` are child `i` followed by the rest |
| Codec.ReadProtosStep | src/binary/reader.rs:121 | reading `n > 0` children is one `read_proto0` followed by `n - 1` more |
| Codec.HeaderParts | src/binary/writer.rs:82-94 | the header is the 12 identity bytes, the 5 size bytes, then the two sentinels |
| Codec.IdentityExact | src/binary/reader.rs:91-94 | the identity check accepts exactly the 12 written bytes, and otherwise names the field |
| Codec.SizesExact | src/binary/reader.rs:95-99 | the size check accepts exactly the 5 written bytes, and otherwise names the field |
| Codec.IntegerSentinel | src/binary/reader.rs:100 | the integer sentinel matches exactly when its eight bytes are the written ones |
| Codec.NumberSentinel | src/binary/reader.rs:101 | the float sentinel matches exactly when its eight bytes are the bits of 370.5 |
| Codec.SentinelsExact | src/binary/reader.rs:100-101 | the sentinel check accepts exactly the written sentinels |
| Codec.HeaderExact | src/binary/reader.rs:90-102 | `check_header` accepts exactly the 33 bytes `write_header` produces, leaves the rest, and reports which field differs |
| Codec.HeaderRoundTrip | src/binary/reader.rs:90-102 | the written header is accepted, with what follows it left in place |
| Codec.ChunkRoundTrip | src/binary/mod.rs:6-11 | a sourced tree encoded in the Lua 5.3 layout decodes to the same tree |
| Codec.EncodeShape | src/binary/writer.rs:82-138 | the encoded chunk is the header, the size byte, then the root prototype |
| Codec.DecodeShape | src/binary/mod.rs:8-10 | behind an accepted header, `decode` drops one byte and reads the root with no inherited source |
| Codec.DecodeIgnoresSizeByte | src/binary/mod.rs:9 | the byte after the header does not affect the result |
| Codec.DecodeRoot | src/binary/mod.rs:8-10 | decoding succeeds only behind the exact header; a root without a source byte has no source |
| Codec.AsWrittenStringLosesBytes | src/binary/writer.rs:72-74 | as written, "ab" gets size byte 1, which the reader takes as the empty string |
| Codec.AsWrittenConstantRoundTripFails | src/binary/writer.rs:155-161 | as written, the constant "ab" reads back as "" with two bytes left over |
| Codec.AsWrittenEmptyStringVanishes | src/binary/writer.rs:70-71 | as written, the empty string writes nothing, so the next byte is taken as its size |
| Opcode.Table | src/vm/opcode.rs:140-188 | one descriptor per opcode, indexed by opcode |
| Opcode.TableCoversOpcodes | src/vm/opcode.rs:140-188 | the table has 47 rows; `OPCODES[op]` is defined exactly for `op <= 0x2e`, which fits six bits |
| Opcode.AsBxExactly | src/vm/opcode.rs:170-183 | iAsBx is the mode of JMP, FORLOOP, FORPREP and TFORLOOP and of no other opcode |
| Opcode.ABxAndAxExactly | src/vm/opcode.rs:141-187 | iABx is the mode of exactly LOADK, LOADKX and CLOSURE; iAx of exactly EXTRAARG |
| Opcode.NamesArePadded | src/vm/opcode.rs:141-187 | every mnemonic is exactly 8 characters |
| Instruction.OpcodeOf | src/vm/instruction.rs:38-40 | the opcode is the low six bits |
| Instruction.DecodeABC | src/vm/instruction.rs:42-47 | A < 256, B < 512 and C < 512 |
| Instruction.DecodeABx | src/vm/instruction.rs:49-53 | A < 256 and Bx <= 262143 |
| Instruction.DecodeAsBx | src/vm/instruction.rs:55-58 | the same A, and sBx = Bx - 131071, within [-131071, 131072] |
| Instruction.DecodeAx | src/vm/instruction.rs:60-62 | Ax is below 2^26 |
| Instruction.Descriptor | src/vm/instruction.rs:22-36 | the lookups are defined exactly when the low six bits name an opcode, and read that opcode's row |
| Instruction.OpName | src/vm/instruction.rs:22-24 | an 8-character mnemonic, for valid opcodes only |
| Instruction.OpModeOf | src/vm/instruction.rs:26-28 | iAsBx exactly for the four jump opcodes, iAx exactly for EXTRAARG |
| Instruction.BMode | src/vm/instruction.rs:30-32 | defined exactly for valid opcodes |
| Instruction.CMode | src/vm/instruction.rs:34-36 | defined exactly for valid opcodes |
| Instruction.PackABC | src/compiler/codegen2.rs:371-374 | with every field in range the or of shifted fields is their sum |
| Instruction.PackABx | src/compiler/codegen2.rs:377-380 | the same for iABx |
| Instruction.PackAx | src/compiler/codegen2.rs:389-392 | the same for iAx |
| Instruction.ABCRoundTrip | src/vm/instruction.rs:38-47 | decoding an iABC word built from in-range fields gives the opcode and fields back |
| Instruction.ABCDecodeEncode | src/vm/instruction.rs:38-47 | every 32-bit word is the iABC packing of its own decoded fields |
| Instruction.ABxRoundTrip | src/vm/instruction.rs:49-53 | decoding an iABx word built from in-range fields gives them back |
| Instruction.ABxDecodeEncode | src/vm/instruction.rs:49-53 | every word is the iABx packing of its decoded fields |
| Instruction.AsBxRoundTrip | src/vm/instruction.rs:55-58 | a signed offset in [-131071, 131072] survives the biased encoding |
| Instruction.AsBxDecodeEncode | src/vm/instruction.rs:55-58 | every word is the iAsBx packing of its decoded fields |
| Instruction.AxRoundTrip | src/vm/instruction.rs:60-62 | decoding an iAx word built from an in-range field gives it back |
| Instruction.AxDecodeEncode | src/vm/instruction.rs:60-62 | every word is the iAx packing of its decoded fields |
| Codegen.NewFnInfo | src/compiler/codegen2.rs:120-141 | a new function starts with no constants, registers, scopes, breaks or instructions |
| Codegen.AllocRegister | src/compiler/codegen2.rs:165-173 | the counter is bumped even on failure; it fails with NoMoreRegisters exactly when it reaches 255, else returns the old counter and raises the high-water mark; nothing else changes; `codegen.rs` has the same code |
| Codegen.AllocLoop | src/compiler/codegen2.rs:176-178 | `n` allocations succeed exactly when the counter stays below 255, and leave counter and mark as described, also after a failure |
| Codegen.AllocRegisters | src/compiler/codegen2.rs:175-180 | on success the result is the base of `n` contiguous new registers and the mark covers them; `codegen.rs` has the same code |
| Codegen.FreeRegister | src/compiler/codegen2.rs:183-186 | lowers the counter by exactly one, given a register in use; nothing else changes; `codegen.rs` has the same code |
| Codegen.FreeRegisters | src/compiler/codegen2.rs:189-193 | lowers the counter by exactly `n`; the mark is unchanged |
| Codegen.AllocThenFree | src/compiler/codegen2.rs:175-193 | allocating `n` registers and freeing them restores everything but the high-water mark |
| Codegen.HighWaterMark | src/compiler/codegen2.rs:165-180 | after successful allocations the mark is at least the counter |
| Codegen.ConstantIndex | src/compiler/codegen2.rs:154-163 | a known constant keeps its index and changes nothing; a new one gets the old pool size; other entries are kept |
| Codegen.NewPoolValid | src/compiler/codegen2.rs:124 | the empty pool is valid: distinct indices below its size |
| Codegen.ConstantIndexKeepsPool | src/compiler/codegen2.rs:154-163 | interning keeps the indices distinct and below the pool size |
| Codegen.ConstantIndexIdempotent | src/compiler/codegen2.rs:154-163 | interning twice gives the same index and the same state |
| Codegen.GetConstants | src/compiler/codegen2.rs:343-349 | a list as long as the pool with every constant at its own index |
| Codegen.EnterScope | src/compiler/codegen2.rs:207-214 | one level deeper; pushes `Some([])` exactly when breakable; nothing else changes; `codegen.rs` has the same code |
| Codegen.InnermostLoop | src/compiler/codegen2.rs:279-288 | the topmost breakable scope, or none when no scope is breakable |
| Codegen.AddBreakJump | src/compiler/codegen2.rs:278-290 | NoLoop exactly when no scope is breakable; otherwise pc is appended to the innermost breakable scope only; `codegen.rs` has the same code |
| Codegen.BreakInNewLoop | src/compiler/codegen2.rs:207-214 | a break right after entering a loop lands in that loop's list |
| Codegen.BreakSkipsPlainScope | src/compiler/codegen2.rs:278-290 | a non-breakable scope is transparent to `break` |
| Codegen.GetJumpArgA | src/compiler/codegen2.rs:228-247 | 0 iff no local of the current scope is captured; otherwise one more than the minimum of `max_regs` and the scope's slots; an index panic when the scope was never pushed |
| Codegen.EmitABC | src/compiler/codegen2.rs:371-374 | appends one word, which decodes to the opcode and fields when they are in range; nothing else changes |
| Codegen.EmitABx | src/compiler/codegen2.rs:377-380 | appends one word, which decodes to opcode, A and Bx in range |
| Codegen.EmitAsBx | src/compiler/codegen2.rs:383-386 | appends one word with sBx stored biased, which decodes back to sBx |
| Codegen.EmitAx | src/compiler/codegen2.rs:389-392 | appends one word, which decodes to opcode and Ax in range |
| Codegen.Pc | src/compiler/codegen2.rs:599-601 | the index of the last instruction; an underflow panic on an empty list |
| Codegen.EmitJmp | src/compiler/codegen2.rs:509-512 | appends a JMP and returns its own pc |
| Codegen.EmitLoadBool | src/compiler/codegen2.rs:408-410 | appends exactly one word and changes nothing else; with A, B and C in range the word's table mnemonic is LOADBOOL and it decodes to `(a, b, c)` |
| Codegen.EmitLoadK | src/compiler/codegen2.rs:414-422 | interns the constant; one LOADK carrying the index when it is below 2^18, else LOADKX then EXTRAARG carrying the index |
| CodegenLegacy.AddLocalVar | src/compiler/codegen.rs:159-169 | a failed allocation returns before the scope is touched; otherwise the name is bound to the allocated register in the current scope |
| CodegenLegacy.LocalVarSlot | src/compiler/codegen.rs:172-178 | the slot of a live local, 0 for a tombstone, IllegalRegister for an unknown name |
| CodegenLegacy.RemoveLocalVar | src/compiler/codegen.rs:182-185 | frees one register and leaves a tombstone |
| CodegenLegacy.AddThenLookup | src/compiler/codegen.rs:159-178 | a local just added is found at the register it was given |
| CodegenLegacy.RemoveThenLookup | src/compiler/codegen.rs:172-185 | a removed local reads as slot 0, not as an unknown name |
| CodegenLegacy.OtherNamesUnchanged | src/compiler/codegen.rs:159-185 | adding or removing one name leaves every other name's lookup unchanged |
| CodegenLegacy.UpValueIndex | src/compiler/codegen.rs:203-213 | the cached index exactly for a known name; any other name is `unimplemented!()` |
| CodegenLegacy.EmitAsBx | src/compiler/codegen.rs:230-233 | the `u32` bias addition panics exactly on overflow; otherwise one word is appended that decodes to the operand as sBx |
| CodegenOps.ArithOpcodeMatchesTable | src/compiler/codegen2.rs:567-577 | each arithmetic or bitwise operator emits one iABC word whose opcode's table mnemonic is the operator's name, with A, B and C decoded back |
| CodegenOps.EmitUnaryOp | src/compiler/codegen2.rs:553-561 | defined exactly for `not`, `~`, `#` and unary `-`, emitting one word with the matching opcode |
| CodegenOps.EmitCompare | src/compiler/codegen2.rs:579-593 | the comparison followed by JMP 0 +1, LOADBOOL a 0 1, LOADBOOL a 1 0 |
| CodegenOps.EmitWith | src/compiler/codegen2.rs:565-595 | handled operators only append words; nothing else changes |
| CodegenOps.EmitBinaryOp | src/compiler/codegen2.rs:565-595 | as written: defined for every emitted binary operator except `\|` |
| CodegenOps.EmitBinaryOpFixed | src/compiler/codegen2.rs:565-595 | corrected: defined for every emitted binary operator |
| CodegenOps.AsWrittenBitOrPanics | src/compiler/codegen2.rs:574-577 | `\|` reaches `unreachable!()` as written, and is handled by the correction |
| CodegenOps.FixedAgreesElsewhere | src/compiler/codegen2.rs:565-595 | the correction changes nothing for any other operator |
| CodegenOps.ArithmeticEmitsOne | src/compiler/codegen2.rs:567-577 | an arithmetic or bitwise operator appends exactly one word `OP a b c` |
| CodegenOps.RunLoads | src/compiler/codegen2.rs:591-592 | the two LOADBOOLs store the chosen boolean into register a |
| CodegenOps.RunIdiom | src/compiler/codegen2.rs:579-593 | running the four-word idiom stores in register a whether the comparison agreed with its flag |
| CodegenOps.RelationalMeaning | src/compiler/codegen2.rs:579-593 | for each relational operator, running the emitted words sets register a to the operator's meaning (`>`/`>=` as swapped `<`/`<=`, `~=` as not-equal) and no other register |
| Lexing.New | src/compiler/lexer.rs:202-210 | a new lexer is at index 0 on line 1 |
| Lexing.Span | src/compiler/lexer.rs:376-379 | the end of the longest run of a character class |
| Lexing.SpanIsLongest | src/compiler/lexer.rs:376-379 | no run of the class reaches past it |
| Lexing.Current | src/compiler/lexer.rs:433-439 | the byte at the cursor, or EOF exactly at or past the end |
| Lexing.Next | src/compiler/lexer.rs:422-429 | always moves by `n`; EOF exactly when it lands at or past the end, so consuming the last byte is EOF |
| Lexing.TestAsWritten | src/compiler/lexer.rs:404-413 | true exactly on a prefix match; panics exactly when a compared position beyond the cursor is past the end |
| Lexing.TestFrom | src/compiler/lexer.rs:405-411 | the loop of `test` from position `i` |
| Lexing.Test | src/compiler/lexer.rs:404-413 | corrected: true exactly when the text at the cursor starts with `s` |
| Lexing.TestBounded | src/compiler/lexer.rs:405-411 | the corrected loop from position `i` |
| Lexing.TestAgrees | src/compiler/lexer.rs:404-413 | where the written test does not panic, both tests agree |
| Lexing.TestReadsPastEnd | src/compiler/lexer.rs:388 | at a final line feed, `test("\n\r")` reads past the end |
| Lexing.SkipCommentRest | src/compiler/lexer.rs:450-455 | consumes up to and including the first line break, without counting a line; EOF when the text runs out first |
| Lexing.SkipComment | src/compiler/lexer.rs:442-458 | panics exactly on `--[`; otherwise keeps the line and moves past `--` |
| Lexing.NextLine | src/compiler/lexer.rs:389-393 | a successful move counts one line |
| Lexing.SkipWhitespaces | src/compiler/lexer.rs:384-401 | corrected (compares with `Lexing.Test`): only moves forward and never lowers the line; stops at the end or at a byte that is not whitespace or a comment start; errors are EOF |
| Lexing.SkipCountsLineBreaks | src/compiler/lexer.rs:384-401 | over comment-free text, the line rises by exactly the line breaks skipped, a `\r\n` or `\n\r` pair counting once |
| Lexing.SkipStep | src/compiler/lexer.rs:385-398 | one round of the loop advances and counts its line breaks, and the loop's result is unchanged |
| Lexing.SkipStaysOnlyWhenStopped | src/compiler/lexer.rs:385-399 | the loop returns without moving only where skipping stops or at the end |
| Lexing.Keyword | src/compiler/lexer.rs:170-197 | a found token is the keyword spelled by the text, and has no punctuation spelling |
| Lexing.KeywordsOfLength2 | src/compiler/lexer.rs:170-197 | the two-letter keywords |
| Lexing.KeywordsOfLength3 | src/compiler/lexer.rs:170-197 | the three-letter keywords |
| Lexing.KeywordsOfLength4 | src/compiler/lexer.rs:170-197 | the four-letter keywords |
| Lexing.KeywordsOfLength5 | src/compiler/lexer.rs:170-197 | the five-letter keywords |
| Lexing.KeywordsOfLength6 | src/compiler/lexer.rs:170-197 | the six-letter keywords |
| Lexing.KeywordsOfLength8 | src/compiler/lexer.rs:170-197 | the eight-letter keyword |
| Lexing.KeywordTableInverse | src/compiler/lexer.rs:170-197 | the table and its reverse are inverses: one word per keyword token |
| Lexing.KeywordTextFound | src/compiler/lexer.rs:170-197 | every keyword's text is found in the table |
| Lexing.KeywordsAreWords | src/compiler/lexer.rs:170-197 | every keyword is 2 to 8 word characters, so the identifier scanner can produce it |
| Lexing.SingleCharNotPaired | src/compiler/lexer.rs:228-242 | no byte of a one-byte arm starts a longer spelling |
| Lexing.SingleCharSpelling | src/compiler/lexer.rs:228-242 | a one-byte arm's token is spelled by that byte |
| Lexing.FractionEnd | src/compiler/lexer.rs:366 | an optional fraction ends within the text |
| Lexing.ExponentEnd | src/compiler/lexer.rs:366 | an optional exponent ends within the text |
| Lexing.BodyEnd | src/compiler/lexer.rs:366 | a numeral body ends within the text |
| Lexing.NumeralLength | src/compiler/lexer.rs:364-372 | the match never exceeds the text and is non-empty on a digit or `.` before a digit |
| Lexing.ExponentMatches | src/compiler/lexer.rs:366 | the exponent consumed matches the exponent grammar, or is empty |
| Lexing.ExponentIsLongest | src/compiler/lexer.rs:366 | no longer exponent matches |
| Lexing.BodyMatches | src/compiler/lexer.rs:366 | the body consumed matches the body grammar |
| Lexing.BodyIsLongest | src/compiler/lexer.rs:366 | no longer stretch matches the body grammar |
| Lexing.BodyInPrefix | src/compiler/lexer.rs:366 | the body grammar looks only at the characters it covers |
| Lexing.SplitInPrefix | src/compiler/lexer.rs:366 | the same for one split of the body |
| Lexing.RunInPrefix | src/compiler/lexer.rs:366 | the same for a run of a class |
| Lexing.NumeralIsLongest | src/compiler/lexer.rs:364-372 | maximal munch: the scanned text is a numeral and no longer prefix is one |
| Lexing.LastQuote | src/compiler/lexer.rs:351 | the last `"` of a range, or none |
| Lexing.ShortStringLength | src/compiler/lexer.rs:349-361 | a match spans both quotes and stays within the text |
| Lexing.ShortStringIsLongest | src/compiler/lexer.rs:349-361 | the scan takes the longest prefix that is a short string, and fails exactly when none is |
| Lexing.CloseAt | src/compiler/lexer.rs:339 | a closing bracket `]=*]` starting at `k` |
| Lexing.FindClose | src/compiler/lexer.rs:339 | the lazy body: the first closing bracket not preceded by a line feed, and none earlier |
| Lexing.LongBracket | src/compiler/lexer.rs:336-346 | the contents lie between an opening `[=*[` and the closing bracket |
| Lexing.ScanNumber | src/compiler/lexer.rs:364-372 | never fails; takes exactly the maximal-munch numeral; moves forward |
| Lexing.ScanIdentifier | src/compiler/lexer.rs:375-381 | a failure leaves the lexer in place with IllegalToken; a success moves forward and yields a word token |
| Lexing.ScanIdentifierTakesWord | src/compiler/lexer.rs:322-327 | succeeds exactly on a word character, takes the whole run of word characters, and yields the keyword for it or else an identifier |
| Lexing.ScanShortString | src/compiler/lexer.rs:349-361 | fails exactly when no short string starts here; else yields the text between the quotes and moves past the closing quote |
| Lexing.ScanLongString | src/compiler/lexer.rs:336-346 | fails exactly when no long bracket closes; else yields its contents and moves past it |
| Lexing.Simple | src/compiler/lexer.rs:219-222 | moves by `n`; the token, or EOF exactly when it lands at or past the end |
| Lexing.FirstByteDiffers | src/compiler/lexer.rs:404-413 | a spelling can only be at the cursor if it starts with the byte there |
| Lexing.ByteAtCursor | src/compiler/lexer.rs:404-413 | the byte under the cursor is a one-byte prefix there |
| Lexing.OtherFirstBytes | src/compiler/lexer.rs:243-309 | no multi-byte spelling with another first byte is at the cursor |
| Lexing.MultiByteSpellings | src/compiler/lexer.rs:243-304 | the ten tokens spelt with more than one byte |
| Lexing.NoLongerSpellingCoversTokens | src/compiler/lexer.rs:243-304 | no longer spelling is at the cursor for any of them |
| Lexing.Single | src/compiler/lexer.rs:228-242 | one-byte arms move forward and yield a token with the longest spelling at the cursor |
| Lexing.Partner | src/compiler/lexer.rs:243-274 | the one two-byte spelling beginning with `:`, `/`, `~` or `=` |
| Lexing.PartnerIsOnlyCandidate | src/compiler/lexer.rs:243-274 | once the partner is ruled out, no longer spelling is there |
| Lexing.Paired | src/compiler/lexer.rs:243-274 | corrected (compares with `Lexing.Test`): `::`, `//`, `~=`, `==` win over their one-byte forms: the longest spelling is taken |
| Lexing.AngledCandidates | src/compiler/lexer.rs:275-296 | once `<<`/`<=` (or `>>`/`>=`) are ruled out, nothing longer than the byte is there |
| Lexing.Angled | src/compiler/lexer.rs:275-296 | corrected (compares with `Lexing.Test`): `<<`, `<=`, `>>`, `>=` before `<`, `>`: the longest spelling is taken |
| Lexing.Dotted | src/compiler/lexer.rs:297-321 | corrected (compares with `Lexing.Test`): `...` before `..` before `.`; a `.` before a digit starts a number |
| Lexing.DottedSpellings | src/compiler/lexer.rs:297-314 | the spellings of `...`, `..`, `.` and `[` |
| Lexing.Bracketed | src/compiler/lexer.rs:310-316 | corrected (compares with `Lexing.Test`): `[[` or `[=` starts a long string, else `[` |
| Lexing.PairedSpellings | src/compiler/lexer.rs:243-258 | the spellings of `::`, `:`, `//`, `/` |
| Lexing.PairedSpellingsCont | src/compiler/lexer.rs:259-274 | the spellings of `~=`, `~`, `==`, `=` |
| Lexing.AngledSpellings | src/compiler/lexer.rs:275-296 | the spellings of the shift and comparison operators |
| Lexing.Composite | src/compiler/lexer.rs:243-296 | corrected (compares with `Lexing.Test`): the arms for `:`, `/`, `~`, `=`, `<`, `>` take the longest spelling |
| Lexing.Punctuator | src/compiler/lexer.rs:228-316 | corrected (compares with `Lexing.Test`): separator and operator arms move forward and take the longest spelling; errors are EOF or IllegalToken |
| Lexing.StartsTokenHandled | src/compiler/lexer.rs:227-331 | every byte listed as starting a token has an arm |
| Lexing.HandledStartsToken | src/compiler/lexer.rs:227-331 | every byte with an arm is listed |
| Lexing.StartsTokenArms | src/compiler/lexer.rs:227-331 | the bytes that start a token are exactly those the dispatch handles |
| Lexing.Dispatch | src/compiler/lexer.rs:226-332 | corrected (compares with `Lexing.Test`): `unreachable!()` exactly on a byte that starts no token, and no panic in `test`; otherwise moves forward with the longest spelling; errors are EOF or IllegalToken |
| Lexing.NextToken | src/compiler/lexer.rs:224-333 | corrected (skips and dispatches with `Lexing.Test`): only moves forward, never lowers the line, and a token always consumes input |
| Lexing.LastColonDiverges | src/compiler/lexer.rs:243-250 | on the input `:` the written `test("::")` reads past the end, where the corrected `next_token` reports EOF on line 1 |
| LexerScenario.StepAt | src/compiler/lexer.rs:494-535 | from the line break before each word of the test input, `next_token` yields that word's token on the next line |
| LexerScenario.StepAtEnd | src/compiler/lexer.rs:537 | after the last word, `next_token` fails with EOF |
| LexerScenario.LexesFrom | src/compiler/lexer.rs:494-537 | from each word on, the lexer produces exactly the test's expected results |
| LexerScenario.LexerTest | src/compiler/lexer.rs:476-538 | the unit test: `+`, `-`, `>>`, `==`, three strings, two numerals, `break`, `name` on lines 2 to 12, then an error |
| LexerScenario.ScansDecimal | src/compiler/lexer.rs:485 | `12.34E-56` is one numeral |
| LexerScenario.ScansHex | src/compiler/lexer.rs:486 | `0x12.abp-10` is one numeral |
| LexerScenario.ScansLongString | src/compiler/lexer.rs:482 | `[[string]]` is the long string "string" |
| LexerScenario.ScansSingleQuoted | src/compiler/lexer.rs:483 | `'string'` is the short string "string" |
| LexerScenario.ScansDoubleQuoted | src/compiler/lexer.rs:484 | `"string"` is the short string "string" |
| LexerScenario.ScansWord | src/compiler/lexer.rs:322-327 | a word before a line break is scanned whole, as keyword or identifier |
| LexerScenario.WordKeywords | src/compiler/lexer.rs:177 | `break` is a keyword and `name` is not |
| LexerScenario.DispatchShiftRight | src/compiler/lexer.rs:286-289 | `>>` is one token |
| Parsing.LookAhead | src/compiler/parser.rs:18 | the next result without consuming it; EOF past the end |
| Parsing.Next | src/compiler/parser.rs:38 | the look-ahead result, consumed |
| Parsing.Advance | src/compiler/parser.rs:19 | `n` results consumed, stopping at the end |
| Parsing.IsReturnOrBlockEnd | src/compiler/parser.rs:117-127 | true exactly for `return`, `end`, `else`, `elseif`, `until`, or an EOF error |
| Parsing.ErrEofToToken | src/compiler/parser.rs:130-135 | an EOF error becomes the Eof token; every other result is unchanged |
| Parsing.ErrEofToTokenFacts | src/compiler/parser.rs:130-142 | converting is idempotent, and only an EOF error turns into Eof |
| Parsing.BlockEndAfterConversion | src/compiler/parser.rs:117-142 | a block ends exactly when the converted result is a closing keyword or Eof |
| Parsing.NonEmpty | src/compiler/parser.rs:20-25 | the kept statements contain no `Empty` |
| Parsing.NonEmptyAppend | src/compiler/parser.rs:17-26 | filtering distributes over concatenation, so order is kept |
| Parsing.NonEmptyKeeps | src/compiler/parser.rs:20-25 | every other statement is kept as often as it occurs |
| Parsing.NonEmptyIdentity | src/compiler/parser.rs:20-25 | a list without `Empty` comes back unchanged |
| Parsing.Produced | src/compiler/parser.rs:19 | the statements of the first `k` successful calls |
| Parsing.ParseStats | src/compiler/parser.rs:16-29 | on success it stops at a block end, having kept every statement except `Empty` in order; on error the last call failed with it; a block end first yields nothing |
| Parsing.ProducedShift | src/compiler/parser.rs:18-26 | one more call puts its statement in front |
| Parsing.ParseRetExpsAsWritten | src/compiler/parser.rs:31-59 | as written: returns only when the look-ahead is not `return`, after consuming a token |
| Parsing.RetExpsAsWrittenEatsEnd | src/compiler/parser.rs:35-47 | as written, before `end end` the first `end` is consumed |
| Parsing.ParseRetExps | src/compiler/parser.rs:31-59 | corrected: without `return` nothing is consumed and no expressions are returned; only `return` is ever consumed first |
| Parsing.BareReturn | src/compiler/parser.rs:39-47 | `return` before a block end yields no expressions and consumes only `return` |
| Parsing.ParseBlock | src/compiler/parser.rs:8-14 | corrected (over `Parsing.ParseRetExps`): statements, then return expressions, then the current line; the first error, from the statements or from the return list, is the block's, and a return list that panics makes the block panic |
| Parsing.EmptyBlock | src/compiler/parser.rs:8-14 | corrected: a block whose first token closes it is empty and consumes nothing |
| Parsing.ParseBlockAsWritten | src/compiler/parser.rs:8-14 | as written: the first error, from the statements or from the written return list, is the block's, and a return list that panics makes the block panic; a block that parses has the statements produced, no return expressions, and has consumed the token that ended its statements |
| Parsing.BlockAsWrittenEatsEnd | src/compiler/parser.rs:8-59 | before `end end` the written block consumes the first `end`, where the corrected block consumes nothing |
| Parsing.BlockReturnError | src/compiler/parser.rs:8-14 | after `return`, an illegal token is the corrected block's error with the stream left past `return`; the written block panics at `return` instead |
| Parsing.BlockKeepsStatements | src/compiler/parser.rs:8-29 | the statements produced reach the block in order, with `Empty` dropped |
| LuaValues.TypeId | src/state/lua_value.rs:14-22 | floats and integers share the number type; every other kind has its own id |
| LuaValues.SameTypeId | src/state/lua_value.rs:14-22 | two values share a type id exactly when they are of the same kind |
| LuaValues.ToBoolean | src/state/lua_value.rs:24-30 | false exactly for `nil` and `false`; a boolean is itself |
| LuaStacks.Top | src/state/lua_stack.rs:17-19 | the number of stored values |
| LuaStacks.Push | src/state/lua_stack.rs:27-29 | one more value, on top, with the rest unchanged |
| LuaStacks.Pop | src/state/lua_stack.rs:32-34 | panics exactly on an empty stack; pushing the popped value back restores the stack |
| LuaStacks.PushThenPop | src/state/lua_stack.rs:27-34 | popping what was pushed gives back the value and the stack |
| LuaStacks.AbsIndex | src/state/lua_stack.rs:37-43 | a non-negative index unchanged; a negative one counted from the top |
| LuaStacks.ValidIndices | src/state/lua_stack.rs:46-49 | valid exactly for 1..top and -top..-1; the two name the same value |
| LuaStacks.Get | src/state/lua_stack.rs:51-59 | the value at a valid index, `nil` otherwise |
| LuaStacks.Set | src/state/lua_stack.rs:61-70 | panics exactly on an invalid index; otherwise replaces that value only and keeps the length |
| LuaStacks.SetThenGet | src/state/lua_stack.rs:51-70 | reading back through any index gives the new value at that slot and the old value elsewhere |
| LuaStacks.Swap | src/state/lua_stack.rs:74 | exchanges two values and nothing else |
| LuaStacks.Reverse | src/state/lua_stack.rs:72-78 | panics exactly when a swap reaches past the end; keeps the length |
| LuaStacks.ReverseStep | src/state/lua_stack.rs:73-77 | one round of the loop: swap the ends, then reverse the inside |
| LuaStacks.ReverseMirrors | src/state/lua_stack.rs:72-78 | the inclusive segment is mirrored and everything outside it is unchanged |
| LuaStacks.ReversePermutes | src/state/lua_stack.rs:72-78 | the result holds the same values, each as often |
| LuaStacks.MirrorStep | src/state/lua_stack.rs:73-77 | swapping the ends and mirroring the inside mirrors the whole segment |
| LuaStacks.ReverseTwice | src/state/lua_stack.rs:72-78 | reversing a segment twice restores the stack |
| LuaStates.AsUsize | src/state/lua_state.rs:74-76 | `as usize` on an `isize`: unchanged when non-negative, wrapped to at least 2^63 otherwise |
| LuaStates.GetTop | src/state/lua_state.rs:22-24 | the number of stored values |
| LuaStates.CheckStack | src/state/lua_state.rs:30-33 | always true and stores nothing |
| LuaStates.TypeIdAt | src/state/lua_state.rs:115-122 | LUA_TNONE exactly for an invalid index, else the value's type id |
| LuaStates.PopN | src/state/lua_state.rs:35-39 | panics exactly when fewer than `n` values are stored; otherwise drops the top `n` |
| LuaStates.Copy | src/state/lua_state.rs:41-44 | slot `to` gets the value at `from`; nothing else changes; an invalid `to` panics |
| LuaStates.PushValue | src/state/lua_state.rs:46-49 | pushes the value at `idx` (`nil` if invalid) and keeps the rest |
| LuaStates.Replace | src/state/lua_state.rs:51-54 | pops the top and stores it at `idx`, resolved after the pop |
| LuaStates.Rotated | src/state/lua_state.rs:65-77 | the reference rotation keeps the length |
| LuaStates.RotatedMoves | src/state/lua_state.rs:65-77 | each value moves `n` places toward the top, wrapping around |
| LuaStates.RotatedSameValues | src/state/lua_state.rs:65-77 | rotation keeps the same values, each as often |
| LuaStates.RotatedBack | src/state/lua_state.rs:65-77 | rotating back by the same distance restores the segment |
| LuaStates.RotatedAt | src/state/lua_state.rs:65-77 | the value at each position of a rotated segment |
| LuaStates.RotatableIsValid | src/state/lua_state.rs:66-69 | the guard of `rotate` is exactly `is_valid` |
| LuaStates.RotateAsWritten | src/state/lua_state.rs:65-77 | as written: panics on an invalid index |
| LuaStates.SignedReversals | src/state/lua_state.rs:74-76 | the three reversals with a signed prefix end keep the length |
| LuaStates.Rotate | src/state/lua_state.rs:65-77 | corrected: defined exactly for a valid index and a distance at most the segment length; keeps the length |
| LuaStates.RotateRotates | src/state/lua_state.rs:65-77 | `rotate` turns the values from `idx` to the top by `n` places toward the top, and leaves the values below `idx` in place |
| LuaStates.ThreeMirrorsAt | src/state/lua_state.rs:74-76 | three mirrorings move each value of the segment by `t - m` places, wrapping around |
| LuaStates.RotatedPoint | src/state/lua_state.rs:74-76 | each position after the three mirrorings agrees with the reference rotation |
| LuaStates.RotateThreeReversals | src/state/lua_state.rs:71-76 | three reversals rotate the segment for any distance up to its length |
| LuaStates.SignedReversalsMirror | src/state/lua_state.rs:74-76 | each intermediate stack mirrors the one before |
| LuaStates.RotateAsWrittenCorrupts | src/state/lua_state.rs:71-76 | as written, rotating `nil, true, false` from the top by 2 moves `true`, which lies below the segment |
| LuaStates.InsertAsWrittenPanics | src/state/lua_state.rs:56-76 | as written, `insert(1)` on a one-value stack panics |
| LuaStates.ReversalsAgree | src/state/lua_state.rs:74-76 | with a non-negative prefix end, the `usize` reversals are the signed ones |
| LuaStates.RotateAsWrittenAgrees | src/state/lua_state.rs:65-77 | within its range and apart from a full turn from index 1, the code as written agrees with the corrected rotation |
| LuaStates.Insert | src/state/lua_state.rs:56-58 | corrected (over `LuaStates.Rotate`): panics exactly on an invalid index; keeps the length |
| LuaStates.InsertAsWritten | src/state/lua_state.rs:56-76 | as written: panics exactly on an invalid index or a one-value stack, and otherwise gives the corrected `insert` |
| LuaStates.InsertMovesTop | src/state/lua_state.rs:56-58 | corrected: the top value moves to `idx`, the values from `idx` shift up one, those below are unchanged |
| LuaStates.RotateDown | src/state/lua_state.rs:60-63 | rotating by -1 moves the value at `idx` to the top and shifts the values above it down |
| LuaStates.Remove | src/state/lua_state.rs:60-63 | panics exactly on an invalid index; otherwise deletes that value, shifting the rest down, one fewer value |
| LuaStates.SetTop | src/state/lua_state.rs:79-95 | panics exactly on a negative absolute index; otherwise top becomes it, the kept prefix is unchanged and new slots are `nil` |

## Left out

- The `dbg!` output in `read_u64` and `write_u64` is not modelled, because it is an I/O side effect.
- The command-line tool in `src/bin/lua_rs.rs` is not modelled: it does file I/O.
- The `encode` function that tool calls is not defined in `src/binary/mod.rs`. `Codec.Encode` composes `write_header`, the size-upvalues byte and `write_proto`, mirroring what `decode` reads.
- `src/lib.rs` and `Display` formatting are not modelled: they hold module declarations and formatting only.
- Floats are not modelled as numbers, because the model does no float arithmetic:
  - constants and `LuaValue::Number` are kept as their 64-bit patterns;
  - the float sentinel 370.5 is its binary64 pattern;
  - `src/state/ops.rs` is not part of this model.
- Some API-level constants are not part of this model:
  - the Rust `api::consts` module is not part of this model;
  - the type ids are those of Lua 5.3's `lua.h` (nil 0, boolean 1, number 3, string 4, none -1).
- Several `lua_state.rs` functions are left out: `type_name`, the `is_*` predicates, `to_number`, `to_string` and the `push_*` helpers. They format values, convert floats, or go through the `LuaAPI` trait.
- Stack capacity is not modelled: `check_stack` and `LuaStack::new` reserve capacity, which changes no value.
- The long-string branch of the as-written `write_string0` is not reproduced: it is `unimplemented!()` and is modelled as an error.
- Codec.Encode: its contract states only when it succeeds. The exact bytes are stated by `Codec.EncodeShape`, which keeps the function cheap to verify.
- Codec.Encode: the source-name argument the tool passes (`Some("@" + file_name)`, `src/bin/lua_rs.rs:54`) is not modelled, since `encode` is not defined and its use of that argument cannot be read. Without it, a tree built by `to_prototype` (`src/compiler/codegen2.rs:310-312`), where every prototype has `source: None`, is not encodable here.
- Codec.Encode: it writes strings in the corrected Lua 5.3 layout, not the as-written layout of `src/binary/writer.rs:69-80`. The as-written layout is `Writer.WriteString0` under `AsWritten`.
- Statement- and expression-level code generation is left out, for these reasons:
  - it reaches `unimplemented!()` through `exit_scope`, `fix_sbx`, `up_value_index`, `get_local_vars` and `get_up_value_names`;
  - it uses an `Rc<RefCell>` parent chain;
  - this covers `to_prototype`, `get_up_values` and `find_fn_info_by_index`.
- `codegen2.rs`'s own `add_local_var`, `local_var_slot` and `remove_local_var` are not modelled separately:
  - its constructor never pushes a scope map, so they index an empty list;
  - that index panic is modelled in `Codegen.GetJumpArgA`, which shares the same current-scope lookup;
  - the local-variable operations are modelled for `codegen.rs`, in `CodegenLegacy`.
- Some emitters are not modelled one by one: `emit_move`, `emit_load_nil`, `emit_call`, the table and upvalue emitters, and the `for` emitters. Each is a single `emit_ABC`, `emit_ABx` or `emit_AsBx` call with fixed operands, and those are modelled.
- `emit_test_set` emits OP_TEST, and that is all that can be claimed about it; no TESTSET semantics are claimed.
- `emit_new_table` is left out: it needs `int_to_float_byte`, which the repository does not define.
- Codegen.EmitABC, Codegen.EmitABx, Codegen.EmitAsBx, Codegen.EmitAx: operands are natural numbers. Negative `isize` operands, whose sign bits would spill into other fields, are not modelled.
- Codegen.AllocRegister: `used_regs` is unbounded. A `usize` overflow cannot happen before the 255 limit anyway.
- Lexing.ScanIdentifier: word characters are ASCII only. The Rust pattern `[_\d\w]` also accepts non-ASCII Unicode letters and digits, but the dispatch only reaches the scanner on an ASCII letter or `_`.
- Lexing.ScanShortString: the escape alternatives of the pattern at `lexer.rs:351` are set aside. They are: `\\`; `\'` followed by a space; a space, `\` and a newline; `\z` with trailing whitespace. Dropping them changes where a match ends. On `'a\' b'` the source takes 7 bytes, while the model stops after `'a\'` (4 bytes). A source string can also cross a line break through ` \`-newline or `\z`, where the model fails.
- The written `test` (`lexer.rs:404-413`) reads past the end of the input. The members below compare with the corrected `Lexing.Test` instead, so where the source panics they report EOF or stop. `Lexing.TestAsWritten`, `Lexing.TestReadsPastEnd` and `Lexing.LastColonDiverges` state the written behaviour.
- Lexing.SkipWhitespaces: at a final `\n`, `\r` or `-` the source panics in `test`; the model stops or reports EOF.
- Lexing.Paired: on a final `:`, `/`, `~` or `=` the source panics in `test`; the model reports EOF.
- Lexing.Angled: on a final `<` or `>` the source panics in `test`; the model reports EOF.
- Lexing.Dotted: on a final `.` or `..` the source panics in `test("...")`; the model reports EOF.
- Lexing.Bracketed: on a final `[` the source panics in `test("[[")`; the model reports EOF.
- Lexing.Composite: inherits the final-byte panics of `Lexing.Paired` and `Lexing.Angled`, which it does not report.
- Lexing.Punctuator: inherits the final-byte panics of the arms above, which it does not report.
- Lexing.Dispatch: its `None` is only the `unreachable!()` arm. It does not report the final-byte panics of the arms above.
- Lexing.NextToken: when the cursor reaches a final `\n`, `\r`, `-`, `:`, `/`, `~`, `=`, `<`, `>`, `.` or `[` (for example in `x\n` or `:`), the source panics in `test`; the model reports EOF.
- Long comments (`--[`) are modelled as the `unimplemented!()` panic they are.
- `parse_stat`, `parse_exp_list` and the statement parsers are `unimplemented!()` in the source:
  - `parse_stats` is modelled against a plan of `parse_stat` outcomes;
  - the expression list after `return` is the panic it is.
- Parsing.ParseBlock: it composes the corrected `Parsing.ParseRetExps`. The block as written is `Parsing.ParseBlockAsWritten`: without `return` it consumes the closing token, and on `return` it panics.
- Parsing.EmptyBlock: "consumes nothing" holds for the corrected block only; `Parsing.BlockAsWrittenEatsEnd` shows the written block consuming `end`.
- `look_ahead` is called by `parser.rs` but not defined in `lexer.rs`: the parser reads a stream of lexed results.
- `Token::Eof` and the line-less `Error::EOF` that `parser.rs` uses do not exist in `token.rs` and `error.rs`:
  - the model adds an `Eof` token that the lexer never produces;
  - an EOF error is matched whatever its line.
- The lexer builds `Error::EOF` and `Error::IllegalToken` without a line (`lexer.rs` lines 342, 357, 369, 378, 427 and 437), although `error.rs` declares one for every error. The model fills in the lexer's current line.
- LuaStates.RotateAsWritten: it requires `n` to lie within ±2^62 and the stack to hold fewer than 2^62 values. That is half the `isize` range, so that `t - n` and `p - n - 1` stay within `isize` without a separate overflow case. `LuaStates.InsertAsWritten` inherits the bound on the stack.
- LuaStates.Insert: it is built on the corrected `LuaStates.Rotate`, so it succeeds on a one-value stack, where the source panics in `reverse(0, usize::MAX)`. The written behaviour is `LuaStates.InsertAsWritten`.
- LuaStates.InsertMovesTop: it holds for the corrected `insert`. On a one-value stack the source panics instead.
- Integer widths of the Lua API (`isize` indices, `usize` counts) are unbounded integers, except in `rotate`, where the `usize` cast matters.

## Findings

| source | as written | input that shows it | evidently intended | confidence | as-written member | corrected member |
|---|---|---|---|---|---|---|
| src/binary/writer.rs:70-74 | a string is written with size byte `len - 1`, the empty string not at all; the reader takes `size - 1` bytes | the string "ab" is written as `1, 'a', 'b'` and read back as "" with "ab" left over | size byte `len + 1` (0 only for an absent string), as in Lua 5.3 and as the reader expects | high, not executed | Codec.AsWrittenConstantRoundTripFails | Codec.StringRoundTrip |
| src/compiler/codegen2.rs:565-595 | `emit_binary_op` has no arm for `\|` (OpBitOr) | `a \| b` reaches `unreachable!()` | emit BOR like the other bitwise operators | high, not executed | CodegenOps.AsWrittenBitOrPanics | CodegenOps.EmitBinaryOpFixed |
| src/compiler/lexer.rs:404-413 | `test` checks end of input only at the cursor, then indexes `index + i` | source "x\n": at the final line feed, `test("\n\r")` in `skip_whitespaces` reads past the end and panics | false when the text runs out before the whole string is compared | high, not executed | Lexing.TestReadsPastEnd | Lexing.TestAgrees |
| src/compiler/parser.rs:35-57 | `parse_ret_exps` consumes a token when the look-ahead is NOT `return`, and falls into `unimplemented!()` on `return` | a block `end end` without a return statement loses its first `end` | without `return`, return nothing and consume nothing; with `return`, consume it and check for a block end or `;` | medium, not executed | Parsing.RetExpsAsWrittenEatsEnd | Parsing.ParseRetExps |
| src/state/lua_state.rs:65-77 | `rotate` does not check `\|n\|` against the segment length | rotating `nil, true, false` from index 3 by 2 swaps `true` and `false` | refuse a distance longer than the segment, as Lua 5.3's `lua_rotate` requires | medium, not executed | LuaStates.RotateAsWrittenCorrupts | LuaStates.RotateRotates |
| src/state/lua_state.rs:71-76 | a rotation by the full segment length from index 1 reverses the empty prefix up to `(-1) as usize` | `insert(1)` on a stack holding one value panics in `swap` | leave an empty prefix alone | high, not executed | LuaStates.InsertAsWrittenPanics | LuaStates.RotateAsWrittenAgrees |

=== FILE: ast.dfy ===
/**
 * The syntax tree of `ast.rs`: blocks, statements and expressions, one
 * constructor per Rust variant. A float is kept as its 64-bit pattern and a
 * `usize` operator code as a natural number.
 */
module Ast {
  import opened Bits

  type Line = nat

  datatype Block = Block(stats: seq<Stat>, retExps: seq<Exp>, lastLine: Line)

  datatype Stat =
    | Empty
    | Break(line: Line)
    | Label(name: string)
    | Goto(name: string)
    | Do(block: Block)
    | While(exp: Exp, block: Block)
    | Repeat(exp: Exp, block: Block)
    | If(exps: seq<Exp>, blocks: seq<Block>)
    | ForNum(lineOfFor: Line, lineOfDo: Line, varName: string, init: Exp, limit: Exp, step: Exp, block: Block)
    | ForIn(lineOfDo: Line, nameList: seq<string>, expList: seq<Exp>, block: Block)
    | LocalVarDecl(lastLine: Line, nameList: seq<string>, expList: seq<Exp>)
    | Assign(lastLine: Line, varList: seq<Exp>, expList: seq<Exp>)
    | LocalFnDef(name: string, exp: Exp)

  datatype Exp =
    | Nil(line: Line)
    | True(line: Line)
    | False(line: Line)
    | Vararg(line: Line)
    | Integer(line: Line, ival: i64)
    | Float(line: Line, bits: u64)
    | Str(line: Line, sval: string)
    | Name(line: Line, sval: string)
    | Unop(line: Line, op: nat, exp: Exp)
    | Binop(line: Line, op: nat, exp1: Exp, exp2: Exp)
    | Concat(line: Line, exps: seq<Exp>)
    | TableConstructor(line: Line, lastLine: Line, keyExps: seq<Exp>, valExps: seq<Exp>)
    | FnDef(line: Line, lastLine: Line, parList: seq<string>, isVararg: bool, block: Block)
    | Parens(inner: Exp)
    | TableAccess(lastLine: Line, prefixExp: Exp, keyExp: Exp)
    | FnCall(line: Line, lastLine: Line, prefixExp: Exp, nameExp: Exp, args: seq<Exp>)
}

=== FILE: bits.dfy ===
/**
 * Arithmetic on unsigned machine integers.
 *
 * The Rust code works on `u8`, `u32`, `u64`, `i64` and `isize`. Here those
 * are bounded subsets of `int`, and shifts, masks and `|` are spelled out
 * as division, remainder and a bitwise-or on naturals, so that the packing
 * of instruction words and the little-endian byte layout can be stated
 * exactly.
 */
module Bits {

  type u8 = x: int | 0 <= x < 0x100
  type u32 = x: int | 0 <= x < 0x1_0000_0000
  type u64 = x: int | 0 <= x < 0x1_0000_0000_0000_0000
  type i64 = x: int | -0x8000_0000_0000_0000 <= x < 0x8000_0000_0000_0000

  function Pow2(k: nat): (r: nat)
    ensures r >= 1
  {
    if k == 0 then 1 else 2 * Pow2(k - 1)
  }

  /** Powers of two add in the exponent: shifting by `a` then by `b` is shifting by `a + b`. */
  lemma {:induction false} Pow2Add(a: nat, b: nat)
    ensures Pow2(a + b) == Pow2(a) * Pow2(b)
  {
    if b > 0 {
      Pow2Add(a, b - 1);
      assert Pow2(a + b) == 2 * Pow2(a + b - 1);
    }
  }

  /** Bitwise `|` on naturals, one bit at a time from the least significant. */
  function BitOr(x: nat, y: nat): nat
    decreases x + y
  {
    if x == 0 then y
    else if y == 0 then x
    else 2 * BitOr(x / 2, y / 2) + (if x % 2 == 1 || y % 2 == 1 then 1 else 0)
  }

  lemma {:induction false} BitOrCommutes(x: nat, y: nat)
    ensures BitOr(x, y) == BitOr(y, x)
    decreases x + y
  {
    if x != 0 && y != 0 {
      BitOrCommutes(x / 2, y / 2);
    }
  }

  /** Or-ing two values below 2^k stays below 2^k. */
  lemma {:induction false} BitOrBounded(x: nat, y: nat, k: nat)
    requires x < Pow2(k) && y < Pow2(k)
    ensures BitOr(x, y) < Pow2(k)
    decreases k
  {
    if x != 0 && y != 0 {
      assert k > 0;
      BitOrBounded(x / 2, y / 2, k - 1);
    }
  }

  /**
   * When the low operand lies entirely below bit k and the high operand is
   * a multiple of 2^k, `|` is plain addition: the fields do not overlap.
   */
  lemma {:induction false} BitOrDisjoint(lo: nat, hi: nat, k: nat)
    requires lo < Pow2(k)
    ensures BitOr(lo, hi * Pow2(k)) == lo + hi * Pow2(k)
    decreases k
  {
    if lo != 0 && hi != 0 {
      assert k > 0;
      assert hi * Pow2(k) == 2 * (hi * Pow2(k - 1));
      assert (hi * Pow2(k)) / 2 == hi * Pow2(k - 1);
      assert (hi * Pow2(k)) % 2 == 0;
      BitOrDisjoint(lo / 2, hi, k - 1);
    }
  }

  /** The same fact with the operands in source order (high field first). */
  lemma BitOrDisjointHighFirst(hi: nat, lo: nat, k: nat)
    requires lo < Pow2(k)
    ensures BitOr(hi * Pow2(k), lo) == lo + hi * Pow2(k)
  {
    BitOrCommutes(hi * Pow2(k), lo);
    BitOrDisjoint(lo, hi, k);
  }

  /** Shifting both operands by the same amount commutes with `|`. */
  lemma {:induction false} BitOrShifted(x: nat, y: nat, k: nat)
    ensures BitOr(x * Pow2(k), y * Pow2(k)) == BitOr(x, y) * Pow2(k)
    decreases k
  {
    if k > 0 {
      var p := Pow2(k - 1);
      assert Pow2(k) == 2 * p;
      hide Pow2, BitOr;
      BitOrShifted(x, y, k - 1);
      ScaleDouble(x, p);
      ScaleDouble(y, p);
      ScaleDouble(BitOr(x, y), p);
      BitOrDouble(x * p, y * p);
      calc {
        BitOr(x * Pow2(k), y * Pow2(k));
        BitOr(2 * (x * p), 2 * (y * p));
        2 * BitOr(x * p, y * p);
        2 * (BitOr(x, y) * p);
        BitOr(x, y) * Pow2(k);
      }
    }
  }

  lemma ScaleDouble(m: int, p: int)
    ensures m * (2 * p) == 2 * (m * p)
  {
  }

  lemma BitOrDouble(x: nat, y: nat)
    ensures BitOr(2 * x, 2 * y) == 2 * BitOr(x, y)
  {
    if x != 0 && y != 0 {
      assert (2 * x) / 2 == x && (2 * y) / 2 == y;
    }
  }

  /** Division and remainder are determined by any quotient/remainder split. */
  lemma DivModUnique(x: int, d: int, q: int, r: int)
    requires d > 0 && 0 <= r < d && x == q * d + r
    ensures x / d == q && x % d == r
  {
    var q' := x / d;
    var r' := x % d;
    assert x == q' * d + r';
    assert (q - q') * d == r' - r by {
      assert q * d - q' * d == (q - q') * d;
    }
    if q > q' {
      MulAtLeast(q - q', d);
    } else if q < q' {
      MulAtLeast(q' - q, d);
    }
  }

  lemma MulAtLeast(t: int, d: int)
    requires t >= 1 && d > 0
    ensures t * d >= d
  {
    assert t * d == (t - 1) * d + d;
    assert (t - 1) * d >= 0;
  }

  /** Two's-complement reinterpretation `i as u64` of a signed 64-bit value. */
  function I64ToU64(i: i64): (r: u64)
    ensures r % 0x1_0000_0000_0000_0000 == i % 0x1_0000_0000_0000_0000
  {
    if i >= 0 then i else i + 0x1_0000_0000_0000_0000
  }

  /** Two's-complement reinterpretation `u as i64` of an unsigned 64-bit value. */
  function U64ToI64(u: u64): (r: i64)
    ensures r % 0x1_0000_0000_0000_0000 == u % 0x1_0000_0000_0000_0000
  {
    if u < 0x8000_0000_0000_0000 then u else u - 0x1_0000_0000_0000_0000
  }

  lemma SignedRoundTrip(i: i64)
    ensures U64ToI64(I64ToU64(i)) == i
  {
  }

  /** The powers of two that the byte and instruction layouts use. */
  lemma Pow2Values()
    ensures Pow2(6) == 64 && Pow2(8) == 0x100 && Pow2(9) == 0x200
    ensures Pow2(14) == 0x4000 && Pow2(16) == 0x1_0000 && Pow2(18) == 0x4_0000
    ensures Pow2(23) == 0x80_0000 && Pow2(24) == 0x100_0000 && Pow2(26) == 0x400_0000
    ensures Pow2(32) == 0x1_0000_0000
  {
    assert Pow2(1) == 0x2;
    assert Pow2(2) == 0x4;
    assert Pow2(3) == 0x8;
    assert Pow2(4) == 0x10;
    assert Pow2(5) == 0x20;
    assert Pow2(6) == 0x40;
    assert Pow2(7) == 0x80;
    assert Pow2(8) == 0x100;
    assert Pow2(9) == 0x200;
    assert Pow2(10) == 0x400;
    assert Pow2(11) == 0x800;
    assert Pow2(12) == 0x1000;
    assert Pow2(13) == 0x2000;
    assert Pow2(14) == 0x4000;
    assert Pow2(15) == 0x8000;
    assert Pow2(16) == 0x10000;
    assert Pow2(17) == 0x20000;
    assert Pow2(18) == 0x40000;
    assert Pow2(19) == 0x80000;
    assert Pow2(20) == 0x100000;
    assert Pow2(21) == 0x200000;
    assert Pow2(22) == 0x400000;
    assert Pow2(23) == 0x800000;
    assert Pow2(24) == 0x1000000;
    assert Pow2(25) == 0x2000000;
    assert Pow2(26) == 0x4000000;
    assert Pow2(27) == 0x8000000;
    assert Pow2(28) == 0x10000000;
    assert Pow2(29) == 0x20000000;
    assert Pow2(30) == 0x40000000;
    assert Pow2(31) == 0x80000000;
    assert Pow2(32) == 0x100000000;
  }

  /** The unsigned value of bytes read least significant first. */
  function LeValue(bs: seq<u8>): nat
  {
    if |bs| == 0 then 0 else bs[0] + 0x100 * LeValue(bs[1..])
  }

  lemma LeValue4(bs: seq<u8>)
    requires |bs| == 4
    ensures LeValue(bs) == bs[0] as int + 0x100 * bs[1] as int + 0x1_0000 * bs[2] as int + 0x100_0000 * bs[3] as int
  {
    var t1, t2, t3 := bs[1..], bs[2..], bs[3..];
    assert t1[1..] == t2 && t2[1..] == t3 && t3[1..] == [];
    assert LeValue(t3) == bs[3] as int;
    assert LeValue(t2) == bs[2] as int + 0x100 * bs[3] as int;
    assert LeValue(t1) == bs[1] as int + 0x100 * LeValue(t2);
  }

  /** Cutting a 32-bit value into its four bytes and reassembling it is the identity. */
  lemma BytesOfU32(v: nat)
    requires v < 0x1_0000_0000
    ensures v % 0x100 + 0x100 * ((v / 0x100) % 0x100) + 0x1_0000 * ((v / 0x1_0000) % 0x100)
            + 0x100_0000 * ((v / 0x100_0000) % 0x100) == v
  {
    var q1 := v / 0x100;
    var q2 := q1 / 0x100;
    var q3 := q2 / 0x100;
    var b0, b1, b2 := v % 0x100, q1 % 0x100, q2 % 0x100;
    assert v == b0 + 0x100 * q1;
    assert q1 == b1 + 0x100 * q2;
    assert q2 == b2 + 0x100 * q3;
    DivModUnique(v, 0x1_0000, q2, b0 + 0x100 * b1);
    DivModUnique(v, 0x100_0000, q3, b0 + 0x100 * b1 + 0x1_0000 * b2);
    assert q3 < 0x100;
  }

  /**
   * `(a3 << 24) | (a2 << 16) | (a1 << 8) | a0` on bytes: the shifted fields
   * do not overlap, so the result is their little-endian sum.
   */
  lemma OrOfShiftedBytes(a0: u8, a1: u8, a2: u8, a3: u8)
    ensures BitOr(BitOr(BitOr(a3 * 0x100_0000, a2 * 0x1_0000), a1 * 0x100), a0)
            == a0 as int + 0x100 * a1 as int + 0x1_0000 * a2 as int + 0x100_0000 * a3 as int
  {
    Pow2Values();
    BitOrDisjointHighFirst(a3, a2 * 0x1_0000, 24);
    var x := a2 as int * 0x1_0000 + a3 as int * 0x100_0000;
    assert x == (a2 as int + 0x100 * a3 as int) * Pow2(16);
    BitOrDisjointHighFirst(a2 as int + 0x100 * a3 as int, a1 * 0x100, 16);
    var y := a1 as int * 0x100 + x;
    assert y == (a1 as int + 0x100 * a2 as int + 0x1_0000 * a3 as int) * Pow2(8);
    BitOrDisjointHighFirst(a1 as int + 0x100 * a2 as int + 0x1_0000 * a3 as int, a0, 8);
  }

  /** `(hi << 32) | lo` for 32-bit halves is `lo + hi * 2^32`. */
  lemma OrOfShiftedWords(lo: nat, hi: nat)
    requires lo < 0x1_0000_0000
    ensures BitOr(hi * 0x1_0000_0000, lo) == lo + hi * 0x1_0000_0000
  {
    Pow2Values();
    BitOrDisjointHighFirst(hi, lo, 32);
  }

  /** Equal-length byte strings with the same little-endian value are equal. */
  lemma {:induction false} LeValueInjective(a: seq<u8>, b: seq<u8>)
    requires |a| == |b| && LeValue(a) == LeValue(b)
    ensures a == b
    decreases |a|
  {
    if |a| > 0 {
      DivModUnique(LeValue(a), 0x100, LeValue(a[1..]), a[0]);
      DivModUnique(LeValue(b), 0x100, LeValue(b[1..]), b[0]);
      LeValueInjective(a[1..], b[1..]);
      assert a == [a[0]] + a[1..] && b == [b[0]] + b[1..];
    }
  }

  /** Concatenation is associative; stated once so that proofs can cite it cheaply. */
  lemma AppendAssoc<T>(a: seq<T>, b: seq<T>, c: seq<T>)
    ensures a + b + c == a + (b + c)
  {
  }
}

=== FILE: chunk.dfy ===
/**
 * The Lua 5.3 precompiled-chunk vocabulary: header constants, constant tag
 * bytes, and the prototype tree that the writer serialises and the reader
 * rebuilds.
 */
module Chunk {
  import opened Bits
  import opened Wrappers

  /** "\x1bLua" */
  const LUA_SIGNATURE: seq<u8> := [0x1b, 0x4c, 0x75, 0x61]
  const LUAC_VERSION: u8 := 0x53
  const LUAC_FORMAT: u8 := 0
  /** "\x19\x93\r\n\x1a\n" */
  const LUAC_DATA: seq<u8> := [0x19, 0x93, 0x0d, 0x0a, 0x1a, 0x0a]
  const CINT_SIZE: u8 := 4
  const CSIZET_SIZE: u8 := 8
  const INSTRUCTION_SIZE: u8 := 4
  const LUA_INTEGER_SIZE: u8 := 8
  const LUA_NUMBER_SIZE: u8 := 8
  const LUAC_INT: i64 := 0x5678
  /** IEEE-754 binary64 bit pattern of 370.5 (`f64::to_bits`). */
  const LUAC_NUM: u64 := 0x4077_2800_0000_0000

  const TAG_NIL: u8 := 0x00
  const TAG_BOOLEAN: u8 := 0x01
  const TAG_NUMBER: u8 := 0x03
  const TAG_INTEGER: u8 := 0x13
  const TAG_SHORT_STR: u8 := 0x04
  const TAG_LONG_STR: u8 := 0x14

  /** A Rust `String`: its UTF-8 bytes. */
  type LuaString = seq<u8>

  /** A float is carried as its 64-bit pattern; no float arithmetic is modelled. */
  datatype Constant =
    | Nil
    | Boolean(b: bool)
    | Number(bits: u64)
    | Integer(i: i64)
    | Str(s: LuaString)

  datatype UpValue = UpValue(instack: u8, idx: u8)

  datatype LocalVar = LocalVar(varName: LuaString, startPc: u32, endPc: u32)

  datatype Prototype = Prototype(
    source: Option<LuaString>,
    lineDefined: u32,
    lastLineDefined: u32,
    numParams: u8,
    isVararg: u8,
    maxStackSize: u8,
    code: seq<u32>,
    constants: seq<Constant>,
    upValues: seq<UpValue>,
    protos: seq<Prototype>,
    lineInfo: seq<u32>,
    localVars: seq<LocalVar>,
    upValueNames: seq<LuaString>)

  /** The six tag bytes are pairwise distinct, so dispatch on a tag is unambiguous. */
  lemma TagsDistinct()
    ensures |{TAG_NIL, TAG_BOOLEAN, TAG_NUMBER, TAG_INTEGER, TAG_SHORT_STR, TAG_LONG_STR}| == 6
  {
  }

  /** Every prototype of the tree, the root included, carries a source name. */
  predicate AllSourced(p: Prototype)
    decreases p
  {
    && p.source.Some?
    && forall i | 0 <= i < |p.protos| :: AllSourced(p.protos[i])
  }

  /**
   * Well-formed UTF-8 (Unicode Table 3-7): the byte strings that
   * `String::from_utf8` accepts, decoded one scalar value at a time.
   */
  predicate ValidUtf8(s: seq<u8>)
    decreases |s|
  {
    if |s| == 0 then true
    else if s[0] < 0x80 then ValidUtf8(s[1..])
    else if 0xC2 <= s[0] <= 0xDF then
      |s| >= 2 && Cont(s[1]) && ValidUtf8(s[2..])
    else if 0xE0 <= s[0] <= 0xEF then
      && |s| >= 3
      && (if s[0] == 0xE0 then 0xA0 <= s[1] <= 0xBF
          else if s[0] == 0xED then 0x80 <= s[1] <= 0x9F
          else Cont(s[1]))
      && Cont(s[2])
      && ValidUtf8(s[3..])
    else if 0xF0 <= s[0] <= 0xF4 then
      && |s| >= 4
      && (if s[0] == 0xF0 then 0x90 <= s[1] <= 0xBF
          else if s[0] == 0xF4 then 0x80 <= s[1] <= 0x8F
          else Cont(s[1]))
      && Cont(s[2]) && Cont(s[3])
      && ValidUtf8(s[4..])
    else false
  }

  /** A UTF-8 continuation byte `10xxxxxx`. */
  predicate Cont(b: u8) {
    0x80 <= b <= 0xBF
  }

  /** Every ASCII string is valid UTF-8. */
  lemma {:induction false} AsciiIsUtf8(s: seq<u8>)
    requires forall i | 0 <= i < |s| :: s[i] < 0x80
    ensures ValidUtf8(s)
    decreases |s|
  {
    if |s| > 0 {
      AsciiIsUtf8(s[1..]);
    }
  }
}

=== FILE: codec.dfy ===
/**
 * The whole-chunk entry points and the round trips between the writer and
 * the reader.
 *
 * `Decode` is `binary::decode`: header check, one discarded byte (the
 * size-upvalues byte of Lua 5.3), and the root prototype read with no
 * inherited source. The repository has no encoder entry point of its own;
 * `Encode` assembles the writer's pieces in the order `Decode` consumes them.
 */
module Codec {
  import opened Bits
  import opened Wrappers
  import opened Chunk
  import opened Writer
  import opened Reader

  const SIZE_T_LIMIT: int := 0x1_0000_0000_0000_0000
  const COUNT_LIMIT: int := 0x1_0000_0000

  /** `binary::decode`. */
  function Decode(data: seq<u8>): (r: Result<Prototype, ReadError>)
    ensures CheckHeader(data).Err? ==> r == Err(CheckHeader(data).error)
    ensures r.Ok? ==> |data| >= 34
  {
    var rest :- CheckHeader(data);
    var sizeUpValues :- ReadByte(rest);
    var root :- ReadProto0(sizeUpValues.rest, None);
    Ok(root.value)
  }

  /** Header, size-upvalues byte, root prototype, in the Lua 5.3 string layout. */
  function Encode(p: Prototype): (r: Result<seq<u8>, WriteError>)
    ensures r.Ok? <==> AllSourced(p)
  {
    hide WriteHeader, WriteProto, Writable, AllSourced;
    WritableLua53IsAllSourced(p);
    WriteProtoOk(Lua53, p);
    var body :- WriteProto(Lua53, p);
    Ok(WriteHeader() + [|p.upValues| % 0x100] + body)
  }

  lemma {:induction false} WritableLua53IsAllSourced(p: Prototype)
    ensures Writable(Lua53, p) <==> AllSourced(p)
    decreases p
  {
    forall i | 0 <= i < |p.protos| {
      WritableLua53IsAllSourced(p.protos[i]);
    }
  }

  // ---------------------------------------------------------------------
  // Primitive round trips

  lemma U32RoundTrip(v: u32, rest: seq<u8>)
    ensures ReadU32(WriteU32(v) + rest) == Ok(Parsed(v, rest))
  {
    var w := WriteU32(v);
    assert (w + rest)[..4] == w;
    assert (w + rest)[4..] == rest;
  }

  lemma U64RoundTrip(v: u64, rest: seq<u8>)
    ensures ReadU64(WriteU64(v) + rest) == Ok(Parsed(v, rest))
  {
    var w := WriteU64(v);
    assert (w + rest)[..8] == w;
    assert (w + rest)[8..] == rest;
  }

  lemma LuaIntegerRoundTrip(i: i64, rest: seq<u8>)
    ensures ReadLuaInteger(WriteLuaInteger(i) + rest) == Ok(Parsed(i, rest))
  {
    U64RoundTrip(I64ToU64(i), rest);
    SignedRoundTrip(i);
  }

  /** The strings the Lua 5.3 layout carries and `String::from_utf8` gives back. */
  predicate EncodableString(s: LuaString)
  {
    ValidUtf8(s) && |s| + 1 < SIZE_T_LIMIT
  }

  /** In the Lua 5.3 layout a string is read back as written, short or long. */
  lemma StringRoundTrip(s: LuaString, rest: seq<u8>)
    requires EncodableString(s)
    ensures WriteString0(Lua53, s).Ok?
    ensures ReadString0(WriteString0(Lua53, s).value + rest) == Ok(Parsed(Some(s), rest))
  {
    if |s| + 1 < 0xFF {
      ShortStringRoundTrip(s, rest);
    } else {
      LongStringRoundTrip(s, rest);
    }
  }

  lemma ShortStringRoundTrip(s: LuaString, rest: seq<u8>)
    requires EncodableString(s) && |s| + 1 < 0xFF
    ensures WriteString0(Lua53, s) == Ok([|s| + 1] + s)
    ensures ReadString0([|s| + 1] + s + rest) == Ok(Parsed(Some(s), rest))
  {
    var t := [|s| + 1] + s + rest;
    assert t[0] == |s| + 1;
    assert t[1..|s| + 1] == s;
    assert t[|s| + 1..] == rest;
  }

  lemma LongStringRoundTrip(s: LuaString, rest: seq<u8>)
    requires EncodableString(s) && |s| + 1 >= 0xFF
    ensures WriteString0(Lua53, s) == Ok([0xFF] + WriteU64(|s| + 1) + s)
    ensures ReadString0([0xFF] + WriteU64(|s| + 1) + s + rest) == Ok(Parsed(Some(s), rest))
  {
    hide WriteU64, ReadU64, ValidUtf8;
    var size := |s| + 1;
    assert size % SIZE_T_LIMIT == size;
    var u := WriteU64(size);
    var t := [0xFF] + u + s + rest;
    assert t[0] == 0xFF && t[1..] == u + (s + rest);
    U64RoundTrip(size, s + rest);
    assert ReadU64(t[1..]) == Ok(Parsed(size, s + rest));
    assert ReadBytes(s + rest, size - 1) == Ok(Parsed(s, rest));
  }

  lemma ReadStringOfWritten(s: LuaString, rest: seq<u8>)
    requires EncodableString(s)
    ensures WriteString(Lua53, s).Ok?
    ensures ReadString(WriteString(Lua53, s).value + rest) == Ok(Parsed(s, rest))
  {
    StringRoundTrip(s, rest);
  }

  predicate EncodableConstant(c: Constant)
  {
    c.Str? ==> EncodableString(c.s)
  }

  /** Every constant is read back as written, under its own tag. */
  lemma ConstantRoundTrip(c: Constant, rest: seq<u8>)
    requires EncodableConstant(c)
    ensures WriteConstant(Lua53, c).Ok?
    ensures ReadConstant(WriteConstant(Lua53, c).value + rest) == Ok(Parsed(c, rest))
  {
    match c
    case Nil =>
      assert WriteConstant(Lua53, c).value + rest == [TAG_NIL] + rest;
    case Boolean(b) =>
      BooleanRoundTrip(b, rest);
    case Integer(i) =>
      IntegerConstantRoundTrip(i, rest);
    case Number(bits) =>
      NumberConstantRoundTrip(bits, rest);
    case Str(s) =>
      StrConstantRoundTrip(s, rest);
  }

  lemma BooleanRoundTrip(b: bool, rest: seq<u8>)
    ensures ReadConstant(WriteConstant(Lua53, Boolean(b)).value + rest) == Ok(Parsed(Boolean(b), rest))
  {
    hide WriteLuaInteger, ReadLuaInteger, ReadLuaNumber, ReadString, WriteU64, ReadU64;
    var t := [TAG_BOOLEAN, if b then 1 else 0] + rest;
    assert WriteConstant(Lua53, Boolean(b)).value + rest == t;
    assert ReadByte(t) == Ok(Parsed(TAG_BOOLEAN, t[1..]));
    assert ReadByte(t[1..]) == Ok(Parsed(if b then 1 else 0, rest));
  }

  lemma IntegerConstantRoundTrip(i: i64, rest: seq<u8>)
    ensures ReadConstant(WriteConstant(Lua53, Integer(i)).value + rest) == Ok(Parsed(Integer(i), rest))
  {
    hide WriteLuaInteger, ReadLuaInteger, ReadLuaNumber, ReadString, WriteU64, ReadU64;
    var payload := WriteLuaInteger(i);
    var t := [TAG_INTEGER] + (payload + rest);
    assert WriteConstant(Lua53, Integer(i)).value + rest == t;
    assert ReadByte(t) == Ok(Parsed(TAG_INTEGER, payload + rest));
    LuaIntegerRoundTrip(i, rest);
  }

  lemma NumberConstantRoundTrip(bits: u64, rest: seq<u8>)
    ensures ReadConstant(WriteConstant(Lua53, Number(bits)).value + rest) == Ok(Parsed(Number(bits), rest))
  {
    hide WriteLuaInteger, ReadLuaInteger, ReadLuaNumber, ReadString, WriteU64, ReadU64;
    var payload := WriteU64(bits);
    var t := [TAG_NUMBER] + (payload + rest);
    assert WriteConstant(Lua53, Number(bits)).value + rest == t;
    assert ReadByte(t) == Ok(Parsed(TAG_NUMBER, payload + rest));
    U64RoundTrip(bits, rest);
  }

  lemma StrConstantRoundTrip(s: LuaString, rest: seq<u8>)
    requires EncodableString(s)
    ensures WriteConstant(Lua53, Str(s)).Ok?
    ensures ReadConstant(WriteConstant(Lua53, Str(s)).value + rest) == Ok(Parsed(Str(s), rest))
  {
    ReadStringOfWritten(s, rest);
    var payload := WriteString(Lua53, s).value;
    var tag := ConstantTag(Str(s));
    assert WriteConstant(Lua53, Str(s)) == Ok([tag] + payload);
    AppendAssoc([tag], payload, rest);
    ReadStrConstant(tag, payload + rest, s, rest);
  }

  /** Behind either string tag, `read_constant` is `read_string`. */
  lemma ReadStrConstant(tag: u8, t: seq<u8>, s: LuaString, rest: seq<u8>)
    requires tag == TAG_SHORT_STR || tag == TAG_LONG_STR
    requires ReadString(t) == Ok(Parsed(s, rest))
    ensures ReadConstant([tag] + t) == Ok(Parsed(Str(s), rest))
  {
    assert ReadByte([tag] + t) == Ok(Parsed(tag, t));
  }

  lemma UpValueRoundTrip(u: UpValue, rest: seq<u8>)
    ensures ReadUpValue(WriteUpValue(u) + rest) == Ok(Parsed(u, rest))
  {
    assert (WriteUpValue(u) + rest)[2..] == rest;
  }

  lemma LocVarRoundTrip(v: LocalVar, rest: seq<u8>)
    requires EncodableString(v.varName)
    ensures WriteLocVar(Lua53, v).Ok?
    ensures ReadLocVar(WriteLocVar(Lua53, v).value + rest) == Ok(Parsed(v, rest))
  {
    hide ReadString, WriteString, ReadU32, WriteU32;
    ReadStringOfWritten(v.varName, []);
    var name := WriteString(Lua53, v.varName).value;
    var a, b := WriteU32(v.startPc), WriteU32(v.endPc);
    assert WriteLocVar(Lua53, v).value + rest == name + (a + (b + rest));
    ReadStringOfWritten(v.varName, a + (b + rest));
    U32RoundTrip(v.startPc, b + rest);
    U32RoundTrip(v.endPc, rest);
  }

  // ---------------------------------------------------------------------
  // Vectors

  /** `read` gives `x` back from whatever `write` made of it, followed by anything. */
  ghost predicate ItemRoundTrips<T>(write: T -> Result<seq<u8>, WriteError>,
                                    read: seq<u8> -> Result<Parsed<T>, ReadError>, x: T)
  {
    write(x).Ok? && forall tail :: read(write(x).value + tail) == Ok(Parsed(x, tail))
  }

  /** Items written one after another are read back in order by `n` item reads. */
  lemma {:induction false} ItemsRoundTrip<T>(xs: seq<T>, rest: seq<u8>,
      write: T -> Result<seq<u8>, WriteError>, read: seq<u8> -> Result<Parsed<T>, ReadError>)
    requires Consumes(read)
    requires forall i | 0 <= i < |xs| :: ItemRoundTrips(write, read, xs[i])
    ensures WriteItems(xs, write).Ok?
    ensures ReadItems(WriteItems(xs, write).value + rest, |xs|, read) == Ok(Parsed(xs, rest))
    decreases |xs|
  {
    if |xs| > 0 {
      var ys := xs[1..];
      assert forall i | 0 <= i < |ys| :: ys[i] == xs[i + 1];
      ItemsRoundTrip(ys, rest, write, read);
      assert ItemRoundTrips(write, read, xs[0]);
      var h := write(xs[0]).value;
      var t := WriteItems(ys, write).value;
      AppendAssoc(h, t, rest);
      assert read(h + (t + rest)) == Ok(Parsed(xs[0], t + rest));
      assert [xs[0]] + ys == xs;
    } else {
      assert WriteItems(xs, write).value + rest == rest;
    }
  }

  /** `read` gives `x` back from `write(x)`, followed by anything. */
  ghost predicate TotalItemRoundTrips<T>(write: T -> seq<u8>,
                                         read: seq<u8> -> Result<Parsed<T>, ReadError>, x: T)
  {
    forall tail :: read(write(x) + tail) == Ok(Parsed(x, tail))
  }

  /** The same for items whose writer cannot fail. */
  lemma {:induction false} AllRoundTrip<T>(xs: seq<T>, rest: seq<u8>,
      write: T -> seq<u8>, read: seq<u8> -> Result<Parsed<T>, ReadError>)
    requires Consumes(read)
    requires forall i | 0 <= i < |xs| :: TotalItemRoundTrips(write, read, xs[i])
    ensures ReadItems(WriteAll(xs, write) + rest, |xs|, read) == Ok(Parsed(xs, rest))
    decreases |xs|
  {
    if |xs| > 0 {
      var ys := xs[1..];
      assert forall i | 0 <= i < |ys| :: ys[i] == xs[i + 1];
      AllRoundTrip(ys, rest, write, read);
      assert TotalItemRoundTrips(write, read, xs[0]);
      var h := write(xs[0]);
      var t := WriteAll(ys, write);
      AppendAssoc(h, t, rest);
      assert read(h + (t + rest)) == Ok(Parsed(xs[0], t + rest));
      assert [xs[0]] + ys == xs;
    } else {
      assert WriteAll(xs, write) + rest == rest;
    }
  }

  lemma CountRoundTrip(n: nat, rest: seq<u8>)
    requires n < COUNT_LIMIT
    ensures ReadU32(WriteCount(n) + rest) == Ok(Parsed(n, rest))
  {
    assert n % 0x1_0000_0000 == n;
    U32RoundTrip(n, rest);
  }

  lemma U32VecRoundTrip(xs: seq<u32>, rest: seq<u8>)
    requires |xs| < COUNT_LIMIT
    ensures ReadVec(WriteCount(|xs|) + WriteAll(xs, U32Writer()) + rest, ReadU32) == Ok(Parsed(xs, rest))
  {
    forall i | 0 <= i < |xs|
      ensures TotalItemRoundTrips(U32Writer(), ReadU32, xs[i])
    {
      forall tail ensures ReadU32(U32Writer()(xs[i]) + tail) == Ok(Parsed(xs[i], tail)) {
        U32RoundTrip(xs[i], tail);
      }
    }
    var body := WriteAll(xs, U32Writer());
    AllRoundTrip(xs, rest, U32Writer(), ReadU32);
    CountRoundTrip(|xs|, body + rest);
    AppendAssoc(WriteCount(|xs|), body, rest);
  }

  lemma UpValueVecRoundTrip(xs: seq<UpValue>, rest: seq<u8>)
    requires |xs| < COUNT_LIMIT
    ensures ReadVec(WriteCount(|xs|) + WriteAll(xs, UpValueWriter()) + rest, ReadUpValue) == Ok(Parsed(xs, rest))
  {
    forall i | 0 <= i < |xs|
      ensures TotalItemRoundTrips(UpValueWriter(), ReadUpValue, xs[i])
    {
      forall tail ensures ReadUpValue(UpValueWriter()(xs[i]) + tail) == Ok(Parsed(xs[i], tail)) {
        UpValueRoundTrip(xs[i], tail);
      }
    }
    var body := WriteAll(xs, UpValueWriter());
    AllRoundTrip(xs, rest, UpValueWriter(), ReadUpValue);
    CountRoundTrip(|xs|, body + rest);
    AppendAssoc(WriteCount(|xs|), body, rest);
  }

  lemma ConstantVecRoundTrip(xs: seq<Constant>, rest: seq<u8>)
    requires |xs| < COUNT_LIMIT
    requires forall i | 0 <= i < |xs| :: EncodableConstant(xs[i])
    ensures WriteVec(xs, ConstantWriter(Lua53)).Ok?
    ensures ReadVec(WriteVec(xs, ConstantWriter(Lua53)).value + rest, ReadConstant) == Ok(Parsed(xs, rest))
  {
    forall i | 0 <= i < |xs|
      ensures ItemRoundTrips(ConstantWriter(Lua53), ReadConstant, xs[i])
    {
      ConstantRoundTrip(xs[i], []);
      forall tail ensures ReadConstant(ConstantWriter(Lua53)(xs[i]).value + tail) == Ok(Parsed(xs[i], tail)) {
        ConstantRoundTrip(xs[i], tail);
      }
    }
    ItemsRoundTrip(xs, rest, ConstantWriter(Lua53), ReadConstant);
    var body := WriteItems(xs, ConstantWriter(Lua53)).value;
    CountRoundTrip(|xs|, body + rest);
    AppendAssoc(WriteCount(|xs|), body, rest);
  }

  lemma LocVarVecRoundTrip(xs: seq<LocalVar>, rest: seq<u8>)
    requires |xs| < COUNT_LIMIT
    requires forall i | 0 <= i < |xs| :: EncodableString(xs[i].varName)
    ensures WriteVec(xs, LocVarWriter(Lua53)).Ok?
    ensures ReadVec(WriteVec(xs, LocVarWriter(Lua53)).value + rest, ReadLocVar) == Ok(Parsed(xs, rest))
  {
    forall i | 0 <= i < |xs|
      ensures ItemRoundTrips(LocVarWriter(Lua53), ReadLocVar, xs[i])
    {
      LocVarRoundTrip(xs[i], []);
      forall tail ensures ReadLocVar(LocVarWriter(Lua53)(xs[i]).value + tail) == Ok(Parsed(xs[i], tail)) {
        LocVarRoundTrip(xs[i], tail);
      }
    }
    ItemsRoundTrip(xs, rest, LocVarWriter(Lua53), ReadLocVar);
    var body := WriteItems(xs, LocVarWriter(Lua53)).value;
    CountRoundTrip(|xs|, body + rest);
    AppendAssoc(WriteCount(|xs|), body, rest);
  }

  lemma StringVecRoundTrip(xs: seq<LuaString>, rest: seq<u8>)
    requires |xs| < COUNT_LIMIT
    requires forall i | 0 <= i < |xs| :: EncodableString(xs[i])
    ensures WriteVec(xs, StringWriter(Lua53)).Ok?
    ensures ReadVec(WriteVec(xs, StringWriter(Lua53)).value + rest, ReadString) == Ok(Parsed(xs, rest))
  {
    forall i | 0 <= i < |xs|
      ensures ItemRoundTrips(StringWriter(Lua53), ReadString, xs[i])
    {
      ReadStringOfWritten(xs[i], []);
      forall tail ensures ReadString(StringWriter(Lua53)(xs[i]).value + tail) == Ok(Parsed(xs[i], tail)) {
        ReadStringOfWritten(xs[i], tail);
      }
    }
    ItemsRoundTrip(xs, rest, StringWriter(Lua53), ReadString);
    var body := WriteItems(xs, StringWriter(Lua53)).value;
    CountRoundTrip(|xs|, body + rest);
    AppendAssoc(WriteCount(|xs|), body, rest);
  }

  // ---------------------------------------------------------------------
  // Prototypes

  /** The trees the Lua 5.3 layout carries and the reader gives back unchanged. */
  predicate Encodable(p: Prototype)
    decreases p
  {
    && p.source.Some? && EncodableString(p.source.value)
    && EncodableHead(p) && EncodableTail(p)
    && |p.protos| < COUNT_LIMIT
    && forall i | 0 <= i < |p.protos| :: Encodable(p.protos[i])
  }

  predicate EncodableHead(p: Prototype)
  {
    && |p.code| < COUNT_LIMIT && |p.constants| < COUNT_LIMIT && |p.upValues| < COUNT_LIMIT
    && forall i | 0 <= i < |p.constants| :: EncodableConstant(p.constants[i])
  }

  predicate EncodableTail(p: Prototype)
  {
    && |p.lineInfo| < COUNT_LIMIT && |p.localVars| < COUNT_LIMIT && |p.upValueNames| < COUNT_LIMIT
    && (forall i | 0 <= i < |p.localVars| :: EncodableString(p.localVars[i].varName))
    && (forall i | 0 <= i < |p.upValueNames| :: EncodableString(p.upValueNames[i]))
  }

  function HeadOf(p: Prototype): ProtoHead
  {
    ProtoHead(p.lineDefined, p.lastLineDefined, p.numParams, p.isVararg, p.maxStackSize,
              p.code, p.constants, p.upValues)
  }

  function TailOf(p: Prototype): ProtoTail
  {
    ProtoTail(p.lineInfo, p.localVars, p.upValueNames)
  }

  lemma HeadRoundTrip(p: Prototype, rest: seq<u8>)
    requires EncodableHead(p)
    ensures WriteProtoHead(Lua53, p).Ok?
    ensures ReadProtoHead(WriteProtoHead(Lua53, p).value + rest) == Ok(Parsed(HeadOf(p), rest))
  {
    hide WriteU32, ReadU32, WriteVec, ReadVec, WriteAll, WriteCount;
    ConstantVecRoundTrip(p.constants, []);
    var a, b := WriteU32(p.lineDefined), WriteU32(p.lastLineDefined);
    var bytes: seq<u8> := [p.numParams, p.isVararg, p.maxStackSize];
    var code := WriteCount(|p.code|) + WriteAll(p.code, U32Writer());
    var constants := WriteVec(p.constants, ConstantWriter(Lua53)).value;
    var upValues := WriteCount(|p.upValues|) + WriteAll(p.upValues, UpValueWriter());
    var x4 := constants + upValues;
    var x3 := code + x4;
    var x2 := bytes + x3;
    var x1 := b + x2;
    assert WriteProtoHead(Lua53, p).value == a + x1;
    AppendAssoc(a, x1, rest);
    U32RoundTrip(p.lineDefined, x1 + rest);
    AppendAssoc(b, x2, rest);
    U32RoundTrip(p.lastLineDefined, x2 + rest);
    AppendAssoc(bytes, x3, rest);
    assert (bytes + (x3 + rest))[1..][1..][1..] == x3 + rest;
    AppendAssoc(code, x4, rest);
    U32VecRoundTrip(p.code, x4 + rest);
    AppendAssoc(constants, upValues, rest);
    ConstantVecRoundTrip(p.constants, upValues + rest);
    UpValueVecRoundTrip(p.upValues, rest);
  }

  lemma TailRoundTrip(p: Prototype, rest: seq<u8>)
    requires EncodableTail(p)
    ensures WriteProtoTail(Lua53, p).Ok?
    ensures ReadProtoTail(WriteProtoTail(Lua53, p).value + rest) == Ok(Parsed(TailOf(p), rest))
  {
    LocVarVecRoundTrip(p.localVars, []);
    StringVecRoundTrip(p.upValueNames, []);
    var lines := WriteCount(|p.lineInfo|) + WriteAll(p.lineInfo, U32Writer());
    var locals := WriteVec(p.localVars, LocVarWriter(Lua53)).value;
    var names := WriteVec(p.upValueNames, StringWriter(Lua53)).value;
    assert WriteProtoTail(Lua53, p).value == lines + (locals + names);
    AppendAssoc(lines, locals + names, rest);
    U32VecRoundTrip(p.lineInfo, (locals + names) + rest);
    AppendAssoc(locals, names, rest);
    LocVarVecRoundTrip(p.localVars, names + rest);
    StringVecRoundTrip(p.upValueNames, rest);
  }

  /**
   * A prototype tree written in the Lua 5.3 layout is read back unchanged,
   * whatever source the reader would have inherited.
   */
  lemma {:induction false} ProtoRoundTrip(p: Prototype, parent: Option<LuaString>, rest: seq<u8>)
    requires Encodable(p)
    ensures WriteProto(Lua53, p).Ok?
    ensures ReadProto0(WriteProto(Lua53, p).value + rest, parent) == Ok(Parsed(p, rest))
    decreases p, 1
  {
    hide WriteProto, ReadProto0, WriteProtoHead, WriteProtoTail, ReadProtoHead, ReadProtoTail, WriteProtos, ReadProtos;
    TailRoundTrip(p, []);
    var tail := WriteProtoTail(Lua53, p).value;
    ProtosRoundTrip(p, 0, p.source, tail + rest);
    assert p.protos[0..] == p.protos;
    ProtoRoundTripOver(p, parent, rest, WriteProtos(Lua53, p, 0).value);
  }

  /** The step of `ProtoRoundTrip` once the children are known to round-trip. */
  lemma ProtoRoundTripOver(p: Prototype, parent: Option<LuaString>, rest: seq<u8>, protos: seq<u8>)
    requires Encodable(p)
    requires WriteProtos(Lua53, p, 0) == Ok(protos)
    requires WriteProtoTail(Lua53, p).Ok?
    requires ReadProtos(protos + (WriteProtoTail(Lua53, p).value + rest), |p.protos|, p.source)
             == Ok(Parsed(p.protos, WriteProtoTail(Lua53, p).value + rest))
    ensures WriteProto(Lua53, p).Ok?
    ensures ReadProto0(WriteProto(Lua53, p).value + rest, parent) == Ok(Parsed(p, rest))
  {
    hide WriteProto, ReadProto0, WriteProtoHead, WriteProtoTail, ReadProtoHead, ReadProtoTail;
    hide WriteString0, ReadString0, WriteU32, ReadU32, WriteProtos, ReadProtos;
    HeadRoundTrip(p, []);
    StringRoundTrip(p.source.value, []);
    var source := WriteString0(Lua53, p.source.value).value;
    var head := WriteProtoHead(Lua53, p).value;
    var count := WriteCount(|p.protos|);
    var tail := WriteProtoTail(Lua53, p).value;
    var x3 := protos + tail;
    var x2 := count + x3;
    var x1 := head + x2;
    WriteProtoShape(Lua53, p, source, head, protos, tail);
    AppendAssoc(source, x1, rest);
    StringRoundTrip(p.source.value, x1 + rest);
    AppendAssoc(head, x2, rest);
    HeadRoundTrip(p, x2 + rest);
    AppendAssoc(count, x3, rest);
    CountRoundTrip(|p.protos|, x3 + rest);
    AppendAssoc(protos, tail, rest);
    TailRoundTrip(p, rest);
    ReadProto0Steps(source + (x1 + rest), parent, p.source, HeadOf(p), p.protos, TailOf(p),
                    x1 + rest, x2 + rest, x3 + rest, tail + rest, rest);
  }

  /** `write_proto` is the concatenation of its five parts. */
  lemma WriteProtoShape(layout: StringLayout, p: Prototype, source: seq<u8>, head: seq<u8>, protos: seq<u8>, tail: seq<u8>)
    requires p.source.Some?
    requires WriteString0(layout, p.source.value) == Ok(source)
    requires WriteProtoHead(layout, p) == Ok(head)
    requires WriteProtos(layout, p, 0) == Ok(protos)
    requires WriteProtoTail(layout, p) == Ok(tail)
    ensures WriteProto(layout, p) == Ok(source + (head + (WriteCount(|p.protos|) + (protos + tail))))
  {
  }

  /** `read_proto0` is the composition of its five reads. */
  lemma ReadProto0Steps(s: seq<u8>, parent: Option<LuaString>, source: Option<LuaString>, h: ProtoHead,
                        protos: seq<Prototype>, t: ProtoTail, s1: seq<u8>, s2: seq<u8>, s3: seq<u8>,
                        s4: seq<u8>, s5: seq<u8>)
    requires ReadString0(s) == Ok(Parsed(source, s1))
    requires ReadProtoHead(s1) == Ok(Parsed(h, s2))
    requires ReadU32(s2) == Ok(Parsed(|protos|, s3))
    requires ReadProtos(s3, |protos|, source.Or(parent)) == Ok(Parsed(protos, s4))
    requires ReadProtoTail(s4) == Ok(Parsed(t, s5))
    ensures ReadProto0(s, parent) == Ok(Parsed(Assemble(source.Or(parent), h, protos, t), s5))
  {
  }

  lemma {:induction false} ProtosRoundTrip(q: Prototype, i: nat, parent: Option<LuaString>, rest: seq<u8>)
    requires i <= |q.protos|
    requires forall j | i <= j < |q.protos| :: Encodable(q.protos[j])
    ensures WriteProtos(Lua53, q, i).Ok?
    ensures ReadProtos(WriteProtos(Lua53, q, i).value + rest, |q.protos| - i, parent) == Ok(Parsed(q.protos[i..], rest))
    decreases q, 0, |q.protos| - i
  {
    hide *;
    if i < |q.protos| {
      ProtosRoundTrip(q, i + 1, parent, rest);
      var t := WriteProtos(Lua53, q, i + 1).value;
      ProtoRoundTrip(q.protos[i], parent, t + rest);
      var h := WriteProto(Lua53, q.protos[i]).value;
      WriteProtosShape(Lua53, q, i, h, t);
      AppendAssoc(h, t, rest);
      ReadProtosStep(h + (t + rest), |q.protos| - i, parent, q.protos[i], q.protos[i + 1..], t + rest, rest);
      assert [q.protos[i]] + q.protos[i + 1..] == q.protos[i..];
    } else {
      NoProtos(q, parent, rest);
      assert q.protos[i..] == [];
    }
  }

  lemma NoProtos(q: Prototype, parent: Option<LuaString>, rest: seq<u8>)
    ensures WriteProtos(Lua53, q, |q.protos|) == Ok([])
    ensures ReadProtos([] + rest, 0, parent) == Ok(Parsed([], rest))
  {
    assert [] + rest == rest;
  }

  /** `write_protos` from `i` is child `i` followed by the rest. */
  lemma WriteProtosShape(layout: StringLayout, parent: Prototype, i: nat, head: seq<u8>, tail: seq<u8>)
    requires i < |parent.protos|
    requires WriteProto(layout, parent.protos[i]) == Ok(head)
    requires WriteProtos(layout, parent, i + 1) == Ok(tail)
    ensures WriteProtos(layout, parent, i) == Ok(head + tail)
  {
  }

  /** Reading `n > 0` children is one `read_proto0` followed by `n - 1` more. */
  lemma ReadProtosStep(s: seq<u8>, n: nat, parent: Option<LuaString>, first: Prototype, others: seq<Prototype>,
                       s1: seq<u8>, s2: seq<u8>)
    requires n == |others| + 1
    requires ReadProto0(s, parent) == Ok(Parsed(first, s1))
    requires ReadProtos(s1, n - 1, parent) == Ok(Parsed(others, s2))
    ensures ReadProtos(s, n, parent) == Ok(Parsed([first] + others, s2))
  {
  }

  // ---------------------------------------------------------------------
  // Header

  /** Signature, version, format and the conversion-check bytes. */
  const IDENTITY: seq<u8> := LUA_SIGNATURE + [LUAC_VERSION, LUAC_FORMAT] + LUAC_DATA
  /** The five size bytes of the platform. */
  const SIZES: seq<u8> := [CINT_SIZE, CSIZET_SIZE, INSTRUCTION_SIZE, LUA_INTEGER_SIZE, LUA_NUMBER_SIZE]

  lemma HeaderParts()
    ensures |IDENTITY| == 12 && |SIZES| == 5
    ensures WriteHeader() == IDENTITY + (SIZES + (WriteLuaInteger(LUAC_INT) + WriteU64(LUAC_NUM)))
  {
    var a, b := WriteLuaInteger(LUAC_INT), WriteU64(LUAC_NUM);
    assert WriteHeader() == IDENTITY + SIZES + a + b;
    AppendAssoc(IDENTITY + SIZES, a, b);
    AppendAssoc(IDENTITY, SIZES, a + b);
  }

  /** The identity check accepts exactly the twelve identity bytes. */
  lemma IdentityExact(s: seq<u8>)
    ensures CheckIdentity(s).Ok? <==> |s| >= 12 && s[..12] == IDENTITY
    ensures |s| >= 12 && CheckIdentity(s).Err? ==> CheckIdentity(s).error.HeaderMismatch?
  {
    if |s| >= 12 {
      assert s[..12] == s[..4] + [s[4], s[5]] + s[6..12];
      assert s[4..] == [s[4]] + s[5..] && s[5..] == [s[5]] + s[6..];
      assert s[6..][..6] == s[6..12] && s[6..][6..] == s[12..];
      if s[..12] == IDENTITY {
        assert s[..4] == LUA_SIGNATURE && s[4] == LUAC_VERSION && s[5] == LUAC_FORMAT && s[6..12] == LUAC_DATA;
      }
    }
  }

  /** The size check accepts exactly the five size bytes. */
  lemma SizesExact(s: seq<u8>)
    ensures CheckSizes(s).Ok? <==> |s| >= 5 && s[..5] == SIZES
    ensures |s| >= 5 && CheckSizes(s).Err? ==> CheckSizes(s).error.HeaderMismatch?
  {
    if |s| >= 5 {
      assert s[..5] == [s[0], s[1], s[2], s[3], s[4]];
    }
  }

  /** The integer sentinel is read as `LUAC_INT` exactly when its eight bytes are the written ones. */
  lemma IntegerSentinel(s: seq<u8>)
    requires |s| >= 8
    ensures ReadLuaInteger(s).value.value == LUAC_INT <==> s[..8] == WriteLuaInteger(LUAC_INT)
  {
    var v := ReadLuaInteger(s).value.value;
    SignedRoundTrip(v);
    SignedRoundTrip(LUAC_INT);
    if v == LUAC_INT {
      LeValueInjective(s[..8], WriteLuaInteger(LUAC_INT));
    }
  }

  /** The float sentinel is read as the bits of 370.5 exactly when its eight bytes are the written ones. */
  lemma NumberSentinel(s: seq<u8>)
    requires |s| >= 8
    ensures ReadLuaNumber(s).value.value == LUAC_NUM <==> s[..8] == WriteU64(LUAC_NUM)
  {
    if ReadLuaNumber(s).value.value == LUAC_NUM {
      LeValueInjective(s[..8], WriteU64(LUAC_NUM));
    }
  }

  /** The sentinel check accepts exactly the written integer and float sentinels. */
  lemma SentinelsExact(s: seq<u8>)
    ensures CheckSentinels(s).Ok? <==> |s| >= 16 && s[..16] == WriteLuaInteger(LUAC_INT) + WriteU64(LUAC_NUM)
    ensures |s| >= 16 && CheckSentinels(s).Err? ==> CheckSentinels(s).error.HeaderMismatch?
  {
    hide ReadLuaInteger, ReadLuaNumber, WriteLuaInteger, WriteU64;
    if |s| >= 16 {
      IntegerSentinel(s);
      NumberSentinel(s[8..]);
      assert s[..16] == s[..8] + s[8..][..8];
      SplitEquals(s[..8], s[8..][..8], WriteLuaInteger(LUAC_INT), WriteU64(LUAC_NUM));
    }
  }

  /** Two concatenations with equal-length left parts are equal exactly when both parts are. */
  lemma SplitEquals<T>(a: seq<T>, b: seq<T>, c: seq<T>, d: seq<T>)
    requires |a| == |c|
    ensures a + b == c + d <==> a == c && b == d
  {
    if a + b == c + d {
      assert a == (a + b)[..|a|] && c == (c + d)[..|a|];
      assert b == (a + b)[|a|..] && d == (c + d)[|a|..];
    }
  }

  /**
   * The header check accepts exactly the 33 bytes the writer puts first,
   * leaves the rest, and once 33 bytes are present every failure names
   * the mismatching field.
   */
  lemma HeaderExact(s: seq<u8>)
    ensures CheckHeader(s).Ok? <==> |s| >= 33 && s[..33] == WriteHeader()
    ensures CheckHeader(s).Ok? ==> CheckHeader(s).value == s[33..]
    ensures |s| >= 33 && CheckHeader(s).Err? ==> CheckHeader(s).error.HeaderMismatch?
  {
    hide CheckIdentity, CheckSizes, CheckSentinels, WriteLuaInteger, WriteU64, WriteHeader;
    HeaderParts();
    IdentityExact(s);
    if |s| >= 12 {
      var t := s[12..];
      SizesExact(t);
      if |s| >= 17 {
        assert t[5..] == s[17..];
        SentinelsExact(s[17..]);
      }
      if |s| >= 33 {
        var sentinels := WriteLuaInteger(LUAC_INT) + WriteU64(LUAC_NUM);
        assert s[..33] == s[..12] + (t[..5] + s[17..][..16]);
        SplitEquals(s[..12], t[..5] + s[17..][..16], IDENTITY, SIZES + sentinels);
        SplitEquals(t[..5], s[17..][..16], SIZES, sentinels);
        assert s[17..][16..] == s[33..];
      }
    }
  }

  /** The header reads back, with whatever follows it left in place. */
  lemma HeaderRoundTrip(rest: seq<u8>)
    ensures CheckHeader(WriteHeader() + rest) == Ok(rest)
  {
    var s := WriteHeader() + rest;
    HeaderExact(s);
    assert s[..33] == WriteHeader() && s[33..] == rest;
  }

  // ---------------------------------------------------------------------
  // Whole chunk

  /** A chunk encoded with the Lua 5.3 string layout decodes to the same tree. */
  lemma ChunkRoundTrip(p: Prototype)
    requires Encodable(p)
    ensures Encode(p).Ok?
    ensures Decode(Encode(p).value) == Ok(p)
  {
    hide WriteProto, ReadProto0, WriteHeader, CheckHeader, Decode, Encode;
    ProtoRoundTrip(p, None, []);
    var body := WriteProto(Lua53, p).value;
    var b: u8 := |p.upValues| % 0x100;
    EncodeShape(p);
    HeaderRoundTrip([b] + body);
    DecodeShape(WriteHeader() + ([b] + body), b, body);
    assert body + [] == body;
  }

  /** `Encode` is the header, the size byte and the root, once the root is writable. */
  lemma EncodeShape(p: Prototype)
    requires WriteProto(Lua53, p).Ok?
    ensures Encode(p) == Ok(WriteHeader() + ([|p.upValues| % 0x100] + WriteProto(Lua53, p).value))
  {
    hide WriteProto, WriteHeader;
    WriteProtoOk(Lua53, p);
    WritableLua53IsAllSourced(p);
    AppendAssoc(WriteHeader(), [|p.upValues| % 0x100], WriteProto(Lua53, p).value);
  }

  /** Behind an accepted header, `Decode` drops one byte and reads the root with no parent. */
  lemma DecodeShape(data: seq<u8>, b: u8, body: seq<u8>)
    requires CheckHeader(data) == Ok([b] + body)
    ensures Decode(data) == (var root :- ReadProto0(body, None); Ok(root.value))
  {
    hide CheckHeader, ReadProto0;
    assert ([b] + body)[1..] == body;
  }

  /** The byte after the header is read and dropped. */
  lemma DecodeIgnoresSizeByte(b1: u8, b2: u8, body: seq<u8>)
    ensures Decode(WriteHeader() + [b1] + body) == Decode(WriteHeader() + [b2] + body)
  {
    hide *;
    HeaderRoundTrip([b1] + body);
    HeaderRoundTrip([b2] + body);
    AppendAssoc(WriteHeader(), [b1], body);
    AppendAssoc(WriteHeader(), [b2], body);
    DecodeShape(WriteHeader() + ([b1] + body), b1, body);
    DecodeShape(WriteHeader() + ([b2] + body), b2, body);
  }

  /**
   * Decoding succeeds only behind the exact header; a root whose source byte
   * is 0 has no source (there is no parent to inherit one from).
   */
  lemma DecodeRoot(data: seq<u8>)
    ensures Decode(data).Ok? ==> |data| >= 34 && data[..33] == WriteHeader()
    ensures Decode(data).Ok? && data[34] == 0 ==> Decode(data).value.source.None?
  {
    hide WriteHeader, CheckHeader, ReadProto0;
    HeaderExact(data);
    if Decode(data).Ok? {
      assert data[33..][1..][0] == data[34];
    }
  }

  // ---------------------------------------------------------------------
  // The string layout as written

  /**
   * As written, "ab" gets the size byte 1 (its length less one); the reader
   * takes that as an empty string and leaves "ab" unread.
   */
  lemma AsWrittenStringLosesBytes(rest: seq<u8>)
    ensures WriteString0(AsWritten, [0x61, 0x62]) == Ok([1, 0x61, 0x62])
    ensures ReadString0([1, 0x61, 0x62] + rest) == Ok(Parsed(Some([]), [0x61, 0x62] + rest))
  {
    var ab: seq<u8> := [0x61, 0x62];
    assert |ab| == 2;
    assert WriteString0(AsWritten, ab) == Ok([1] + ab);
    assert [1] + ab == [1, 0x61, 0x62];
    var t: seq<u8> := [1, 0x61, 0x62] + rest;
    assert t[1..1] == [] && t[1..] == [0x61, 0x62] + rest;
  }

  /**
   * As written, the string constant "ab" comes back as the empty string
   * with its two bytes left over.
   */
  lemma AsWrittenConstantRoundTripFails()
    ensures WriteConstant(AsWritten, Str([0x61, 0x62])) == Ok([TAG_SHORT_STR, 1, 0x61, 0x62])
    ensures ReadConstant([TAG_SHORT_STR, 1, 0x61, 0x62]) == Ok(Parsed(Str([]), [0x61, 0x62]))
  {
    hide WriteConstant, ReadConstant;
    AsWrittenWritesShortTag();
    AsWrittenReadsEmpty();
  }

  /** The constant "ab" is its tag, then the as-written string. */
  lemma AsWrittenWritesShortTag()
    ensures WriteConstant(AsWritten, Str([0x61, 0x62])) == Ok([TAG_SHORT_STR, 1, 0x61, 0x62])
  {
    hide ReadString0, ReadString, ReadConstant;
    AsWrittenStringLosesBytes([]);
    assert [TAG_SHORT_STR] + [1, 0x61, 0x62] == [TAG_SHORT_STR, 1, 0x61, 0x62];
  }

  /** Behind the string tag, the size byte 1 reads as the empty string. */
  lemma AsWrittenReadsEmpty()
    ensures ReadConstant([TAG_SHORT_STR, 1, 0x61, 0x62]) == Ok(Parsed(Str([]), [0x61, 0x62]))
  {
    hide WriteConstant, WriteString0;
    AsWrittenStringLosesBytes([]);
    var ab: seq<u8> := [0x61, 0x62];
    var w: seq<u8> := [1, 0x61, 0x62];
    assert w + [] == w;
    assert ReadString(w) == Ok(Parsed([], ab)) by {
      hide ReadString0;
    }
    hide ReadString;
    ReadStrConstant(TAG_SHORT_STR, w, [], ab);
    assert [TAG_SHORT_STR] + w == [TAG_SHORT_STR, 1, 0x61, 0x62];
  }

  /**
   * As written, the empty string is not written at all, so the reader takes
   * the next byte as its size: a following 0 turns it into an absent string.
   */
  lemma AsWrittenEmptyStringVanishes()
    ensures WriteString0(AsWritten, []) == Ok([])
    ensures ReadString0(WriteString0(AsWritten, []).value + [0]) == Ok(Parsed(None, []))
  {
  }
}


=== FILE: codegen.dfy ===
/**
 * Book-keeping of the code generator for one function (`FnInfo`).
 *
 * The state is an immutable record; every operation returns the new record.
 * Operations that fail through `?` in Rust return a `Step`: the outcome
 * together with the state as it stands at the point of failure, because
 * `alloc_register` has already bumped its counter when it reports
 * `NoMoreRegisters`.
 */
module Codegen {
  import opened Wrappers
  import opened Bits
  import Chunk
  import opened Opcode
  import opened Instruction
  import opened Errors

  /** What the generator remembers about one local variable. */
  datatype LocalVarInfo = LocalVarInfo(scopeLevel: nat, slot: nat, isCaptured: bool)

  /**
   * The part of `FnInfo` that the book-keeping operations touch: the
   * constant pool (constant to index), the register counter and its
   * high-water mark, the scope level, the local variables of every scope,
   * one break list per scope (`Some` for a breakable scope) and the
   * instruction words emitted so far.
   */
  datatype FnInfo = FnInfo(
    constants: map<Chunk.Constant, nat>,
    usedRegs: nat,
    maxRegs: nat,
    scopeLevel: nat,
    localVars: seq<map<string, LocalVarInfo>>,
    breaks: seq<Option<seq<nat>>>,
    instructions: seq<u32>)

  /** An outcome together with the state it leaves behind. */
  datatype Step<+T> = Step(out: Result<T, Error>, st: FnInfo)

  /** `FnInfo::new`: everything empty and zero. */
  function NewFnInfo(): (r: FnInfo)
    ensures r.usedRegs == 0 && r.maxRegs == 0 && r.scopeLevel == 0
    ensures |r.constants| == 0 && r.localVars == [] && r.breaks == [] && r.instructions == []
  {
    FnInfo(map[], 0, 0, 0, [], [], [])
  }

  function Max(x: int, y: int): int { if x >= y then x else y }

  // ---------------------------------------------------------------------
  // Registers
  // ---------------------------------------------------------------------

  /** Registers are numbered below 255; the 255th allocation fails. */
  const MAX_REGISTERS: nat := 255

  /**
   * `alloc_register`: bump the counter, fail once it reaches 255 (keeping
   * the bumped counter), otherwise raise the high-water mark and return
   * the register that was free.
   */
  function AllocRegister(s: FnInfo): (r: Step<nat>)
    ensures r.st.usedRegs == s.usedRegs + 1
    ensures r.out.Ok? <==> s.usedRegs + 1 < MAX_REGISTERS
    ensures r.out.Ok? ==> r.out.value == s.usedRegs && r.st.maxRegs == Max(s.maxRegs, s.usedRegs + 1)
    ensures r.out.Err? ==> r.out.error == NoMoreRegisters && r.st.maxRegs == s.maxRegs
    ensures r.st == s.(usedRegs := r.st.usedRegs, maxRegs := r.st.maxRegs)
  {
    var used := s.usedRegs + 1;
    if used >= MAX_REGISTERS then
      Step(Err(NoMoreRegisters), s.(usedRegs := used))
    else if used > s.maxRegs then
      Step(Ok(used - 1), s.(usedRegs := used, maxRegs := used))
    else
      Step(Ok(used - 1), s.(usedRegs := used))
  }

  /** The `for _ in 0..n { alloc_register()?; }` loop of `alloc_registers`. */
  function AllocLoop(s: FnInfo, n: nat): (r: Step<()>)
    ensures r.out.Ok? <==> n == 0 || s.usedRegs + n < MAX_REGISTERS
    ensures r.out.Ok? ==> r.st.usedRegs == s.usedRegs + n
    ensures r.out.Ok? ==> r.st.maxRegs == if n == 0 then s.maxRegs else Max(s.maxRegs, s.usedRegs + n)
    ensures r.out.Err? ==> r.out.error == NoMoreRegisters
    ensures r.out.Err? ==> r.st.usedRegs == Max(s.usedRegs + 1, MAX_REGISTERS)
    ensures r.out.Err? ==> r.st.maxRegs == if s.usedRegs + 1 < MAX_REGISTERS then Max(s.maxRegs, MAX_REGISTERS - 1) else s.maxRegs
    ensures r.st == s.(usedRegs := r.st.usedRegs, maxRegs := r.st.maxRegs)
    decreases n
  {
    if n == 0 then Step(Ok(()), s)
    else
      var one := AllocRegister(s);
      if one.out.Err? then Step(Err(one.out.error), one.st)
      else AllocLoop(one.st, n - 1)
  }

  /**
   * `alloc_registers(n)`: allocate n registers and return the first of
   * them; on success they are the contiguous block starting at the old
   * counter.
   */
  function AllocRegisters(s: FnInfo, n: nat): (r: Step<nat>)
    ensures r.out.Ok? <==> n == 0 || s.usedRegs + n < MAX_REGISTERS
    ensures r.out.Ok? ==> r.out.value == s.usedRegs && r.st.usedRegs == s.usedRegs + n
    ensures r.out.Ok? ==> r.st.maxRegs >= s.maxRegs
    ensures r.out.Ok? && n > 0 ==> r.st.maxRegs >= s.usedRegs + n
    ensures r.out.Err? ==> r.out.error == NoMoreRegisters
  {
    var loop := AllocLoop(s, n);
    if loop.out.Err? then Step(Err(loop.out.error), loop.st)
    else Step(Ok(loop.st.usedRegs - n), loop.st)
  }

  /** `free_register`: the caller guarantees a register is in use. */
  function FreeRegister(s: FnInfo): (r: FnInfo)
    requires s.usedRegs != 0
    ensures r.usedRegs + 1 == s.usedRegs
    ensures r == s.(usedRegs := r.usedRegs)
  {
    s.(usedRegs := s.usedRegs - 1)
  }

  /** `free_registers(n)`: n calls of `free_register`. */
  function FreeRegisters(s: FnInfo, n: nat): (r: FnInfo)
    requires n <= s.usedRegs
    ensures r.usedRegs + n == s.usedRegs
    ensures r == s.(usedRegs := r.usedRegs)
    decreases n
  {
    if n == 0 then s else FreeRegisters(FreeRegister(s), n - 1)
  }

  /**
   * Allocating n registers and freeing them again restores the counter;
   * the high-water mark keeps the peak.
   */
  lemma AllocThenFree(s: FnInfo, n: nat)
    requires AllocRegisters(s, n).out.Ok?
    ensures n <= AllocRegisters(s, n).st.usedRegs
    ensures FreeRegisters(AllocRegisters(s, n).st, n) == s.(maxRegs := AllocRegisters(s, n).st.maxRegs)
  {
  }

  /** The high-water mark never falls below the counter while allocations succeed. */
  lemma HighWaterMark(s: FnInfo, n: nat)
    requires s.usedRegs <= s.maxRegs
    requires AllocRegisters(s, n).out.Ok?
    ensures AllocRegisters(s, n).st.usedRegs <= AllocRegisters(s, n).st.maxRegs
  {
  }

  // ---------------------------------------------------------------------
  // Constant pool
  // ---------------------------------------------------------------------

  /**
   * The pool maps each constant to a distinct index below its size. A new
   * `FnInfo` starts with an empty pool and `constant_index` is the only
   * writer, so every reachable pool has this shape.
   */
  predicate PoolValid(m: map<Chunk.Constant, nat>) {
    (forall k | k in m :: m[k] < |m|) &&
    (forall k1, k2 | k1 in m && k2 in m && m[k1] == m[k2] :: k1 == k2)
  }

  /**
   * `constant_index`: a known constant keeps its index and the state does
   * not change; a new one is given the next index, the pool's old size.
   */
  function ConstantIndex(s: FnInfo, k: Chunk.Constant): (r: (nat, FnInfo))
    ensures k in r.1.constants && r.1.constants[k] == r.0
    ensures k in s.constants ==> r == (s.constants[k], s)
    ensures k !in s.constants ==> r.0 == |s.constants| && |r.1.constants| == |s.constants| + 1
    ensures r.1 == s.(constants := r.1.constants)
    ensures forall k' | k' in s.constants :: k' in r.1.constants && r.1.constants[k'] == s.constants[k']
  {
    if k in s.constants then (s.constants[k], s)
    else
      var idx := |s.constants|;
      (idx, s.(constants := s.constants[k := idx]))
  }

  lemma NewPoolValid()
    ensures PoolValid(NewFnInfo().constants)
  {
  }

  /** `constant_index` keeps the pool valid. */
  lemma {:induction false} ConstantIndexKeepsPool(s: FnInfo, k: Chunk.Constant)
    requires PoolValid(s.constants)
    ensures PoolValid(ConstantIndex(s, k).1.constants)
  {
    if k !in s.constants {
      var m := s.constants;
      var m' := ConstantIndex(s, k).1.constants;
      forall k1 | k1 in m'
        ensures m'[k1] < |m'|
      {
        if k1 != k {
          assert m'[k1] == m[k1];
        }
      }
      forall k1, k2 | k1 in m' && k2 in m' && m'[k1] == m'[k2]
        ensures k1 == k2
      {
        if k1 != k && k2 != k {
          assert m[k1] == m[k2];
        }
      }
    }
  }

  /** Asking twice gives the same index and changes nothing the second time. */
  lemma ConstantIndexIdempotent(s: FnInfo, k: Chunk.Constant)
    ensures ConstantIndex(ConstantIndex(s, k).1, k) == ConstantIndex(s, k)
  {
  }

  /**
   * `get_constants`: a list as long as the pool with every constant stored
   * at its own index. Slots start as `Nil` and are overwritten one pool
   * entry at a time, in whatever order the map yields them.
   */
  method GetConstants(m: map<Chunk.Constant, nat>) returns (consts: seq<Chunk.Constant>)
    requires PoolValid(m)
    ensures |consts| == |m|
    ensures forall k | k in m :: consts[m[k]] == k
  {
    consts := seq(|m|, _ => Chunk.Nil);
    var todo := m.Keys;
    while todo != {}
      invariant todo <= m.Keys
      invariant |consts| == |m|
      invariant forall k | k in m && k !in todo :: consts[m[k]] == k
      decreases |todo|
    {
      var k :| k in todo;
      consts := consts[m[k] := k];
      todo := todo - {k};
    }
  }

  // ---------------------------------------------------------------------
  // Scopes and breaks
  // ---------------------------------------------------------------------

  /** `enter_scope`: one level deeper, with a break list iff breakable. */
  function EnterScope(s: FnInfo, breakable: bool): (r: FnInfo)
    ensures r.scopeLevel == s.scopeLevel + 1
    ensures |r.breaks| == |s.breaks| + 1 && r.breaks[..|s.breaks|] == s.breaks
    ensures r.breaks[|s.breaks|] == (if breakable then Some([]) else None)
    ensures r == s.(scopeLevel := r.scopeLevel, breaks := r.breaks)
  {
    s.(scopeLevel := s.scopeLevel + 1,
       breaks := s.breaks + [if breakable then Some([]) else None])
  }

  /** Index of the innermost breakable scope, searching from the top. */
  function InnermostLoop(breaks: seq<Option<seq<nat>>>): (r: Option<nat>)
    ensures r.Some? ==> r.value < |breaks| && breaks[r.value].Some?
    ensures r.Some? ==> forall j | r.value < j < |breaks| :: breaks[j].None?
    ensures r.None? ==> forall j | 0 <= j < |breaks| :: breaks[j].None?
    decreases |breaks|
  {
    if |breaks| == 0 then None
    else if breaks[|breaks| - 1].Some? then Some(|breaks| - 1)
    else InnermostLoop(breaks[..|breaks| - 1])
  }

  /**
   * `add_break_jump(pc)`: record pc in the innermost breakable scope;
   * `NoLoop` when no enclosing scope is breakable.
   */
  function AddBreakJump(s: FnInfo, pc: nat): (r: Result<FnInfo, Error>)
    ensures r.Err? <==> forall j | 0 <= j < |s.breaks| :: s.breaks[j].None?
    ensures r.Err? ==> r.error == NoLoop
    ensures r.Ok? ==> r.value == s.(breaks := r.value.breaks) && |r.value.breaks| == |s.breaks|
    ensures r.Ok? ==> exists i | 0 <= i < |s.breaks| ::
      s.breaks[i].Some? && r.value.breaks[i] == Some(s.breaks[i].value + [pc]) &&
      (forall j | i < j < |s.breaks| :: s.breaks[j].None?) &&
      (forall j | 0 <= j < |s.breaks| && j != i :: r.value.breaks[j] == s.breaks[j])
  {
    match InnermostLoop(s.breaks)
    case None => Err(NoLoop)
    case Some(i) =>
      var r := s.(breaks := s.breaks[i := Some(s.breaks[i].value + [pc])]);
      assert r.breaks[i] == Some(s.breaks[i].value + [pc]);
      Ok(r)
  }

  /** A break inside a freshly entered loop lands in that loop's list. */
  lemma BreakInNewLoop(s: FnInfo, pc: nat)
    ensures AddBreakJump(EnterScope(s, true), pc) ==
      Ok(s.(scopeLevel := s.scopeLevel + 1, breaks := s.breaks + [Some([pc])]))
  {
    var e := EnterScope(s, true);
    assert InnermostLoop(e.breaks) == Some(|s.breaks|);
    assert [] + [pc] == [pc];
    assert e.breaks[|s.breaks| := Some([pc])] == s.breaks + [Some([pc])];
  }

  /** A non-breakable scope is transparent to `break`. */
  lemma {:induction false} BreakSkipsPlainScope(s: FnInfo, pc: nat)
    ensures AddBreakJump(EnterScope(s, false), pc).Ok? <==> AddBreakJump(s, pc).Ok?
    ensures AddBreakJump(s, pc).Ok? ==>
      AddBreakJump(EnterScope(s, false), pc).value ==
        AddBreakJump(s, pc).value.(scopeLevel := s.scopeLevel + 1,
                                   breaks := AddBreakJump(s, pc).value.breaks + [None])
  {
    var e := EnterScope(s, false);
    assert e.breaks[..|e.breaks| - 1] == s.breaks;
    assert InnermostLoop(e.breaks) == InnermostLoop(s.breaks);
    match InnermostLoop(s.breaks)
    case None =>
    case Some(i) =>
      assert e.breaks[i := Some(e.breaks[i].value + [pc])] ==
        s.breaks[i := Some(s.breaks[i].value + [pc])] + [None];
  }

  // ---------------------------------------------------------------------
  // Closing upvalues on jumps
  // ---------------------------------------------------------------------

  /**
   * `get_jump_arg_a`: 0 when no local of the current scope is captured;
   * otherwise one more than the smallest slot of that scope, where the
   * search starts from `max_regs`. Indexing the scope list with the
   * current level panics when that scope was never pushed: `None`.
   */
  method GetJumpArgA(s: FnInfo) returns (r: Option<int>)
    ensures r.None? <==> s.scopeLevel >= |s.localVars|
    ensures r.Some? ==> var scope := s.localVars[s.scopeLevel];
      (r.value == 0 <==> forall name | name in scope :: !scope[name].isCaptured)
    ensures r.Some? && r.value != 0 ==> var scope := s.localVars[s.scopeLevel];
      r.value - 1 <= s.maxRegs &&
      (forall name | name in scope :: r.value - 1 <= scope[name].slot) &&
      (r.value - 1 == s.maxRegs || exists name | name in scope :: r.value - 1 == scope[name].slot)
  {
    if s.scopeLevel >= |s.localVars| {
      return None;
    }
    var scope := s.localVars[s.scopeLevel];
    var captured := false;
    var minSlot := s.maxRegs;
    var todo := scope.Keys;
    while todo != {}
      invariant todo <= scope.Keys
      invariant captured <==> exists name | name in scope && name !in todo :: scope[name].isCaptured
      invariant minSlot <= s.maxRegs
      invariant forall name | name in scope && name !in todo :: minSlot <= scope[name].slot
      invariant minSlot == s.maxRegs || exists name | name in scope :: minSlot == scope[name].slot
      decreases |todo|
    {
      var name :| name in todo;
      if scope[name].isCaptured {
        captured := true;
      }
      if scope[name].slot < minSlot {
        minSlot := scope[name].slot;
      }
      todo := todo - {name};
    }
    if captured {
      return Some(minSlot + 1);
    }
    return Some(0);
  }

  // ---------------------------------------------------------------------
  // Emitting instruction words
  // ---------------------------------------------------------------------

  /** `emit_ABC`: append exactly one iABC word; nothing else changes. */
  function EmitABC(s: FnInfo, op: nat, a: nat, b: nat, c: nat): (r: FnInfo)
    ensures |r.instructions| == |s.instructions| + 1
    ensures r.instructions[..|s.instructions|] == s.instructions
    ensures r == s.(instructions := r.instructions)
    ensures op < 64 && a < 0x100 && b < 0x200 && c < 0x200 ==>
      var w := r.instructions[|s.instructions|];
      OpcodeOf(w) == op && DecodeABC(w) == (a, b, c)
  {
    var w := EncodeABC(op, a, b, c);
    assert op < 64 && a < 0x100 && b < 0x200 && c < 0x200 ==> OpcodeOf(w) == op && DecodeABC(w) == (a, b, c) by {
      if op < 64 && a < 0x100 && b < 0x200 && c < 0x200 { ABCRoundTrip(op, a, b, c); }
    }
    s.(instructions := s.instructions + [w])
  }

  /** `emit_ABx`: append exactly one iABx word; nothing else changes. */
  function EmitABx(s: FnInfo, op: nat, a: nat, bx: nat): (r: FnInfo)
    ensures |r.instructions| == |s.instructions| + 1
    ensures r.instructions[..|s.instructions|] == s.instructions
    ensures r == s.(instructions := r.instructions)
    ensures op < 64 && a < 0x100 && bx <= MAXARG_BX ==>
      var w := r.instructions[|s.instructions|];
      OpcodeOf(w) == op && DecodeABx(w) == (a, bx)
  {
    var w := EncodeABx(op, a, bx);
    assert op < 64 && a < 0x100 && bx <= MAXARG_BX ==> OpcodeOf(w) == op && DecodeABx(w) == (a, bx) by {
      if op < 64 && a < 0x100 && bx <= MAXARG_BX { ABxRoundTrip(op, a, bx); }
    }
    s.(instructions := s.instructions + [w])
  }

  /** `emit_AsBx`: append exactly one word with sBx stored biased. */
  function EmitAsBx(s: FnInfo, op: nat, a: nat, sbx: int): (r: FnInfo)
    requires sbx + MAXARG_SBX >= 0
    ensures |r.instructions| == |s.instructions| + 1
    ensures r.instructions[..|s.instructions|] == s.instructions
    ensures r == s.(instructions := r.instructions)
    ensures op < 64 && a < 0x100 && sbx <= MAXARG_SBX + 1 ==>
      var w := r.instructions[|s.instructions|];
      OpcodeOf(w) == op && DecodeAsBx(w) == (a, sbx)
  {
    var w := EncodeAsBx(op, a, sbx);
    assert op < 64 && a < 0x100 && sbx <= MAXARG_SBX + 1 ==> OpcodeOf(w) == op && DecodeAsBx(w) == (a, sbx) by {
      if op < 64 && a < 0x100 && sbx <= MAXARG_SBX + 1 { AsBxRoundTrip(op, a, sbx); }
    }
    s.(instructions := s.instructions + [w])
  }

  /** `emit_Ax`: append exactly one iAx word; nothing else changes. */
  function EmitAx(s: FnInfo, op: nat, ax: nat): (r: FnInfo)
    ensures |r.instructions| == |s.instructions| + 1
    ensures r.instructions[..|s.instructions|] == s.instructions
    ensures r == s.(instructions := r.instructions)
    ensures op < 64 && ax < 0x400_0000 ==>
      var w := r.instructions[|s.instructions|];
      OpcodeOf(w) == op && DecodeAx(w) == ax
  {
    var w := EncodeAx(op, ax);
    assert op < 64 && ax < 0x400_0000 ==> OpcodeOf(w) == op && DecodeAx(w) == ax by {
      if op < 64 && ax < 0x400_0000 { AxRoundTrip(op, ax); }
    }
    s.(instructions := s.instructions + [w])
  }

  /** `pc()`: index of the last instruction; `len() - 1` underflows on an empty list. */
  function Pc(s: FnInfo): (r: Option<nat>)
    ensures r.Some? <==> |s.instructions| > 0
    ensures r.Some? ==> r.value + 1 == |s.instructions|
  {
    if |s.instructions| == 0 then None else Some(|s.instructions| - 1)
  }

  /** `emit_jmp`: append a JMP and return its own pc. */
  function EmitJmp(s: FnInfo, a: nat, sbx: int): (r: (nat, FnInfo))
    requires sbx + MAXARG_SBX >= 0
    ensures r.0 == |s.instructions|
    ensures Pc(r.1) == Some(r.0)
    ensures r.1 == EmitAsBx(s, OP_JMP, a, sbx)
  {
    var s1 := EmitAsBx(s, OP_JMP, a, sbx);
    (|s1.instructions| - 1, s1)
  }

  /** `emit_load_bool`: LOADBOOL a b c. */
  function EmitLoadBool(s: FnInfo, a: nat, b: nat, c: nat): (r: FnInfo)
    ensures |r.instructions| == |s.instructions| + 1
    ensures r.instructions[..|s.instructions|] == s.instructions
    ensures r == s.(instructions := r.instructions)
    ensures a < 0x100 && b < 0x200 && c < 0x200 ==>
      var w := r.instructions[|s.instructions|];
      OpName(w) == Some("LOADBOOL") && DecodeABC(w) == (a, b, c)
  {
    EmitABC(s, OP_LOADBOOL, a, b, c)
  }

  /** Largest constant index that fits the Bx field of LOADK, 1 << 18 exclusive. */
  const LOADK_LIMIT: nat := 0x4_0000

  /**
   * `emit_load_k`: intern the constant, then load it with one LOADK when
   * its index fits Bx, or with LOADKX followed by EXTRAARG carrying the
   * index otherwise.
   */
  function EmitLoadK(s: FnInfo, a: nat, k: Chunk.Constant): (r: FnInfo)
    ensures var (idx, s1) := ConstantIndex(s, k);
      r.constants == s1.constants &&
      r == s1.(instructions := r.instructions) &&
      |r.instructions| > |s.instructions| &&
      r.instructions[..|s.instructions|] == s.instructions &&
      (idx < LOADK_LIMIT ==>
        |r.instructions| == |s.instructions| + 1 &&
        (a < 0x100 ==> OpcodeOf(r.instructions[|s.instructions|]) == OP_LOADK &&
                       DecodeABx(r.instructions[|s.instructions|]) == (a, idx))) &&
      (idx >= LOADK_LIMIT ==>
        |r.instructions| == |s.instructions| + 2 &&
        (a < 0x100 ==> OpcodeOf(r.instructions[|s.instructions|]) == OP_LOADKX &&
                       DecodeABx(r.instructions[|s.instructions|]) == (a, 0)) &&
        (idx < 0x400_0000 ==> OpcodeOf(r.instructions[|s.instructions| + 1]) == OP_EXTRAARG &&
                              DecodeAx(r.instructions[|s.instructions| + 1]) == idx))
  {
    var (idx, s1) := ConstantIndex(s, k);
    if idx < LOADK_LIMIT then
      EmitABx(s1, OP_LOADK, a, idx)
    else
      var s2 := EmitABx(s1, OP_LOADKX, a, 0);
      var s3 := EmitAx(s2, OP_EXTRAARG, idx);
      assert s3.instructions[..|s.instructions|] == s.instructions by {
        assert s3.instructions[..|s2.instructions|] == s2.instructions;
      }
      s3
  }
}

=== FILE: codegen_legacy.dfy ===
/**
 * The older code generator (`codegen.rs`).
 *
 * Its register allocator, `enter_scope` and `add_break_jump` are the same
 * code as in the newer generator, so they are the operations of module
 * `Codegen` applied to the shared part of the state. What differs is
 * kept here: local variables are removed by leaving a `None` tombstone,
 * `up_value_index` looks names up in a table of upvalues, and the
 * emitters compute in `u32`, where the biased sBx can overflow.
 */
module CodegenLegacy {
  import opened Wrappers
  import opened Bits
  import opened Instruction
  import opened Errors
  import Codegen

  datatype UpValueInfo = UpValueInfo(localVarSlot: nat, upValueIndex: nat, index: nat)

  /**
   * `base` carries the register counter and high-water mark, the scope
   * level, the break lists and the instructions (its constant pool and
   * local-variable fields are not used here); `scopes` holds, per scope,
   * each local's information or a tombstone.
   */
  datatype LegacyFnInfo = LegacyFnInfo(
    base: Codegen.FnInfo,
    scopes: seq<map<string, Option<Codegen.LocalVarInfo>>>,
    upValues: map<string, UpValueInfo>)

  /**
   * Outcome of an operation that may fail with an `Error` or panic:
   * `Panicked` is an index past the last scope.
   */
  datatype Outcome<+T> = Done(out: Result<T, Error>, st: LegacyFnInfo) | Panicked

  // ---------------------------------------------------------------------
  // Local variables
  // ---------------------------------------------------------------------

  /**
   * `add_local_var`: allocate a register first (its failure is returned
   * before the scope list is touched), then record the local in the
   * current scope.
   */
  function AddLocalVar(s: LegacyFnInfo, name: string): (r: Outcome<nat>)
    ensures r.Panicked? <==> Codegen.AllocRegister(s.base).out.Ok? && s.base.scopeLevel >= |s.scopes|
    ensures r.Done? && r.out.Err? ==>
      r.out.error == NoMoreRegisters && r.st == s.(base := Codegen.AllocRegister(s.base).st)
    ensures r.Done? && r.out.Ok? ==>
      r.out.value == s.base.usedRegs &&
      r.st.base == Codegen.AllocRegister(s.base).st &&
      r.st.upValues == s.upValues &&
      s.base.scopeLevel < |s.scopes| == |r.st.scopes| &&
      r.st.scopes[s.base.scopeLevel] ==
        s.scopes[s.base.scopeLevel][name := Some(Codegen.LocalVarInfo(s.base.scopeLevel, r.out.value, false))] &&
      (forall l | 0 <= l < |s.scopes| && l != s.base.scopeLevel :: r.st.scopes[l] == s.scopes[l])
  {
    var alloc := Codegen.AllocRegister(s.base);
    if alloc.out.Err? then Done(Err(alloc.out.error), s.(base := alloc.st))
    else if s.base.scopeLevel >= |s.scopes| then Panicked
    else
      var level := s.base.scopeLevel;
      var info := Codegen.LocalVarInfo(level, alloc.out.value, false);
      Done(Ok(alloc.out.value),
           s.(base := alloc.st, scopes := s.scopes[level := s.scopes[level][name := Some(info)]]))
  }

  /**
   * `local_var_slot`: the slot of a live local, 0 for a tombstone,
   * `IllegalRegister` for a name the current scope has never seen;
   * `None` when the current scope was never pushed (an index panic).
   */
  function LocalVarSlot(s: LegacyFnInfo, name: string): (r: Option<Result<nat, Error>>)
    ensures r.None? <==> s.base.scopeLevel >= |s.scopes|
    ensures r.Some? ==> var scope := s.scopes[s.base.scopeLevel];
      (r.value.Err? <==> name !in scope) &&
      (r.value.Err? ==> r.value.error == IllegalRegister) &&
      (name in scope && scope[name].None? ==> r.value == Ok(0)) &&
      (name in scope && scope[name].Some? ==> r.value == Ok(scope[name].value.slot))
  {
    if s.base.scopeLevel >= |s.scopes| then None
    else
      var scope := s.scopes[s.base.scopeLevel];
      if name !in scope then Some(Err(IllegalRegister))
      else match scope[name]
        case Some(info) => Some(Ok(info.slot))
        case None => Some(Ok(0))
  }

  /**
   * `remove_local_var`: free one register, then leave a tombstone for the
   * name in the current scope. The register must be in use (the Rust
   * `assert_ne!`); `None` when the current scope was never pushed.
   */
  function RemoveLocalVar(s: LegacyFnInfo, name: string): (r: Option<LegacyFnInfo>)
    requires s.base.usedRegs != 0
    ensures r.None? <==> s.base.scopeLevel >= |s.scopes|
    ensures r.Some? ==>
      r.value.base == Codegen.FreeRegister(s.base) &&
      r.value.upValues == s.upValues &&
      |r.value.scopes| == |s.scopes| &&
      r.value.scopes[s.base.scopeLevel] == s.scopes[s.base.scopeLevel][name := None] &&
      (forall l | 0 <= l < |s.scopes| && l != s.base.scopeLevel :: r.value.scopes[l] == s.scopes[l])
  {
    var freed := Codegen.FreeRegister(s.base);
    if s.base.scopeLevel >= |s.scopes| then None
    else
      var level := s.base.scopeLevel;
      Some(s.(base := freed, scopes := s.scopes[level := s.scopes[level][name := None]]))
  }

  /** A local just added is found at the register it was given. */
  lemma AddThenLookup(s: LegacyFnInfo, name: string)
    requires AddLocalVar(s, name).Done? && AddLocalVar(s, name).out.Ok?
    ensures LocalVarSlot(AddLocalVar(s, name).st, name) == Some(Ok(s.base.usedRegs))
  {
  }

  /** A removed local reads as slot 0, not as an unknown name. */
  lemma RemoveThenLookup(s: LegacyFnInfo, name: string)
    requires s.base.usedRegs != 0 && s.base.scopeLevel < |s.scopes|
    ensures LocalVarSlot(RemoveLocalVar(s, name).value, name) == Some(Ok(0))
  {
  }

  /** Adding or removing one name leaves every other name's lookup unchanged. */
  lemma OtherNamesUnchanged(s: LegacyFnInfo, name: string, other: string)
    requires name != other && s.base.usedRegs != 0
    ensures AddLocalVar(s, name).Done? ==> LocalVarSlot(AddLocalVar(s, name).st, other) == LocalVarSlot(s, other)
    ensures RemoveLocalVar(s, name).Some? ==> LocalVarSlot(RemoveLocalVar(s, name).value, other) == LocalVarSlot(s, other)
  {
  }

  // ---------------------------------------------------------------------
  // Upvalues
  // ---------------------------------------------------------------------

  /**
   * `up_value_index`: the cached index of a known upvalue. Every other
   * name runs into `unimplemented!()`, which is `None` here.
   */
  function UpValueIndex(s: LegacyFnInfo, name: string): (r: Option<nat>)
    ensures r.Some? <==> name in s.upValues
    ensures r.Some? ==> r.value == s.upValues[name].index
  {
    if name in s.upValues then Some(s.upValues[name].index) else None
  }

  // ---------------------------------------------------------------------
  // Emitting in u32
  // ---------------------------------------------------------------------

  // `emit_ABC`, `emit_ABx` and `emit_Ax` over `u32` operands lose the
  // shifted-out bits, which is the 32-bit truncation `Codegen.EmitABC`,
  // `Codegen.EmitABx` and `Codegen.EmitAx` already perform.

  /**
   * `emit_AsBx` over `u32`: the operand is unsigned and the bias is added
   * in `u32`, which panics on overflow (`None`). A word emitted here
   * decodes to the operand itself as sBx.
   */
  function EmitAsBx(s: LegacyFnInfo, op: u32, a: u32, b: u32): (r: Option<LegacyFnInfo>)
    ensures r.None? <==> b + MAXARG_SBX >= 0x1_0000_0000
    ensures r.Some? ==> r.value.upValues == s.upValues && r.value.scopes == s.scopes
    ensures r.Some? ==> |r.value.base.instructions| == |s.base.instructions| + 1
    ensures r.Some? && op < 64 && a < 0x100 && b <= MAXARG_SBX + 1 ==>
      var w := r.value.base.instructions[|s.base.instructions|];
      OpcodeOf(w) == op && DecodeAsBx(w) == (a, b)
  {
    if b + MAXARG_SBX >= 0x1_0000_0000 then None
    else Some(s.(base := Codegen.EmitAsBx(s.base, op, a, b)))
  }
}

=== FILE: codegen_ops.dfy ===
/**
 * Operator code generation: `emit_unary_op` and `emit_binary_op`.
 *
 * Arithmetic and bitwise operators become one iABC instruction
 * `OP a b c`. A relational operator becomes the Lua 5.3 idiom of four
 * instructions that leaves a boolean in register a:
 *
 *   CMP flag x y      -- skip the next instruction unless (x cmp y) == flag
 *   JMP 0 +1          -- jump over the `false` load
 *   LOADBOOL a 0 1    -- a := false, skip the next instruction
 *   LOADBOOL a 1 0    -- a := true
 *
 * `>` and `>=` swap their operands and use LT and LE; `~=` uses EQ with
 * flag 0.
 */
module CodegenOps {
  import opened Wrappers
  import opened Bits
  import opened Opcode
  import opened Instruction
  import opened Codegen
  import Tokens

  // ---------------------------------------------------------------------
  // Operator tables
  // ---------------------------------------------------------------------

  /**
   * The arithmetic and bitwise arms of `emit_binary_op` as the code has
   * them: there is no arm for `|`.
   */
  function ArithOpcodeAsWritten(op: Tokens.Token): Option<nat> {
    match op
    case OpAdd => Some(OP_ADD)
    case OpMinus => Some(OP_SUB)
    case OpMul => Some(OP_MUL)
    case OpMod => Some(OP_MOD)
    case OpPow => Some(OP_POW)
    case OpDiv => Some(OP_DIV)
    case OpIDiv => Some(OP_IDIV)
    case OpBitAnd => Some(OP_BAND)
    case OpWave => Some(OP_BXOR)
    case OpShl => Some(OP_SHL)
    case OpShr => Some(OP_SHR)
    case _ => None
  }

  /** The same table with the missing `|` arm added. */
  function ArithOpcode(op: Tokens.Token): Option<nat> {
    if op == Tokens.OpBitOr then Some(OP_BOR) else ArithOpcodeAsWritten(op)
  }

  /** The relational arms: comparison opcode, the A flag, and whether B and C are swapped. */
  function Relational(op: Tokens.Token): Option<(nat, nat, bool)> {
    match op
    case OPEq => Some((OP_EQ, 1, false))
    case OpNe => Some((OP_EQ, 0, false))
    case OpLt => Some((OP_LT, 1, false))
    case OpGt => Some((OP_LT, 1, true))
    case OpLe => Some((OP_LE, 1, false))
    case OpGe => Some((OP_LE, 1, true))
    case _ => None
  }

  /**
   * The binary operators that reach `emit_binary_op`: every binary
   * operator of Lua 5.3 except `..`, `and` and `or`, which the generator
   * handles before getting there.
   */
  predicate IsEmittedBinaryOp(op: Tokens.Token) {
    op in {Tokens.OpAdd, Tokens.OpMinus, Tokens.OpMul, Tokens.OpDiv, Tokens.OpIDiv,
           Tokens.OpMod, Tokens.OpPow, Tokens.OpBitAnd, Tokens.OpBitOr, Tokens.OpWave,
           Tokens.OpShl, Tokens.OpShr, Tokens.OPEq, Tokens.OpNe, Tokens.OpLt,
           Tokens.OpLe, Tokens.OpGt, Tokens.OpGe}
  }

  /** The Lua 5.3 mnemonic of each arithmetic or bitwise operator. */
  function Mnemonic(op: Tokens.Token): string {
    match op
    case OpAdd => "ADD     "
    case OpMinus => "SUB     "
    case OpMul => "MUL     "
    case OpMod => "MOD     "
    case OpPow => "POW     "
    case OpDiv => "DIV     "
    case OpIDiv => "IDIV    "
    case OpBitAnd => "BAND    "
    case OpBitOr => "BOR     "
    case OpWave => "BXOR    "
    case OpShl => "SHL     "
    case OpShr => "SHR     "
    case _ => ""
  }

  /**
   * Every arithmetic opcode the generator chooses is the one the opcode
   * table names after the operator, has the iABC layout, and takes
   * register-or-constant operands in B and C.
   */
  lemma ArithOpcodeMatchesTable(op: Tokens.Token)
    requires ArithOpcode(op).Some?
    ensures var code := ArithOpcode(op).value;
      code < |OPCODES| && OPCODES[code].name == Mnemonic(op) &&
      OPCODES[code].opMode == ABC && OPCODES[code].bMode == K && OPCODES[code].cMode == K
  {
    var code := ArithOpcode(op).value;
    assert OPCODES[code] == Row(code);
  }

  // ---------------------------------------------------------------------
  // Emission
  // ---------------------------------------------------------------------

  /** `emit_unary_op`: NOT, BNOT, LEN or UNM; any other token is unreachable (`None`). */
  function EmitUnaryOp(s: FnInfo, op: Tokens.Token, a: nat, b: nat): (r: Option<FnInfo>)
    ensures r.Some? <==> op in {Tokens.OpNot, Tokens.OpWave, Tokens.OpLen, Tokens.OpMinus}
    ensures r.Some? ==> |r.value.instructions| == |s.instructions| + 1
    ensures r.Some? && a < 0x100 && b < 0x200 ==>
      var w := r.value.instructions[|s.instructions|];
      DecodeABC(w) == (a, b, 0) &&
      OpcodeOf(w) == (match op
                      case OpNot => OP_NOT
                      case OpWave => OP_BNOT
                      case OpLen => OP_LEN
                      case _ => OP_UNM)
  {
    hide EmitABC;
    match op
    case OpNot => Some(EmitABC(s, OP_NOT, a, b, 0))
    case OpWave => Some(EmitABC(s, OP_BNOT, a, b, 0))
    case OpLen => Some(EmitABC(s, OP_LEN, a, b, 0))
    case OpMinus => Some(EmitABC(s, OP_UNM, a, b, 0))
    case _ => None
  }

  /** The four-instruction comparison idiom for `a := x cmp y`. */
  function EmitCompare(s: FnInfo, a: nat, cmp: nat, flag: nat, x: nat, y: nat): (r: FnInfo)
    ensures r == s.(instructions := s.instructions +
      [EncodeABC(cmp, flag, x, y), EncodeAsBx(OP_JMP, 0, 1),
       EncodeABC(OP_LOADBOOL, a, 0, 1), EncodeABC(OP_LOADBOOL, a, 1, 0)])
  {
    var s1 := EmitABC(s, cmp, flag, x, y);
    var s2 := EmitJmp(s1, 0, 1).1;
    EmitLoadBool(EmitLoadBool(s2, a, 0, 1), a, 1, 0)
  }

  /** Emission shared by the as-written and the corrected operator tables. */
  function EmitWith(table: Tokens.Token -> Option<nat>, s: FnInfo, op: Tokens.Token, a: nat, b: nat, c: nat): (r: Option<FnInfo>)
    ensures r.Some? <==> table(op).Some? || Relational(op).Some?
    ensures r.Some? ==> r.value == s.(instructions := r.value.instructions)
    ensures r.Some? ==> |r.value.instructions| > |s.instructions|
    ensures r.Some? ==> r.value.instructions[..|s.instructions|] == s.instructions
  {
    match table(op)
    case Some(code) => Some(EmitABC(s, code, a, b, c))
    case None =>
      match Relational(op)
      case Some((cmp, flag, swap)) =>
        var r := if swap then EmitCompare(s, a, cmp, flag, c, b) else EmitCompare(s, a, cmp, flag, b, c);
        assert r.instructions[..|s.instructions|] == s.instructions;
        Some(r)
      case None => None
  }

  /**
   * `emit_binary_op` as written: `None` is the `unreachable!()` panic,
   * which `a | b` reaches.
   */
  function EmitBinaryOp(s: FnInfo, op: Tokens.Token, a: nat, b: nat, c: nat): (r: Option<FnInfo>)
    ensures r.Some? <==> IsEmittedBinaryOp(op) && op != Tokens.OpBitOr
  {
    EmitWith(ArithOpcodeAsWritten, s, op, a, b, c)
  }

  /** `emit_binary_op` with an arm for `|` emitting BOR. */
  function EmitBinaryOpFixed(s: FnInfo, op: Tokens.Token, a: nat, b: nat, c: nat): (r: Option<FnInfo>)
    ensures r.Some? <==> IsEmittedBinaryOp(op)
  {
    EmitWith(ArithOpcode, s, op, a, b, c)
  }

  /** The as-written generator panics on `|`, which the corrected one handles. */
  lemma AsWrittenBitOrPanics(s: FnInfo, a: nat, b: nat, c: nat)
    ensures IsEmittedBinaryOp(Tokens.OpBitOr)
    ensures EmitBinaryOp(s, Tokens.OpBitOr, a, b, c) == None
    ensures EmitBinaryOpFixed(s, Tokens.OpBitOr, a, b, c).Some?
  {
  }

  /** Apart from `|`, the correction changes nothing. */
  lemma FixedAgreesElsewhere(s: FnInfo, op: Tokens.Token, a: nat, b: nat, c: nat)
    requires op != Tokens.OpBitOr
    ensures EmitBinaryOpFixed(s, op, a, b, c) == EmitBinaryOp(s, op, a, b, c)
  {
  }

  /** An arithmetic or bitwise operator appends one word `OP a b c`. */
  lemma ArithmeticEmitsOne(s: FnInfo, op: Tokens.Token, a: nat, b: nat, c: nat)
    requires ArithOpcode(op).Some?
    requires a < 0x100 && b < 0x200 && c < 0x200
    ensures EmitBinaryOpFixed(s, op, a, b, c).Some?
    ensures var r := EmitBinaryOpFixed(s, op, a, b, c).value;
      |r.instructions| == |s.instructions| + 1 &&
      OpcodeOf(r.instructions[|s.instructions|]) == ArithOpcode(op).value &&
      OPCODES[OpcodeOf(r.instructions[|s.instructions|])].name == Mnemonic(op) &&
      DecodeABC(r.instructions[|s.instructions|]) == (a, b, c)
  {
    ArithOpcodeMatchesTable(op);
  }

  // ---------------------------------------------------------------------
  // Meaning of the relational idiom
  // ---------------------------------------------------------------------

  /** The outcome of the three comparisons on two RK operands, left abstract. */
  datatype Oracle = Oracle(eq: (nat, nat) -> bool, lt: (nat, nat) -> bool, le: (nat, nat) -> bool)

  /** What `b op c` means in Lua 5.3: `>` and `>=` are `<` and `<=` reversed. */
  function Meaning(op: Tokens.Token, b: nat, c: nat, o: Oracle): bool
    requires Relational(op).Some?
  {
    match op
    case OPEq => o.eq(b, c)
    case OpNe => !o.eq(b, c)
    case OpLt => o.lt(b, c)
    case OpGt => o.lt(c, b)
    case OpLe => o.le(b, c)
    case OpGe => o.le(c, b)
  }

  /**
   * The Lua 5.3 virtual machine restricted to EQ/LT/LE, JMP and LOADBOOL,
   * tracking only boolean registers. EQ/LT/LE skip the next instruction
   * when the comparison differs from A; JMP adds sBx to the next pc;
   * LOADBOOL stores B as a boolean into A and skips when C is nonzero.
   * Execution stops at any other opcode, at the end of the code, or when
   * the step budget runs out.
   */
  function Run(code: seq<u32>, pc: int, regs: map<nat, bool>, o: Oracle, fuel: nat): map<nat, bool>
    decreases fuel
  {
    if fuel == 0 || !(0 <= pc < |code|) then regs
    else
      var w := code[pc];
      var op := OpcodeOf(w);
      if op == OP_EQ || op == OP_LT || op == OP_LE then
        var (a, b, c) := DecodeABC(w);
        var cond := if op == OP_EQ then o.eq(b, c) else if op == OP_LT then o.lt(b, c) else o.le(b, c);
        Run(code, if cond != (a != 0) then pc + 2 else pc + 1, regs, o, fuel - 1)
      else if op == OP_JMP then
        Run(code, pc + 1 + DecodeAsBx(w).1, regs, o, fuel - 1)
      else if op == OP_LOADBOOL then
        var (a, b, c) := DecodeABC(w);
        Run(code, if c != 0 then pc + 2 else pc + 1, regs[a := b != 0], o, fuel - 1)
      else regs
  }

  /** The last two instructions of the idiom store `v` into register a. */
  lemma RunLoads(code: seq<u32>, a: nat, regs: map<nat, bool>, o: Oracle, v: bool, fuel: nat)
    requires |code| == 4 && a < 0x100
    requires code[2] == EncodeABC(OP_LOADBOOL, a, 0, 1) && code[3] == EncodeABC(OP_LOADBOOL, a, 1, 0)
    requires fuel >= 2
    ensures Run(code, if v then 3 else 2, regs, o, fuel) == regs[a := v]
  {
    ABCRoundTrip(OP_LOADBOOL, a, 0, 1);
    ABCRoundTrip(OP_LOADBOOL, a, 1, 0);
    if v {
      assert Run(code, 4, regs[a := true], o, fuel - 1) == regs[a := true];
    } else {
      assert Run(code, 4, regs[a := false], o, fuel - 2) == regs[a := false];
    }
  }

  /** The outcome of a comparison instruction's test. */
  function Compare(cmp: nat, x: nat, y: nat, o: Oracle): bool {
    if cmp == OP_EQ then o.eq(x, y) else if cmp == OP_LT then o.lt(x, y) else o.le(x, y)
  }

  /** The idiom stores into register a whether the comparison agreed with the flag. */
  lemma {:induction false} RunIdiom(code: seq<u32>, cmp: nat, flag: nat, x: nat, y: nat, a: nat,
                                    regs: map<nat, bool>, o: Oracle)
    requires cmp in {OP_EQ, OP_LT, OP_LE} && flag < 0x100 && x < 0x200 && y < 0x200 && a < 0x100
    requires code == [EncodeABC(cmp, flag, x, y), EncodeAsBx(OP_JMP, 0, 1),
                      EncodeABC(OP_LOADBOOL, a, 0, 1), EncodeABC(OP_LOADBOOL, a, 1, 0)]
    ensures Run(code, 0, regs, o, 4) == regs[a := (Compare(cmp, x, y, o) == (flag != 0))]
  {
    hide EncodeABC, EncodeAsBx;
    ABCRoundTrip(cmp, flag, x, y);
    AsBxRoundTrip(OP_JMP, 0, 1);
    var v := Compare(cmp, x, y, o) == (flag != 0);
    if !v {
      assert Run(code, 0, regs, o, 4) == Run(code, 2, regs, o, 3);
      RunLoads(code, a, regs, o, v, 3);
    } else {
      assert Run(code, 0, regs, o, 4) == Run(code, 1, regs, o, 3);
      assert Run(code, 1, regs, o, 3) == Run(code, 3, regs, o, 2);
      RunLoads(code, a, regs, o, v, 2);
    }
  }

  /** A relational operator emits the comparison idiom, with `>` and `>=` swapping their operands. */
  lemma RelationalEmitsCompare(s: FnInfo, op: Tokens.Token, a: nat, b: nat, c: nat)
    requires Relational(op).Some?
    ensures var (cmp, flag, swap) := Relational(op).value;
      var (x, y) := if swap then (c, b) else (b, c);
      EmitBinaryOp(s, op, a, b, c) == Some(EmitCompare(s, a, cmp, flag, x, y))
  {
    hide EmitCompare;
    assert ArithOpcodeAsWritten(op).None?;
  }

  /** The flag and operand order chosen for each relational operator give its meaning. */
  lemma RelationalCompare(op: Tokens.Token, b: nat, c: nat, o: Oracle)
    requires Relational(op).Some?
    ensures var (cmp, flag, swap) := Relational(op).value;
      var (x, y) := if swap then (c, b) else (b, c);
      cmp in {OP_EQ, OP_LT, OP_LE} && flag < 0x100 &&
      (Compare(cmp, x, y, o) == (flag != 0)) == Meaning(op, b, c, o)
  {
  }

  /**
   * Running the four instructions emitted for a relational operator sets
   * register a to the operator's meaning and changes no other register.
   */
  lemma {:induction false} RelationalMeaning(s: FnInfo, op: Tokens.Token, a: nat, b: nat, c: nat,
                                             regs: map<nat, bool>, o: Oracle)
    requires Relational(op).Some?
    requires a < 0x100 && b < 0x200 && c < 0x200
    ensures EmitBinaryOp(s, op, a, b, c).Some?
    ensures var r := EmitBinaryOp(s, op, a, b, c).value;
      |r.instructions| == |s.instructions| + 4 &&
      Run(r.instructions[|s.instructions|..], 0, regs, o, 4) == regs[a := Meaning(op, b, c, o)]
  {
    hide EncodeABC, EncodeAsBx, Run, EmitBinaryOp, Compare, Meaning;
    var (cmp, flag, swap) := Relational(op).value;
    var (x, y) := if swap then (c, b) else (b, c);
    RelationalEmitsCompare(s, op, a, b, c);
    RelationalCompare(op, b, c, o);
    var r := EmitCompare(s, a, cmp, flag, x, y);
    var code := r.instructions[|s.instructions|..];
    assert code == [EncodeABC(cmp, flag, x, y), EncodeAsBx(OP_JMP, 0, 1),
                    EncodeABC(OP_LOADBOOL, a, 0, 1), EncodeABC(OP_LOADBOOL, a, 1, 0)];
    RunIdiom(code, cmp, flag, x, y, a, regs, o);
  }
}

=== FILE: errors.dfy ===
/**
 * The compiler's error values. Variants that carry a source line keep it as
 * `line`; the register and scope errors carry none.
 */
module Errors {

  datatype Error =
    | EOF(line: nat)
    | IllegalIdentifier(line: nat)
    | IllegalNumLiteral(line: nat)
    | IllegalString(line: nat)
    | IllegalToken(line: nat)
    | IllegalEscape(line: nat)
    | NoMoreTokens(line: nat)
    | IllegalExpression(line: nat)
    | IllegalStat(line: nat)
    | NotIdentifier(line: nat)
    | NotVarExpression(line: nat)
    | NotOperator(line: nat)
    | IllegalFunction(line: nat)
    | NotMatchBrackets(line: nat)
    | MissingAssignment(line: nat)
    | IllegalFnCall(line: nat)
    | IllegalFnDef(line: nat)
    | NoMoreRegisters
    | IllegalRegister
    | NoMoreScopes
    /**
     * Declared with a line, but both code generators construct it without
     * one; the model leaves the line out.
     */
    | NoLoop
    | NotUpValue(line: nat)
    | NotVararg(line: nat)
}

=== FILE: instruction.dfy ===
/**
 * The 32-bit Lua 5.3 instruction word.
 *
 * Bit layout, least significant bit first:
 *
 *   iABC:  opcode 0-5 | A 6-13 | C 14-22 | B 23-31
 *   iABx:  opcode 0-5 | A 6-13 | Bx 14-31 (unsigned)
 *   iAsBx: opcode 0-5 | A 6-13 | sBx 14-31 (stored biased by +MAXARG_SBX)
 *   iAx:   opcode 0-5 | Ax 6-31
 *
 * Decoding is the `Instruction` trait implemented for `u32`; encoding is the
 * expression both code generators use to build a word before pushing it
 * (`b << 23 | c << 14 | a << 6 | op`, truncated to 32 bits).
 */
module Instruction {
  import opened Bits
  import opened Wrappers
  import opened Opcode

  /** Largest unsigned Bx argument, (1 << 18) - 1. */
  const MAXARG_BX: nat := 262143
  /** Bias of the signed sBx argument, MAXARG_BX >> 1. */
  const MAXARG_SBX: nat := 131071

  // ---------------------------------------------------------------------
  // Decoding
  // ---------------------------------------------------------------------

  /** `opcode()`: the word truncated to a byte, then masked to 6 bits. */
  function OpcodeOf(w: u32): (r: nat)
    ensures r < 64
    ensures r == w % 64
  {
    var low := w % 0x100;
    DivModUnique(w, 64, 4 * (w / 0x100) + low / 64, low % 64);
    low % 0x40
  }

  /** `abc()`: the triple (A, B, C). */
  function DecodeABC(w: u32): (r: (nat, nat, nat))
    ensures r.0 < 0x100 && r.1 < 0x200 && r.2 < 0x200
  {
    ((w / 0x40) % 0x100, (w / 0x80_0000) % 0x200, (w / 0x4000) % 0x200)
  }

  /** `a_bx()`: the pair (A, Bx). */
  function DecodeABx(w: u32): (r: (nat, nat))
    ensures r.0 < 0x100 && r.1 <= MAXARG_BX
  {
    ((w / 0x40) % 0x100, w / 0x4000)
  }

  /** `a_sbx()`: A, and Bx with the bias removed. */
  function DecodeAsBx(w: u32): (r: (nat, int))
    ensures r.0 == DecodeABx(w).0
    ensures -(MAXARG_SBX as int) <= r.1 <= MAXARG_SBX + 1
    ensures r.1 + MAXARG_SBX == DecodeABx(w).1
  {
    var (a, bx) := DecodeABx(w);
    (a, bx - MAXARG_SBX)
  }

  /** `ax()`: everything above the opcode. */
  function DecodeAx(w: u32): (r: nat)
    ensures r < 0x400_0000
  {
    w / 0x40
  }

  /**
   * The descriptor that `opname`, `opmode`, `b_mode` and `c_mode` read:
   * `OPCODES[opcode()]`. The table has 47 rows, so a word whose low six
   * bits exceed 0x2e makes the Rust index panic; that is `None` here.
   */
  function Descriptor(w: u32): (r: Option<OpCode>)
    ensures r.Some? <==> IsOpcode(OpcodeOf(w))
    ensures r.Some? ==> r.value == OPCODES[OpcodeOf(w)]
  {
    TableCoversOpcodes();
    if OpcodeOf(w) < |OPCODES| then Some(OPCODES[OpcodeOf(w)]) else None
  }

  /** `opname()`: an 8-character mnemonic, defined for valid opcodes only. */
  function OpName(w: u32): (r: Option<string>)
    ensures r.Some? <==> IsOpcode(OpcodeOf(w))
    ensures r.Some? ==> |r.value| == 8
  {
    NamesArePadded();
    match Descriptor(w)
    case Some(d) => Some(d.name)
    case None => None
  }

  /** `opmode()`: the layout is iAsBx exactly for the four jump opcodes. */
  function OpModeOf(w: u32): (r: Option<OpMode>)
    ensures r.Some? <==> IsOpcode(OpcodeOf(w))
    ensures r == Some(AsBx) <==> OpcodeOf(w) in {OP_JMP, OP_FORLOOP, OP_FORPREP, OP_TFORLOOP}
    ensures r == Some(Ax) <==> OpcodeOf(w) == OP_EXTRAARG
  {
    AsBxExactly();
    ABxAndAxExactly();
    match Descriptor(w)
    case Some(d) => Some(d.opMode)
    case None => None
  }

  /** `b_mode()`. */
  function BMode(w: u32): (r: Option<OpArgMask>)
    ensures r.Some? <==> IsOpcode(OpcodeOf(w))
  {
    match Descriptor(w)
    case Some(d) => Some(d.bMode)
    case None => None
  }

  /** `c_mode()`. */
  function CMode(w: u32): (r: Option<OpArgMask>)
    ensures r.Some? <==> IsOpcode(OpcodeOf(w))
  {
    match Descriptor(w)
    case Some(d) => Some(d.cMode)
    case None => None
  }

  // ---------------------------------------------------------------------
  // Encoding
  // ---------------------------------------------------------------------

  /** `b << 23 | c << 14 | a << 6 | op`, truncated to 32 bits. */
  function EncodeABC(op: nat, a: nat, b: nat, c: nat): u32 {
    hide Pow2, BitOr;
    BitOr(BitOr(BitOr(b * Pow2(23), c * Pow2(14)), a * Pow2(6)), op) % 0x1_0000_0000
  }

  /** `bx << 14 | a << 6 | op`, truncated to 32 bits. */
  function EncodeABx(op: nat, a: nat, bx: nat): u32 {
    hide Pow2, BitOr;
    BitOr(BitOr(bx * Pow2(14), a * Pow2(6)), op) % 0x1_0000_0000
  }

  /** `(sbx + MAXARG_SBX) << 14 | a << 6 | op`: iABx with the bias added. */
  function EncodeAsBx(op: nat, a: nat, sbx: int): u32
    requires sbx + MAXARG_SBX >= 0
  {
    EncodeABx(op, a, sbx + MAXARG_SBX)
  }

  /** `ax << 6 | op`, truncated to 32 bits. */
  function EncodeAx(op: nat, ax: nat): u32 {
    hide Pow2, BitOr;
    BitOr(ax * Pow2(6), op) % 0x1_0000_0000
  }

  // ---------------------------------------------------------------------
  // Packing: with every field in range the `|`s add non-overlapping fields
  // ---------------------------------------------------------------------

  lemma PackABC(op: nat, a: nat, b: nat, c: nat)
    requires op < 64 && a < 0x100 && b < 0x200 && c < 0x200
    ensures EncodeABC(op, a, b, c) == op + 0x40 * a + 0x4000 * c + 0x80_0000 * b
  {
    hide BitOr;
    Pow2Values();
    BitOrShifted(b * 0x200, c, 14);
    Pow2Add(9, 14);
    assert b * Pow2(23) == (b * Pow2(9)) * Pow2(14);
    BitOrDisjointHighFirst(b, c, 9);
    var x := c + b * 0x200;
    BitOrDisjointHighFirst(x, a * 0x40, 14);
    var y := a + x * 0x100;
    Pow2Add(8, 6);
    assert a * 0x40 + x * Pow2(14) == y * Pow2(6);
    BitOrDisjointHighFirst(y, op, 6);
  }

  lemma PackABx(op: nat, a: nat, bx: nat)
    requires op < 64 && a < 0x100 && bx <= MAXARG_BX
    ensures EncodeABx(op, a, bx) == op + 0x40 * a + 0x4000 * bx
  {
    hide BitOr;
    Pow2Values();
    BitOrDisjointHighFirst(bx, a * 0x40, 14);
    var y := a + bx * 0x100;
    Pow2Add(8, 6);
    assert a * 0x40 + bx * Pow2(14) == y * Pow2(6);
    BitOrDisjointHighFirst(y, op, 6);
  }

  lemma PackAx(op: nat, ax: nat)
    requires op < 64 && ax < 0x400_0000
    ensures EncodeAx(op, ax) == op + 0x40 * ax
  {
    hide BitOr;
    Pow2Values();
    BitOrDisjointHighFirst(ax, op, 6);
  }

  // ---------------------------------------------------------------------
  // Round trips, both directions
  // ---------------------------------------------------------------------

  /** Decoding an iABC word built from in-range fields gives the fields back. */
  lemma ABCRoundTrip(op: nat, a: nat, b: nat, c: nat)
    requires op < 64 && a < 0x100 && b < 0x200 && c < 0x200
    ensures OpcodeOf(EncodeABC(op, a, b, c)) == op
    ensures DecodeABC(EncodeABC(op, a, b, c)) == (a, b, c)
  {
    hide EncodeABC, BitOr;
    PackABC(op, a, b, c);
    var w := EncodeABC(op, a, b, c);
    var x := c + 0x200 * b;
    DivModUnique(w, 0x40, a + 0x100 * x, op);
    DivModUnique(a + 0x100 * x, 0x100, x, a);
    DivModUnique(w, 0x4000, x, op + 0x40 * a);
    DivModUnique(x, 0x200, b, c);
    DivModUnique(w, 0x80_0000, b, op + 0x40 * a + 0x4000 * c);
  }

  /** Every word is the iABC packing of its own decoded fields. */
  lemma ABCDecodeEncode(w: u32)
    ensures EncodeABC(OpcodeOf(w), DecodeABC(w).0, DecodeABC(w).1, DecodeABC(w).2) == w
  {
    var op, y := w % 0x40, w / 0x40;
    var a, x := y % 0x100, y / 0x100;
    var c, b := x % 0x200, x / 0x200;
    DivModUnique(w, 0x4000, x, op + 0x40 * a);
    DivModUnique(w, 0x80_0000, b, op + 0x40 * a + 0x4000 * c);
    assert DecodeABC(w) == (a, b, c);
    PackABC(op, a, b, c);
  }

  /** Decoding an iABx word built from in-range fields gives the fields back. */
  lemma ABxRoundTrip(op: nat, a: nat, bx: nat)
    requires op < 64 && a < 0x100 && bx <= MAXARG_BX
    ensures OpcodeOf(EncodeABx(op, a, bx)) == op
    ensures DecodeABx(EncodeABx(op, a, bx)) == (a, bx)
  {
    hide EncodeABx, BitOr;
    PackABx(op, a, bx);
    var w := EncodeABx(op, a, bx);
    DivModUnique(w, 0x40, a + 0x100 * bx, op);
    DivModUnique(a + 0x100 * bx, 0x100, bx, a);
    DivModUnique(w, 0x4000, bx, op + 0x40 * a);
  }

  /** Every word is the iABx packing of its own decoded fields. */
  lemma ABxDecodeEncode(w: u32)
    ensures EncodeABx(OpcodeOf(w), DecodeABx(w).0, DecodeABx(w).1) == w
  {
    var op, y := w % 0x40, w / 0x40;
    var a, bx := y % 0x100, y / 0x100;
    DivModUnique(w, 0x4000, bx, op + 0x40 * a);
    assert DecodeABx(w) == (a, bx);
    PackABx(op, a, bx);
  }

  /**
   * A signed jump offset in [-MAXARG_SBX, MAXARG_SBX + 1] survives the
   * biased encoding.
   */
  lemma AsBxRoundTrip(op: nat, a: nat, sbx: int)
    requires op < 64 && a < 0x100
    requires -(MAXARG_SBX as int) <= sbx <= MAXARG_SBX + 1
    ensures OpcodeOf(EncodeAsBx(op, a, sbx)) == op
    ensures DecodeAsBx(EncodeAsBx(op, a, sbx)) == (a, sbx)
  {
    ABxRoundTrip(op, a, sbx + MAXARG_SBX);
  }

  /** Every word is the iAsBx packing of its own decoded fields. */
  lemma AsBxDecodeEncode(w: u32)
    ensures EncodeAsBx(OpcodeOf(w), DecodeAsBx(w).0, DecodeAsBx(w).1) == w
  {
    ABxDecodeEncode(w);
  }

  /** Decoding an iAx word built from in-range fields gives the fields back. */
  lemma AxRoundTrip(op: nat, ax: nat)
    requires op < 64 && ax < 0x400_0000
    ensures OpcodeOf(EncodeAx(op, ax)) == op
    ensures DecodeAx(EncodeAx(op, ax)) == ax
  {
    PackAx(op, ax);
    DivModUnique(EncodeAx(op, ax), 0x40, ax, op);
  }

  /** Every word is the iAx packing of its own decoded fields. */
  lemma AxDecodeEncode(w: u32)
    ensures EncodeAx(OpcodeOf(w), DecodeAx(w)) == w
  {
    PackAx(w % 0x40, w / 0x40);
  }
}

=== FILE: lexer.dfy ===
/**
 * The lexer's core (`lexer.rs`): the cursor primitives, whitespace and
 * comment skipping with line counting, the token dispatch with its
 * longest-match rules, the keyword table, and the scanners for
 * identifiers, numbers and strings.
 *
 * The chunk is a `string` whose elements stand for the bytes of the UTF-8
 * source; token texts are slices of it (`from_utf8_unchecked` is the
 * identity here). A Rust panic (`unimplemented!`, `unreachable!`) is
 * `None` in an `Option<Step<_>>`.
 */
module Lexing {
  import opened Wrappers
  import opened Errors
  import opened Tokens

  datatype Lexer = Lexer(chunk: string, index: nat, line: nat)

  /** The result of an operation together with the lexer after it. */
  datatype Step<+T> = Step(out: Result<T, Error>, lx: Lexer)

  function New(chunk: string): (r: Lexer)
    ensures r.chunk == chunk && r.index == 0 && r.line == 1
  {
    Lexer(chunk, 0, 1)
  }

  predicate IsEof(lx: Lexer) {
    |lx.chunk| <= lx.index
  }

  // ---------------------------------------------------------------------
  // Character classes (ASCII, as `u8::is_ascii_*` and the byte patterns)
  // ---------------------------------------------------------------------

  predicate IsNewLine(c: char) { c == '\r' || c == '\n' }

  /** `u8::is_ascii_whitespace`: space, tab, line feed, form feed, return. */
  predicate IsAsciiWhitespace(c: char) {
    c == ' ' || c == '\t' || c == '\n' || c as int == 0x0C || c == '\r'
  }

  predicate IsDigit(c: char) { '0' <= c <= '9' }

  predicate IsAlpha(c: char) { 'a' <= c <= 'z' || 'A' <= c <= 'Z' }

  /** The classes the scanners' patterns repeat. */
  datatype Class =
    | Digit                // [[:digit:]]
    | HexDigit             // [[:xdigit:]]
    | Word                 // [_\d\w], ASCII part
    | Equals               // = inside a long bracket
    | ShortStringChar      // [^'\n]

  predicate In(c: char, cls: Class) {
    match cls
    case Digit => IsDigit(c)
    case HexDigit => IsDigit(c) || 'a' <= c <= 'f' || 'A' <= c <= 'F'
    case Word => IsAlpha(c) || IsDigit(c) || c == '_'
    case Equals => c == '='
    case ShortStringChar => c != '\'' && c != '\n'
  }

  /** The end of the longest run of `cls` characters of `t` from `i` on. */
  function Span(t: string, i: nat, cls: Class): (j: nat)
    requires i <= |t|
    ensures i <= j <= |t|
    ensures forall k | i <= k < j :: In(t[k], cls)
    ensures j < |t| ==> !In(t[j], cls)
    decreases |t| - i
  {
    if i < |t| && In(t[i], cls) then Span(t, i + 1, cls) else i
  }

  /** No run of `cls` characters from `i` reaches past `Span(t, i, cls)`. */
  lemma SpanIsLongest(t: string, i: nat, cls: Class, m: nat)
    requires i <= m <= |t|
    requires forall k | i <= k < m :: In(t[k], cls)
    ensures m <= Span(t, i, cls)
  {
  }

  // ---------------------------------------------------------------------
  // Cursor primitives
  // ---------------------------------------------------------------------

  /** `current`: the byte under the cursor, or EOF past the end. */
  function Current(lx: Lexer): (r: Result<char, Error>)
    ensures r.Ok? <==> !IsEof(lx)
    ensures r.Ok? ==> r.value == lx.chunk[lx.index]
    ensures r.Err? ==> r.error == EOF(lx.line)
  {
    if |lx.chunk| > lx.index then Ok(lx.chunk[lx.index]) else Err(EOF(lx.line))
  }

  /**
   * `next(n)`: the cursor always moves by n; the result is EOF exactly
   * when it lands at or past the end, so consuming the last byte is
   * reported as EOF.
   */
  function Next(lx: Lexer, n: nat): (r: Step<()>)
    ensures r.lx == lx.(index := lx.index + n)
    ensures r.out.Ok? <==> lx.index + n < |lx.chunk|
    ensures r.out.Err? ==> r.out.error == EOF(lx.line)
  {
    var moved := lx.(index := lx.index + n);
    if moved.index < |moved.chunk| then Step(Ok(()), moved) else Step(Err(EOF(lx.line)), moved)
  }

  /** Whether the chunk holds `s` at the cursor. */
  predicate HasPrefixAt(lx: Lexer, s: string) {
    lx.index + |s| <= |lx.chunk| && lx.chunk[lx.index..lx.index + |s|] == s
  }

  /**
   * `test(s)` as written: the end of input is checked only at the cursor
   * itself, so a comparison at `index + i` past the end indexes out of
   * bounds (`None`).
   */
  function TestAsWritten(lx: Lexer, s: string): (r: Option<bool>)
    ensures r == Some(true) <==> |s| == 0 || HasPrefixAt(lx, s)
    ensures r.None? <==>
      0 < |lx.chunk| - lx.index < |s| && lx.chunk[lx.index..] == s[..|lx.chunk| - lx.index]
  {
    TestFrom(lx, s, 0)
  }

  function TestFrom(lx: Lexer, s: string, i: nat): (r: Option<bool>)
    requires i <= |s|
    requires i > 0 ==> lx.index + i <= |lx.chunk| && lx.chunk[lx.index..lx.index + i] == s[..i]
    ensures r == Some(true) <==> |s| == 0 || HasPrefixAt(lx, s)
    ensures r.None? <==>
      0 < |lx.chunk| - lx.index < |s| && lx.chunk[lx.index..] == s[..|lx.chunk| - lx.index]
    decreases |s| - i
  {
    if i == |s| then Some(true)
    else if IsEof(lx) then Some(false)
    else if lx.index + i >= |lx.chunk| then
      assert lx.chunk[lx.index..] == lx.chunk[lx.index..lx.index + i];
      None
    else if lx.chunk[lx.index + i] != s[i] then
      assert lx.chunk[lx.index..][i] != s[i];
      Some(false)
    else
      assert lx.chunk[lx.index..lx.index + i + 1] == lx.chunk[lx.index..lx.index + i] + [s[i]];
      assert s[..i + 1] == s[..i] + [s[i]];
      TestFrom(lx, s, i + 1)
  }

  /**
   * `test(s)` with the bound checked at every compared position: false
   * where the written one indexes past the end. This is the test the rest
   * of the model uses.
   */
  function Test(lx: Lexer, s: string): (r: bool)
    ensures r <==> |s| == 0 || HasPrefixAt(lx, s)
  {
    TestBounded(lx, s, 0)
  }

  function TestBounded(lx: Lexer, s: string, i: nat): (r: bool)
    requires i <= |s|
    requires i > 0 ==> lx.index + i <= |lx.chunk| && lx.chunk[lx.index..lx.index + i] == s[..i]
    ensures r <==> |s| == 0 || HasPrefixAt(lx, s)
    decreases |s| - i
  {
    if i == |s| then true
    else if lx.index + i >= |lx.chunk| then false
    else if lx.chunk[lx.index + i] != s[i] then false
    else
      assert lx.chunk[lx.index..lx.index + i + 1] == lx.chunk[lx.index..lx.index + i] + [s[i]];
      assert s[..i + 1] == s[..i] + [s[i]];
      TestBounded(lx, s, i + 1)
  }

  /** Where the written test does not panic, the two tests agree. */
  lemma TestAgrees(lx: Lexer, s: string)
    requires TestAsWritten(lx, s).Some?
    ensures TestAsWritten(lx, s).value == Test(lx, s)
  {
  }

  /**
   * An input whose last byte is a line feed: at that byte the whitespace
   * loop's `test("\n\r")` reads one byte past the end.
   */
  lemma TestReadsPastEnd()
    ensures TestAsWritten(Lexer("x\n", 1, 1), "\n\r").None?
    ensures !Test(Lexer("x\n", 1, 1), "\n\r")
  {
    assert Lexer("x\n", 1, 1).chunk[1..] == "\n\r"[..1];
  }

  // ---------------------------------------------------------------------
  // Whitespace and comments
  // ---------------------------------------------------------------------

  /**
   * The loop of `skip_comment` after `--`: consume bytes up to and
   * including the first line break, without counting the line.
   */
  function SkipCommentRest(lx: Lexer): (r: Step<()>)
    requires !IsEof(lx)
    ensures r.lx.chunk == lx.chunk && r.lx.line == lx.line && r.lx.index >= lx.index
    ensures r.out.Ok? ==> lx.index < r.lx.index < |lx.chunk|
    ensures r.out.Ok? ==>
      IsNewLine(lx.chunk[r.lx.index - 1]) &&
      forall k | lx.index <= k < r.lx.index - 1 :: !IsNewLine(lx.chunk[k])
    ensures r.out.Err? ==> r.out.error == EOF(lx.line) && r.lx.index == |lx.chunk|
    decreases |lx.chunk| - lx.index
  {
    var ch := lx.chunk[lx.index];
    var m := Next(lx, 1);
    if m.out.Err? then m
    else if IsNewLine(ch) then m
    else SkipCommentRest(m.lx)
  }

  /**
   * `skip_comment`: step over `--`, then the rest of the line. A long
   * comment (`--[`) is `unimplemented!()`.
   */
  function SkipComment(lx: Lexer): (r: Option<Step<()>>)
    ensures r.None? <==> lx.index + 2 < |lx.chunk| && lx.chunk[lx.index + 2] == '['
    ensures r.Some? ==> r.value.lx.chunk == lx.chunk && r.value.lx.line == lx.line
    ensures r.Some? && r.value.out.Ok? ==> lx.index + 2 < r.value.lx.index < |lx.chunk|
  {
    var m := Next(lx, 2);
    if m.out.Err? then Some(m)
    else if m.lx.chunk[m.lx.index] == '[' then None
    else Some(SkipCommentRest(m.lx))
  }

  /**
   * Where the whitespace loop stops: a byte that is neither whitespace
   * nor the start of a comment.
   */
  predicate StopsAt(lx: Lexer) {
    !IsEof(lx) && !IsAsciiWhitespace(lx.chunk[lx.index]) && !Test(lx, "--")
  }

  /** One line counted after a successful move of `n` bytes. */
  function NextLine(lx: Lexer, n: nat): (r: Step<()>)
    ensures r.out == Next(lx, n).out
    ensures r.out.Ok? ==> r.lx == lx.(index := lx.index + n, line := lx.line + 1)
    ensures r.out.Err? ==> r.lx == lx.(index := lx.index + n)
  {
    var m := Next(lx, n);
    if m.out.Ok? then m.(lx := m.lx.(line := m.lx.line + 1)) else m
  }

  /**
   * `skip_whitespaces`: skip comments, line breaks and other ASCII
   * whitespace. A `\r\n` or `\n\r` pair counts one line, a lone `\r` or
   * `\n` one line, other whitespace none; a step that reaches the end
   * of input is EOF, and its line is not counted.
   */
  function SkipWhitespaces(lx: Lexer): (r: Option<Step<()>>)
    ensures r.Some? ==> r.value.lx.chunk == lx.chunk && r.value.lx.index >= lx.index
    ensures r.Some? ==> r.value.lx.line >= lx.line
    ensures r.Some? && r.value.out.Ok? ==> (IsEof(lx) && r.value.lx == lx) || StopsAt(r.value.lx)
    ensures r.Some? && r.value.out.Err? ==> r.value.out.error.EOF?
    decreases |lx.chunk| - lx.index
  {
    if IsEof(lx) then Some(Step(Ok(()), lx))
    else
      var ch := lx.chunk[lx.index];
      if Test(lx, "--") then
        match SkipComment(lx)
        case None => None
        case Some(c) => if c.out.Err? then Some(c) else SkipWhitespaces(c.lx)
      else if Test(lx, "\r\n") || Test(lx, "\n\r") then
        var m := NextLine(lx, 2);
        if m.out.Err? then Some(m) else SkipWhitespaces(m.lx)
      else if IsNewLine(ch) then
        var m := NextLine(lx, 1);
        if m.out.Err? then Some(m) else SkipWhitespaces(m.lx)
      else if IsAsciiWhitespace(ch) then
        var m := Next(lx, 1);
        if m.out.Err? then Some(m) else SkipWhitespaces(m.lx)
      else
        Some(Step(Ok(()), lx))
  }

  /**
   * Line breaks in a run of whitespace, read from the left: a `\r\n` or
   * `\n\r` pair is one break, any other `\r` or `\n` is one.
   */
  function LineBreaks(s: string): nat
    decreases |s|
  {
    if |s| == 0 then 0
    else if |s| >= 2 && (s[..2] == "\r\n" || s[..2] == "\n\r") then 1 + LineBreaks(s[2..])
    else if IsNewLine(s[0]) then 1 + LineBreaks(s[1..])
    else LineBreaks(s[1..])
  }

  /**
   * Over text without comments, the whitespace loop counts exactly the
   * line breaks of the text it skips.
   */
  lemma {:induction false} SkipCountsLineBreaks(lx: Lexer)
    requires lx.index <= |lx.chunk|
    requires SkipWhitespaces(lx).Some? && SkipWhitespaces(lx).value.out.Ok?
    requires forall k | lx.index <= k < SkipWhitespaces(lx).value.lx.index :: lx.chunk[k] != '-'
    ensures var after := SkipWhitespaces(lx).value.lx;
      after.line == lx.line + LineBreaks(lx.chunk[lx.index..after.index])
    decreases |lx.chunk| - lx.index
  {
    var after := SkipWhitespaces(lx).value.lx;
    if IsEof(lx) || after.index == lx.index {
      assert after == lx by { SkipStaysOnlyWhenStopped(lx); }
    } else {
      var m := SkipStep(lx);
      hide SkipWhitespaces, LineBreaks;
      SkipCountsLineBreaks(m);
    }
  }

  /**
   * One round of the whitespace loop over text without comments: the
   * position and line after it, with the loop's result unchanged and the
   * line breaks it stepped over counted.
   */
  lemma SkipStep(lx: Lexer) returns (m: Lexer)
    requires lx.index < |lx.chunk|
    requires SkipWhitespaces(lx).Some? && SkipWhitespaces(lx).value.out.Ok?
    requires SkipWhitespaces(lx).value.lx.index != lx.index
    requires forall k | lx.index <= k < SkipWhitespaces(lx).value.lx.index :: lx.chunk[k] != '-'
    ensures m.chunk == lx.chunk && lx.index < m.index <= SkipWhitespaces(lx).value.lx.index
    ensures SkipWhitespaces(m) == SkipWhitespaces(lx)
    ensures var e := SkipWhitespaces(lx).value.lx.index;
      m.line + LineBreaks(lx.chunk[m.index..e]) == lx.line + LineBreaks(lx.chunk[lx.index..e])
  {
    var after := SkipWhitespaces(lx).value.lx;
    var ch := lx.chunk[lx.index];
    assert !Test(lx, "--") by { assert lx.chunk[lx.index] != '-'; }
    var s := lx.chunk[lx.index..after.index];
    assert s[0] == ch;
    if Test(lx, "\r\n") || Test(lx, "\n\r") {
      m := NextLine(lx, 2).lx;
      assert s[..2] == lx.chunk[lx.index..lx.index + 2];
      assert s[2..] == lx.chunk[m.index..after.index];
      assert LineBreaks(s) == 1 + LineBreaks(s[2..]);
    } else if IsNewLine(ch) {
      m := NextLine(lx, 1).lx;
      assert |s| >= 2 ==> s[..2] == lx.chunk[lx.index..lx.index + 2];
      assert s[1..] == lx.chunk[m.index..after.index];
      assert LineBreaks(s) == 1 + LineBreaks(s[1..]);
    } else {
      m := Next(lx, 1).lx;
      assert |s| >= 2 ==> s[..2] == lx.chunk[lx.index..lx.index + 2];
      assert s[1..] == lx.chunk[m.index..after.index];
      assert LineBreaks(s) == LineBreaks(s[1..]);
    }
  }

  /** The loop returns without moving only where it started stopped or at the end. */
  lemma SkipStaysOnlyWhenStopped(lx: Lexer)
    requires SkipWhitespaces(lx).Some? && SkipWhitespaces(lx).value.out.Ok?
    requires SkipWhitespaces(lx).value.lx.index == lx.index
    ensures SkipWhitespaces(lx).value.lx == lx
  {
  }

  // ---------------------------------------------------------------------
  // Keywords and punctuation
  // ---------------------------------------------------------------------

  /**
   * The 22-entry `keywords` table, keyed by identifier text; looked up by
   * length first, one helper per length.
   */
  function Keyword(s: string): (r: Option<Token>)
    ensures r.Some? ==> KeywordText(r.value) == Some(s)
    ensures r.Some? ==> Spelling(r.value).None?
  {
    match |s|
    case 2 => KeywordsOfLength2(s)
    case 3 => KeywordsOfLength3(s)
    case 4 => KeywordsOfLength4(s)
    case 5 => KeywordsOfLength5(s)
    case 6 => KeywordsOfLength6(s)
    case 8 => KeywordsOfLength8(s)
    case _ => None
  }

  function KeywordsOfLength2(s: string): (r: Option<Token>)
    requires |s| == 2
    ensures r.Some? ==> KeywordText(r.value) == Some(s)
    ensures r.Some? ==> Spelling(r.value).None?
  {
    if s == "or" then Some(OpOr)
    else if s == "if" then Some(KwIf)
    else if s == "do" then Some(KwDo)
    else if s == "in" then Some(KwIn)
    else None
  }

  function KeywordsOfLength3(s: string): (r: Option<Token>)
    requires |s| == 3
    ensures r.Some? ==> KeywordText(r.value) == Some(s)
    ensures r.Some? ==> Spelling(r.value).None?
  {
    if s == "and" then Some(OpAnd)
    else if s == "not" then Some(OpNot)
    else if s == "end" then Some(KwEnd)
    else if s == "for" then Some(KwFor)
    else if s == "nil" then Some(KwNil)
    else None
  }

  function KeywordsOfLength4(s: string): (r: Option<Token>)
    requires |s| == 4
    ensures r.Some? ==> KeywordText(r.value) == Some(s)
    ensures r.Some? ==> Spelling(r.value).None?
  {
    if s == "else" then Some(KwElse)
    else if s == "goto" then Some(KwGoto)
    else if s == "then" then Some(KwThen)
    else if s == "true" then Some(KwTrue)
    else None
  }

  function KeywordsOfLength5(s: string): (r: Option<Token>)
    requires |s| == 5
    ensures r.Some? ==> KeywordText(r.value) == Some(s)
    ensures r.Some? ==> Spelling(r.value).None?
  {
    if s == "break" then Some(KwBreak)
    else if s == "local" then Some(KwLocal)
    else if s == "until" then Some(KwUntil)
    else if s == "while" then Some(KwWhile)
    else if s == "false" then Some(KwFalse)
    else None
  }

  function KeywordsOfLength6(s: string): (r: Option<Token>)
    requires |s| == 6
    ensures r.Some? ==> KeywordText(r.value) == Some(s)
    ensures r.Some? ==> Spelling(r.value).None?
  {
    if s == "return" then Some(KwReturn)
    else if s == "elseif" then Some(KwElseIf)
    else if s == "repeat" then Some(KwRepeat)
    else None
  }

  function KeywordsOfLength8(s: string): (r: Option<Token>)
    requires |s| == 8
    ensures r.Some? ==> KeywordText(r.value) == Some(s)
    ensures r.Some? ==> Spelling(r.value).None?
  {
    if s == "function" then Some(KwFunction)
    else None
  }

  /** The spelling of each keyword token (the table read backwards). */
  function KeywordText(t: Token): Option<string> {
    match t
    case OpAnd => Some("and")
    case OpOr => Some("or")
    case OpNot => Some("not")
    case KwFunction => Some("function")
    case KwBreak => Some("break")
    case KwReturn => Some("return")
    case KwLocal => Some("local")
    case KwIf => Some("if")
    case KwElse => Some("else")
    case KwElseIf => Some("elseif")
    case KwGoto => Some("goto")
    case KwDo => Some("do")
    case KwEnd => Some("end")
    case KwThen => Some("then")
    case KwUntil => Some("until")
    case KwRepeat => Some("repeat")
    case KwWhile => Some("while")
    case KwFor => Some("for")
    case KwIn => Some("in")
    case KwTrue => Some("true")
    case KwFalse => Some("false")
    case KwNil => Some("nil")
    case _ => None
  }

  /** The keyword table is one-to-one: it and its reverse are inverses. */
  lemma KeywordTableInverse(s: string, t: Token)
    ensures Keyword(s) == Some(t) <==> KeywordText(t) == Some(s)
  {
    if KeywordText(t) == Some(s) {
      KeywordTextFound(t);
    }
  }

  lemma KeywordTextFound(t: Token)
    requires KeywordText(t).Some?
    ensures Keyword(KeywordText(t).value) == Some(t)
  {
    match t
    case OpAnd => assert Keyword("and") == Some(OpAnd);
    case OpOr => assert Keyword("or") == Some(OpOr);
    case OpNot => assert Keyword("not") == Some(OpNot);
    case KwFunction => assert Keyword("function") == Some(KwFunction);
    case KwBreak => assert Keyword("break") == Some(KwBreak);
    case KwReturn => assert Keyword("return") == Some(KwReturn);
    case KwLocal => assert Keyword("local") == Some(KwLocal);
    case KwIf => assert Keyword("if") == Some(KwIf);
    case KwElse => assert Keyword("else") == Some(KwElse);
    case KwElseIf => assert Keyword("elseif") == Some(KwElseIf);
    case KwGoto => assert Keyword("goto") == Some(KwGoto);
    case KwDo => assert Keyword("do") == Some(KwDo);
    case KwEnd => assert Keyword("end") == Some(KwEnd);
    case KwThen => assert Keyword("then") == Some(KwThen);
    case KwUntil => assert Keyword("until") == Some(KwUntil);
    case KwRepeat => assert Keyword("repeat") == Some(KwRepeat);
    case KwWhile => assert Keyword("while") == Some(KwWhile);
    case KwFor => assert Keyword("for") == Some(KwFor);
    case KwIn => assert Keyword("in") == Some(KwIn);
    case KwTrue => assert Keyword("true") == Some(KwTrue);
    case KwFalse => assert Keyword("false") == Some(KwFalse);
    case KwNil => assert Keyword("nil") == Some(KwNil);
    case _ =>
  }

  /** The spelling of each separator and operator token. */
  function Spelling(t: Token): Option<string> {
    match t
    case Vararg => Some("...")
    case SepSemi => Some(";")
    case SepComma => Some(",")
    case SepDot => Some(".")
    case SepColon => Some(":")
    case SepLabel => Some("::")
    case SepLparen => Some("(")
    case SepRparen => Some(")")
    case SepLbrack => Some("[")
    case SepRbrack => Some("]")
    case SepLcurly => Some("{")
    case SepRcurly => Some("}")
    case OpAssign => Some("=")
    case OpMinus => Some("-")
    case OpWave => Some("~")
    case OpAdd => Some("+")
    case OpMul => Some("*")
    case OpDiv => Some("/")
    case OpIDiv => Some("//")
    case OpPow => Some("^")
    case OpMod => Some("%")
    case OpBitAnd => Some("&")
    case OpBitOr => Some("|")
    case OpShr => Some(">>")
    case OpShl => Some("<<")
    case OpConcat => Some("..")
    case OpLt => Some("<")
    case OpLe => Some("<=")
    case OpGt => Some(">")
    case OpGe => Some(">=")
    case OPEq => Some("==")
    case OpNe => Some("~=")
    case OpLen => Some("#")
    case _ => None
  }

  /** The bytes `next_token` turns into a token after consuming exactly one. */
  function SingleChar(c: char): Option<Token> {
    match c
    case ';' => Some(SepSemi)
    case ',' => Some(SepComma)
    case '(' => Some(SepLparen)
    case ')' => Some(SepRparen)
    case ']' => Some(SepRbrack)
    case '{' => Some(SepLcurly)
    case '}' => Some(SepRcurly)
    case '+' => Some(OpAdd)
    case '-' => Some(OpMinus)
    case '*' => Some(OpMul)
    case '^' => Some(OpPow)
    case '%' => Some(OpMod)
    case '&' => Some(OpBitAnd)
    case '|' => Some(OpBitOr)
    case '#' => Some(OpLen)
    case _ => None
  }

  /** No one-byte token byte begins a longer spelling. */
  lemma SingleCharNotPaired(c: char)
    requires SingleChar(c).Some?
    ensures c !in ".:/~=<>"
  {
  }

  lemma SingleCharSpelling(c: char)
    requires SingleChar(c).Some?
    ensures Spelling(SingleChar(c).value) == Some([c])
  {
  }

  /** Every keyword is spelled with word characters only. */
  lemma KeywordsAreWords(t: Token)
    requires KeywordText(t).Some?
    ensures 2 <= |KeywordText(t).value| <= 8 && RunIn(KeywordText(t).value, 0, |KeywordText(t).value|, Word)
  {
  }

  // ---------------------------------------------------------------------
  // Numerals: the pattern `scan_number` matches, and its grammar
  // ---------------------------------------------------------------------

  /** Whether the text starts with a hexadecimal prefix `0x` or `0X`. */
  predicate HexPrefix(t: string) {
    2 <= |t| && t[0] == '0' && (t[1] == 'x' || t[1] == 'X')
  }

  /** An optional `.` followed by a greedy run of `cls`. */
  function FractionEnd(t: string, i: nat, cls: Class): (j: nat)
    requires i <= |t|
    ensures i <= j <= |t|
  {
    if i < |t| && t[i] == '.' then Span(t, i + 1, cls) else i
  }

  /**
   * An optional exponent: a mark, an optional sign, then at least one
   * decimal digit. Without a digit the group does not match and nothing
   * is consumed.
   */
  function ExponentEnd(t: string, j: nat, e1: char, e2: char): (k: nat)
    requires j <= |t|
    ensures j <= k <= |t|
  {
    if j < |t| && (t[j] == e1 || t[j] == e2) then
      var d := if j + 1 < |t| && (t[j + 1] == '+' || t[j + 1] == '-') then j + 2 else j + 1;
      var k := Span(t, d, Digit);
      if k > d then k else j
    else j
  }

  /** Mantissa digits of class `cls`, an optional fraction, an optional exponent. */
  function BodyEnd(t: string, i: nat, cls: Class, e1: char, e2: char): (n: nat)
    requires i <= |t|
    ensures i <= n <= |t|
  {
    ExponentEnd(t, FractionEnd(t, Span(t, i, cls), cls), e1, e2)
  }

  /**
   * The length of the match of `scan_number`'s pattern at the start of
   * the text: the hexadecimal alternative when the text starts with
   * `0x`/`0X` (it is tried first and then always matches), the decimal
   * one otherwise (which always matches, possibly nothing).
   */
  function NumeralLength(t: string): (n: nat)
    ensures n <= |t|
    ensures |t| > 0 && (IsDigit(t[0]) || (t[0] == '.' && |t| > 1 && IsDigit(t[1]))) ==> n > 0
  {
    if HexPrefix(t) then BodyEnd(t, 2, HexDigit, 'p', 'P') else BodyEnd(t, 0, Digit, 'e', 'E')
  }

  /** Every character of `s[lo..hi]` is of class `cls`. */
  predicate RunIn(s: string, lo: nat, hi: nat, cls: Class)
    requires lo <= hi <= |s|
  {
    forall k | lo <= k < hi :: In(s[k], cls)
  }

  /** `s[j..e]` is an exponent: a mark, an optional sign, at least one digit. */
  predicate ExponentIn(s: string, j: nat, e: nat, e1: char, e2: char)
    requires j <= e <= |s|
  {
    j + 2 <= e && (s[j] == e1 || s[j] == e2) &&
    (RunIn(s, j + 1, e, Digit) || (j + 3 <= e && (s[j + 1] == '+' || s[j + 1] == '-') && RunIn(s, j + 2, e, Digit)))
  }

  /** `s[lo..e]` is digits of `cls`, then optionally a fraction, then optionally an exponent. */
  ghost predicate BodyIn(s: string, lo: nat, e: nat, cls: Class, e1: char, e2: char)
    requires lo <= e <= |s|
  {
    exists a: nat, b: nat :: BodySplit(s, lo, a, b, e, cls, e1, e2)
  }

  /** The mantissa is `s[lo..a]`, the fraction `s[a..b]`, the exponent `s[b..e]`. */
  predicate BodySplit(s: string, lo: nat, a: nat, b: nat, e: nat, cls: Class, e1: char, e2: char) {
    lo <= a <= b <= e <= |s| &&
    RunIn(s, lo, a, cls) &&
    (b == a || (s[a] == '.' && RunIn(s, a + 1, b, cls))) &&
    (b == e || ExponentIn(s, b, e, e1, e2))
  }

  /** The numeral grammar of Lua 5.3 as the scanner's pattern accepts it. */
  ghost predicate IsNumeral(s: string) {
    (HexPrefix(s) && BodyIn(s, 2, |s|, HexDigit, 'p', 'P')) || BodyIn(s, 0, |s|, Digit, 'e', 'E')
  }

  /** The classes and marks a numeral body is built from keep apart. */
  predicate Separated(cls: Class, e1: char, e2: char) {
    !In('.', cls) && !In(e1, cls) && !In(e2, cls) && e1 != '.' && e2 != '.' &&
    !IsDigit(e1) && !IsDigit(e2)
  }

  lemma ExponentMatches(t: string, j: nat, e1: char, e2: char)
    requires j <= |t|
    ensures var k := ExponentEnd(t, j, e1, e2); k == j || ExponentIn(t, j, k, e1, e2)
  {
  }

  lemma ExponentIsLongest(t: string, j: nat, m: nat, e1: char, e2: char)
    requires j <= m <= |t| && ExponentIn(t, j, m, e1, e2)
    requires !IsDigit(e1) && !IsDigit(e2)
    ensures m <= ExponentEnd(t, j, e1, e2)
  {
    if t[j + 1] == '+' || t[j + 1] == '-' {
      assert !In(t[j + 1], Digit);
      SpanIsLongest(t, j + 2, Digit, m);
    } else {
      SpanIsLongest(t, j + 1, Digit, m);
    }
  }

  /** The body the scanner consumes matches the body grammar. */
  lemma BodyMatches(t: string, i: nat, cls: Class, e1: char, e2: char)
    requires i <= |t|
    ensures BodyIn(t, i, BodyEnd(t, i, cls, e1, e2), cls, e1, e2)
  {
    var p := Span(t, i, cls);
    var f := FractionEnd(t, p, cls);
    var n := BodyEnd(t, i, cls, e1, e2);
    ExponentMatches(t, f, e1, e2);
    assert BodySplit(t, i, p, f, n, cls, e1, e2);
  }

  /** No longer stretch matches the body grammar. */
  lemma BodyIsLongest(t: string, i: nat, m: nat, cls: Class, e1: char, e2: char)
    requires i <= m <= |t| && Separated(cls, e1, e2)
    requires BodyIn(t, i, m, cls, e1, e2)
    ensures m <= BodyEnd(t, i, cls, e1, e2)
  {
    var a: nat, b: nat :| BodySplit(t, i, a, b, m, cls, e1, e2);
    SpanIsLongest(t, i, cls, a);
    if a < Span(t, i, cls) {
      BodyStopsInMantissa(t, i, a, b, m, cls, e1, e2);
    } else {
      BodyPastMantissa(t, i, a, b, m, cls, e1, e2);
    }
  }

  /** A split whose mantissa stops short of the longest run has nothing after it. */
  lemma BodyStopsInMantissa(t: string, i: nat, a: nat, b: nat, m: nat, cls: Class, e1: char, e2: char)
    requires BodySplit(t, i, a, b, m, cls, e1, e2) && Separated(cls, e1, e2)
    requires a < Span(t, i, cls)
    ensures m == a
  {
    assert In(t[a], cls);
  }

  /** A split whose mantissa is the longest run ends within the body's end. */
  lemma BodyPastMantissa(t: string, i: nat, a: nat, b: nat, m: nat, cls: Class, e1: char, e2: char)
    requires BodySplit(t, i, a, b, m, cls, e1, e2) && Separated(cls, e1, e2)
    requires a == Span(t, i, cls)
    ensures m <= BodyEnd(t, i, cls, e1, e2)
  {
    var f := FractionEnd(t, a, cls);
    assert BodyEnd(t, i, cls, e1, e2) == ExponentEnd(t, f, e1, e2);
    if b > a {
      assert t[a] == '.' && RunIn(t, a + 1, b, cls);
      SpanIsLongest(t, a + 1, cls, b);
      if b < f {
        assert In(t[b], cls);
      } else if b < m {
        ExponentIsLongest(t, f, m, e1, e2);
      }
    } else if b < m {
      ExponentIsLongest(t, f, m, e1, e2);
    }
  }

  /** The body grammar only looks at the characters it covers. */
  lemma BodyInPrefix(t: string, i: nat, m: nat, cls: Class, e1: char, e2: char)
    requires i <= m <= |t|
    ensures BodyIn(t[..m], i, m, cls, e1, e2) <==> BodyIn(t, i, m, cls, e1, e2)
  {
    hide BodySplit;
    if BodyIn(t[..m], i, m, cls, e1, e2) {
      var a: nat, b: nat :| BodySplit(t[..m], i, a, b, m, cls, e1, e2);
      SplitInPrefix(t, i, a, b, m, cls, e1, e2);
    }
    if BodyIn(t, i, m, cls, e1, e2) {
      var a: nat, b: nat :| BodySplit(t, i, a, b, m, cls, e1, e2);
      SplitInPrefix(t, i, a, b, m, cls, e1, e2);
    }
  }

  lemma SplitInPrefix(t: string, i: nat, a: nat, b: nat, m: nat, cls: Class, e1: char, e2: char)
    requires m <= |t|
    ensures BodySplit(t[..m], i, a, b, m, cls, e1, e2) <==> BodySplit(t, i, a, b, m, cls, e1, e2)
  {
    if i <= a <= b <= m {
      RunInPrefix(t, i, a, m, cls);
      if a < b {
        RunInPrefix(t, a + 1, b, m, cls);
      }
      if b + 1 <= m {
        RunInPrefix(t, b + 1, m, m, Digit);
      }
      if b + 2 <= m {
        RunInPrefix(t, b + 2, m, m, Digit);
      }
    }
  }

  lemma RunInPrefix(t: string, lo: nat, hi: nat, m: nat, cls: Class)
    requires lo <= hi <= m <= |t|
    ensures RunIn(t[..m], lo, hi, cls) <==> RunIn(t, lo, hi, cls)
  {
    assert forall k | lo <= k < hi :: t[..m][k] == t[k];
  }

  /**
   * Maximal munch for numbers: `scan_number` takes a prefix that is a
   * numeral, and no longer prefix is one.
   */
  lemma NumeralIsLongest(t: string)
    ensures IsNumeral(t[..NumeralLength(t)])
    ensures forall m | NumeralLength(t) < m <= |t| :: !IsNumeral(t[..m])
  {
    var n := NumeralLength(t);
    if HexPrefix(t) {
      BodyMatches(t, 2, HexDigit, 'p', 'P');
      BodyInPrefix(t, 2, n, HexDigit, 'p', 'P');
    } else {
      BodyMatches(t, 0, Digit, 'e', 'E');
      BodyInPrefix(t, 0, n, Digit, 'e', 'E');
    }
    forall m | n < m <= |t|
      ensures !IsNumeral(t[..m])
    {
      var s := t[..m];
      if HexPrefix(s) && BodyIn(s, 2, m, HexDigit, 'p', 'P') {
        BodyInPrefix(t, 2, m, HexDigit, 'p', 'P');
        BodyIsLongest(t, 2, m, HexDigit, 'p', 'P');
      }
      if BodyIn(s, 0, m, Digit, 'e', 'E') {
        BodyInPrefix(t, 0, m, Digit, 'e', 'E');
        BodyIsLongest(t, 0, m, Digit, 'e', 'E');
      }
    }
  }


  // ---------------------------------------------------------------------
  // Strings
  // ---------------------------------------------------------------------

  /**
   * A short string as the scanner's pattern accepts it once its escape
   * alternatives are set aside: a quote, characters other than `'` and
   * line feed, and the same quote again. Inside double quotes this admits
   * `"` itself.
   */
  ghost predicate IsShortString(s: string) {
    |s| >= 2 && (s[0] == '\'' || s[0] == '"') && s[|s| - 1] == s[0] && RunIn(s, 1, |s| - 1, ShortStringChar)
  }

  /** The last `"` in `t[lo..hi]`. */
  function LastQuote(t: string, lo: nat, hi: nat): (r: Option<nat>)
    requires lo <= hi <= |t|
    ensures r.Some? ==> lo <= r.value < hi && t[r.value] == '"'
    ensures r.Some? ==> forall k | r.value < k < hi :: t[k] != '"'
    ensures r.None? ==> forall k | lo <= k < hi :: t[k] != '"'
    decreases hi
  {
    if hi == lo then None
    else if t[hi - 1] == '"' then Some(hi - 1)
    else LastQuote(t, lo, hi - 1)
  }

  /**
   * The length of the match of `scan_short_string`'s pattern at the start
   * of the text: after `'` the string ends at the first `'`; after `"` it
   * ends at the last `"` before the first `'` or line feed.
   */
  function ShortStringLength(t: string): (r: Option<nat>)
    requires |t| >= 1 && (t[0] == '\'' || t[0] == '"')
    ensures r.Some? ==> 2 <= r.value <= |t|
  {
    var run := Span(t, 1, ShortStringChar);
    if t[0] == '\'' then
      if run < |t| && t[run] == '\'' then Some(run + 1) else None
    else
      match LastQuote(t, 1, run)
      case Some(k) => Some(k + 1)
      case None => None
  }

  /**
   * The short-string scan takes the longest prefix that is a short
   * string, and fails exactly when no prefix is one.
   */
  lemma ShortStringIsLongest(t: string)
    requires |t| >= 1 && (t[0] == '\'' || t[0] == '"')
    ensures ShortStringLength(t).Some? ==> IsShortString(t[..ShortStringLength(t).value])
    ensures forall m | 0 <= m <= |t| && IsShortString(t[..m]) ::
      ShortStringLength(t).Some? && m <= ShortStringLength(t).value
  {
    var run := Span(t, 1, ShortStringChar);
    if ShortStringLength(t).Some? {
      var n := ShortStringLength(t).value;
      RunInPrefix(t, 1, n - 1, n, ShortStringChar);
    }
    forall m | 0 <= m <= |t| && IsShortString(t[..m])
      ensures ShortStringLength(t).Some? && m <= ShortStringLength(t).value
    {
      assert t[..m][0] == t[0] && t[..m][m - 1] == t[m - 1];
      RunInPrefix(t, 1, m - 1, m, ShortStringChar);
      SpanIsLongest(t, 1, ShortStringChar, m - 1);
      if m - 1 < run {
        assert In(t[m - 1], ShortStringChar);
      }
    }
  }

  /** Whether no line feed occurs in `t[lo..hi]`. */
  predicate LineFree(t: string, lo: nat, hi: nat)
    requires lo <= hi <= |t|
  {
    forall p | lo <= p < hi :: t[p] != '\n'
  }

  /** A closing long bracket `]=*]` at `k`, and the position after it. */
  function CloseAt(t: string, k: nat): (r: Option<nat>)
    requires k <= |t|
    ensures r.Some? ==> k + 2 <= r.value <= |t| && t[k] == ']' && t[r.value - 1] == ']'
  {
    if k < |t| && t[k] == ']' then
      var e := Span(t, k + 1, Equals);
      if e < |t| && t[e] == ']' then Some(e + 1) else None
    else None
  }

  /**
   * The lazy body of a long bracket: the first position from `k` on where
   * a closing bracket starts, provided no line feed comes before it; with
   * the position after that bracket.
   */
  function FindClose(t: string, k: nat): (r: Option<(nat, nat)>)
    requires k <= |t|
    ensures r.Some? ==> k <= r.value.0 < |t| && CloseAt(t, r.value.0) == Some(r.value.1)
    ensures r.Some? ==> LineFree(t, k, r.value.0)
    ensures r.Some? ==> forall q | k <= q < r.value.0 :: CloseAt(t, q).None?
    ensures r.None? ==> forall q | k <= q <= |t| && LineFree(t, k, q) :: CloseAt(t, q).None?
    decreases |t| - k
  {
    if k >= |t| then None
    else if CloseAt(t, k).Some? then Some((k, CloseAt(t, k).value))
    else if t[k] == '\n' then None
    else FindClose(t, k + 1)
  }

  /**
   * The match of `scan_long_string`'s pattern at the start of the text:
   * the start and end of the contents and the end of the closing bracket.
   * The two brackets' levels need not agree, as in the pattern.
   */
  function LongBracket(t: string): (r: Option<(nat, nat, nat)>)
    requires |t| >= 1 && t[0] == '['
    ensures r.Some? ==> var (c, k, e) := r.value; 2 <= c <= k < e <= |t| && t[c - 1] == '['
  {
    var open := Span(t, 1, Equals);
    if open < |t| && t[open] == '[' then
      match FindClose(t, open + 1)
      case Some((k, e)) => Some((open + 1, k, e))
      case None => None
    else None
  }

  // ---------------------------------------------------------------------
  // Scanners
  // ---------------------------------------------------------------------

  /** `scan_number`: the pattern always matches, so this never fails. */
  function ScanNumber(lx: Lexer): (r: Step<Token>)
    requires !IsEof(lx)
    ensures var t := lx.chunk[lx.index..];
      r == Step(Ok(Number(t[..NumeralLength(t)])), lx.(index := lx.index + NumeralLength(t)))
    ensures Forward(lx, r.lx) && Spelling(r.out.value).None?
    ensures var ch := lx.chunk[lx.index];
      IsDigit(ch) || (ch == '.' && lx.index + 1 < |lx.chunk| && IsDigit(lx.chunk[lx.index + 1])) ==>
      r.lx.index > lx.index
  {
    var t := lx.chunk[lx.index..];
    var n := NumeralLength(t);
    Step(Ok(Number(t[..n])), lx.(index := lx.index + n))
  }

  /**
   * `scan_identifier` followed by the keyword lookup: the longest run of
   * word characters, as a keyword token when the table has it
   * (`ScanIdentifierTakesWord` states which run and which token).
   */
  function ScanIdentifier(lx: Lexer): (r: Step<Token>)
    requires !IsEof(lx)
    ensures r.out.Err? ==> r == Step(Err(IllegalToken(lx.line)), lx)
    ensures r.out.Ok? ==> lx.index < r.lx.index && Spelling(r.out.value).None?
    ensures Forward(lx, r.lx)
  {
    hide Keyword;
    var n := Span(lx.chunk[lx.index..], 0, Word);
    if n == 0 then Step(Err(IllegalToken(lx.line)), lx)
    else
      var w := lx.chunk[lx.index..lx.index + n];
      Step(Ok(Keyword(w).GetOr(Identifier(w))), lx.(index := lx.index + n))
  }

  /**
   * The identifier scanner succeeds exactly on a word character, takes the
   * whole run of word characters and nothing after it, and yields the
   * keyword for that run when there is one and an identifier otherwise.
   */
  lemma ScanIdentifierTakesWord(lx: Lexer)
    requires !IsEof(lx)
    ensures var r := ScanIdentifier(lx);
      (r.out.Ok? <==> In(lx.chunk[lx.index], Word)) &&
      (r.out.Ok? ==> r.lx == lx.(index := r.lx.index) && r.lx.index <= |lx.chunk|)
    ensures var r := ScanIdentifier(lx);
      r.out.Ok? ==>
      var w := lx.chunk[lx.index..r.lx.index];
      RunIn(lx.chunk, lx.index, r.lx.index, Word) &&
      (r.lx.index < |lx.chunk| ==> !In(lx.chunk[r.lx.index], Word)) &&
      (Keyword(w).Some? ==> r.out.value == Keyword(w).value) &&
      (Keyword(w).None? ==> r.out.value == Identifier(w))
  {
    hide Keyword;
    var t := lx.chunk[lx.index..];
    var n := Span(t, 0, Word);
    assert ScanIdentifier(lx).lx.index == lx.index + n;
    assert forall k | lx.index <= k < lx.index + n :: lx.chunk[k] == t[k - lx.index];
  }

  /** `scan_short_string`: the text between the quotes, escapes not decoded. */
  function ScanShortString(lx: Lexer): (r: Step<Token>)
    requires !IsEof(lx) && (lx.chunk[lx.index] == '\'' || lx.chunk[lx.index] == '"')
    ensures r.out.Err? ==> r == Step(Err(IllegalToken(lx.line)), lx)
    ensures r.out.Ok? ==>
      var t := lx.chunk[lx.index..];
      ShortStringLength(t).Some? &&
      r.lx == lx.(index := lx.index + ShortStringLength(t).value) &&
      r.out.value == String(t[1..ShortStringLength(t).value - 1])
    ensures r.out.Err? <==> ShortStringLength(lx.chunk[lx.index..]).None?
    ensures Forward(lx, r.lx) && (r.out.Ok? ==> r.lx.index > lx.index && Spelling(r.out.value).None?)
  {
    var t := lx.chunk[lx.index..];
    match ShortStringLength(t)
    case None => Step(Err(IllegalToken(lx.line)), lx)
    case Some(n) => Step(Ok(String(t[1..n - 1])), lx.(index := lx.index + n))
  }

  /** `scan_long_string`: the text between the long brackets. */
  function ScanLongString(lx: Lexer): (r: Step<Token>)
    requires !IsEof(lx) && lx.chunk[lx.index] == '['
    ensures r.out.Err? <==> LongBracket(lx.chunk[lx.index..]).None?
    ensures r.out.Err? ==> r == Step(Err(IllegalToken(lx.line)), lx)
    ensures r.out.Ok? ==>
      var t := lx.chunk[lx.index..];
      var (c, k, e) := LongBracket(t).value;
      r.lx == lx.(index := lx.index + e) && r.out.value == String(t[c..k])
    ensures Forward(lx, r.lx) && (r.out.Ok? ==> r.lx.index > lx.index && Spelling(r.out.value).None?)
  {
    var t := lx.chunk[lx.index..];
    match LongBracket(t)
    case None => Step(Err(IllegalToken(lx.line)), lx)
    case Some((c, k, e)) => Step(Ok(String(t[c..k])), lx.(index := lx.index + e))
  }

  // ---------------------------------------------------------------------
  // Token dispatch
  // ---------------------------------------------------------------------

  /** `simple_token` and the two- and three-byte arms: consume n bytes, then the token. */
  function Simple(lx: Lexer, n: nat, tok: Token): (r: Step<Token>)
    ensures r.lx == lx.(index := lx.index + n)
    ensures r.out.Ok? <==> lx.index + n < |lx.chunk|
    ensures r.out.Ok? ==> r.out.value == tok
    ensures r.out.Err? ==> r.out.error == EOF(lx.line)
  {
    var m := Next(lx, n);
    Step(if m.out.Ok? then Ok(tok) else Err(m.out.error), m.lx)
  }

  /**
   * None of the separator and operator spellings longer than n bytes
   * (`...`, then the nine two-byte ones) stands at the cursor.
   */
  predicate NoLongerSpelling(lx: Lexer, n: nat) {
    (n < 3 ==> !HasPrefixAt(lx, "...")) &&
    (n < 2 ==>
      !HasPrefixAt(lx, "..") && !HasPrefixAt(lx, "::") && !HasPrefixAt(lx, "//") &&
      !HasPrefixAt(lx, "~=") && !HasPrefixAt(lx, "==") && !HasPrefixAt(lx, "<<") &&
      !HasPrefixAt(lx, "<=") && !HasPrefixAt(lx, ">>") && !HasPrefixAt(lx, ">="))
  }

  /** A spelling can only stand at the cursor if it starts with the byte there. */
  lemma FirstByteDiffers(lx: Lexer, sp: string)
    requires !IsEof(lx) && |sp| > 0 && lx.chunk[lx.index] != sp[0]
    ensures !HasPrefixAt(lx, sp)
  {
  }

  /** The byte under the cursor is a one-byte prefix there. */
  lemma ByteAtCursor(lx: Lexer)
    requires !IsEof(lx)
    ensures HasPrefixAt(lx, [lx.chunk[lx.index]])
  {
    assert lx.chunk[lx.index..lx.index + 1] == [lx.chunk[lx.index]];
  }

  /** The multi-byte spellings that start with another byte are not at the cursor. */
  lemma OtherFirstBytes(lx: Lexer)
    requires !IsEof(lx)
    ensures var ch := lx.chunk[lx.index];
      (ch != '.' ==> !HasPrefixAt(lx, "...") && !HasPrefixAt(lx, "..")) &&
      (ch != ':' ==> !HasPrefixAt(lx, "::")) &&
      (ch != '/' ==> !HasPrefixAt(lx, "//")) &&
      (ch != '~' ==> !HasPrefixAt(lx, "~=")) &&
      (ch != '=' ==> !HasPrefixAt(lx, "==")) &&
      (ch != '<' ==> !HasPrefixAt(lx, "<<") && !HasPrefixAt(lx, "<=")) &&
      (ch != '>' ==> !HasPrefixAt(lx, ">>") && !HasPrefixAt(lx, ">="))
  {
    var ch := lx.chunk[lx.index];
    if ch != '.' { FirstByteDiffers(lx, "..."); FirstByteDiffers(lx, ".."); }
    if ch != ':' { FirstByteDiffers(lx, "::"); }
    if ch != '/' { FirstByteDiffers(lx, "//"); }
    if ch != '~' { FirstByteDiffers(lx, "~="); }
    if ch != '=' { FirstByteDiffers(lx, "=="); }
    if ch != '<' { FirstByteDiffers(lx, "<<"); FirstByteDiffers(lx, "<="); }
    if ch != '>' { FirstByteDiffers(lx, ">>"); FirstByteDiffers(lx, ">="); }
  }

  /** The ten tokens spelt with more than one byte. */
  lemma MultiByteSpellings(t: Token)
    requires Spelling(t).Some? && |Spelling(t).value| > 1
    ensures t in {Vararg, SepLabel, OpIDiv, OpShr, OpShl, OpConcat, OpLe, OpGe, OPEq, OpNe}
  {
  }

  /** The predicate covers every token spelling longer than n bytes. */
  lemma NoLongerSpellingCoversTokens(lx: Lexer, n: nat, t: Token)
    requires n >= 1 && NoLongerSpelling(lx, n)
    requires Spelling(t).Some? && |Spelling(t).value| > n
    ensures !HasPrefixAt(lx, Spelling(t).value)
  {
    MultiByteSpellings(t);
    hide HasPrefixAt;
  }

  /**
   * A separator or operator token was taken by consuming exactly its
   * spelling, and no longer spelling was at the cursor.
   */
  predicate TookLongestSpelling(lx: Lexer, r: Step<Token>)
    requires r.out.Ok? && Spelling(r.out.value).Some?
  {
    var sp := Spelling(r.out.value).value;
    HasPrefixAt(lx, sp) && r.lx.index == lx.index + |sp| && NoLongerSpelling(lx, |sp|)
  }

  /** The bytes a token can start with. */
  predicate StartsToken(c: char) {
    c in ";,()[]{}+-*^%&|#:/~=<>.'\"_" || IsDigit(c) || IsAlpha(c)
  }

  /** The cursor moved forward or stayed, on the same chunk and line. */
  predicate Forward(lx: Lexer, after: Lexer) {
    after.chunk == lx.chunk && after.line == lx.line && after.index >= lx.index
  }

  /** The arms that consume exactly one byte: separators and one-byte operators. */
  function Single(lx: Lexer): (r: Step<Token>)
    requires !IsEof(lx) && SingleChar(lx.chunk[lx.index]).Some?
    ensures Forward(lx, r.lx)
    ensures r.out.Ok? ==> r.lx.index > lx.index && r.out.value != Eof
    ensures r.out.Ok? ==> Spelling(r.out.value).Some? && TookLongestSpelling(lx, r)
    ensures r.out.Err? ==> r.out.error == EOF(lx.line)
  {
    var ch := lx.chunk[lx.index];
    SingleCharNotPaired(ch);
    hide Simple, HasPrefixAt, SingleChar, Spelling;
    SingleCharSpelling(ch);
    ByteAtCursor(lx);
    OtherFirstBytes(lx);
    Simple(lx, 1, SingleChar(ch).value)
  }

  /** The one two-byte spelling that starts with `:`, `/`, `~` or `=`. */
  function Partner(c: char): (sp: string)
    requires c in ":/~="
    ensures |sp| == 2 && sp[0] == c
  {
    if c == '~' then "~=" else [c, c]
  }

  /** Once the partner is ruled out, no spelling longer than one byte is at the cursor. */
  lemma PartnerIsOnlyCandidate(lx: Lexer)
    requires !IsEof(lx) && lx.chunk[lx.index] in ":/~="
    ensures NoLongerSpelling(lx, 2)
    ensures !HasPrefixAt(lx, Partner(lx.chunk[lx.index])) ==> NoLongerSpelling(lx, 1)
  {
    OtherFirstBytes(lx);
  }

  /**
   * The arms for `:`, `/`, `~` and `=`: the two-byte spelling when it is
   * there, else the byte alone.
   */
  function Paired(lx: Lexer, long: Token, short: Token): (r: Step<Token>)
    requires !IsEof(lx) && lx.chunk[lx.index] in ":/~="
    requires Spelling(long) == Some(Partner(lx.chunk[lx.index]))
    requires Spelling(short) == Some([lx.chunk[lx.index]])
    ensures Forward(lx, r.lx)
    ensures r.out.Ok? ==> r.lx.index > lx.index && r.out.value != Eof
    ensures r.out.Ok? ==> Spelling(r.out.value).Some? && TookLongestSpelling(lx, r)
    ensures r.out.Err? ==> r.out.error == EOF(lx.line)
  {
    assert long != Eof && short != Eof by { assert Spelling(Eof).None?; }
    hide Test, TestBounded, Simple, HasPrefixAt, Partner, Spelling, NoLongerSpelling;
    ByteAtCursor(lx);
    PartnerIsOnlyCandidate(lx);
    if Test(lx, Partner(lx.chunk[lx.index])) then Simple(lx, 2, long) else Simple(lx, 1, short)
  }

  /** Once the shift and the comparison are ruled out, nothing longer than `<` or `>` is there. */
  lemma AngledCandidates(lx: Lexer)
    requires !IsEof(lx) && lx.chunk[lx.index] in "<>"
    ensures NoLongerSpelling(lx, 2)
    ensures var ch := lx.chunk[lx.index];
      !HasPrefixAt(lx, [ch, ch]) && !HasPrefixAt(lx, [ch, '=']) ==> NoLongerSpelling(lx, 1)
  {
    OtherFirstBytes(lx);
    var ch := lx.chunk[lx.index];
    if ch == '<' {
      assert [ch, ch] == "<<" && [ch, '='] == "<=";
    } else {
      assert [ch, ch] == ">>" && [ch, '='] == ">=";
    }
  }

  /**
   * The arms for `<` and `>`: the shift (the byte doubled), then the
   * comparison with `=`, then the bare byte.
   */
  function Angled(lx: Lexer, shift: Token, cmp: Token, bare: Token): (r: Step<Token>)
    requires !IsEof(lx) && lx.chunk[lx.index] in "<>"
    requires Spelling(shift) == Some([lx.chunk[lx.index], lx.chunk[lx.index]])
    requires Spelling(cmp) == Some([lx.chunk[lx.index], '='])
    requires Spelling(bare) == Some([lx.chunk[lx.index]])
    ensures Forward(lx, r.lx)
    ensures r.out.Ok? ==> r.lx.index > lx.index && r.out.value != Eof
    ensures r.out.Ok? ==> Spelling(r.out.value).Some? && TookLongestSpelling(lx, r)
    ensures r.out.Err? ==> r.out.error == EOF(lx.line)
  {
    hide Test, TestBounded, Simple, HasPrefixAt;
    var ch := lx.chunk[lx.index];
    ByteAtCursor(lx);
    AngledCandidates(lx);
    if Test(lx, [ch, ch]) then Simple(lx, 2, shift)
    else if Test(lx, [ch, '=']) then Simple(lx, 2, cmp)
    else Simple(lx, 1, bare)
  }

  /**
   * The arms for `.`: `...` before `..` before `.`; a `.` followed by a
   * digit starts a number instead.
   */
  function Dotted(lx: Lexer): (r: Step<Token>)
    requires !IsEof(lx) && lx.chunk[lx.index] == '.'
    ensures Forward(lx, r.lx)
    ensures r.out.Ok? ==> r.lx.index > lx.index && r.out.value != Eof
    ensures r.out.Ok? && Spelling(r.out.value).Some? ==> TookLongestSpelling(lx, r)
    ensures r.out.Ok? && Spelling(r.out.value).None? ==>
      r.out.value.Number? && lx.index + 1 < |lx.chunk| && IsDigit(lx.chunk[lx.index + 1])
    ensures r.out.Err? ==> r.out.error == EOF(lx.line)
  {
    DottedSpellings();
    hide ScanNumber, Test, TestBounded, Simple, HasPrefixAt, Spelling;
    ByteAtCursor(lx);
    OtherFirstBytes(lx);
    if Test(lx, "...") then Simple(lx, 3, Vararg)
    else if Test(lx, "..") then Simple(lx, 2, OpConcat)
    else if lx.index + 1 == |lx.chunk| || !IsDigit(lx.chunk[lx.index + 1]) then Simple(lx, 1, SepDot)
    else ScanNumber(lx)
  }

  /** The spellings `Dotted` and `Bracketed` produce. */
  lemma DottedSpellings()
    ensures Spelling(Vararg) == Some("...") && Spelling(OpConcat) == Some("..")
    ensures Spelling(SepDot) == Some(".") && Spelling(SepLbrack) == Some("[")
  {
  }

  /** The arm for `[`: a long string when a long bracket opens here, else `[`. */
  function Bracketed(lx: Lexer): (r: Step<Token>)
    requires !IsEof(lx) && lx.chunk[lx.index] == '['
    ensures Forward(lx, r.lx)
    ensures r.out.Ok? ==> r.lx.index > lx.index && r.out.value != Eof
    ensures r.out.Ok? && Spelling(r.out.value).Some? ==> TookLongestSpelling(lx, r)
    ensures r.out.Ok? && Spelling(r.out.value).None? ==> r.out.value.String?
    ensures r.out.Err? ==> r.out.error in {EOF(lx.line), IllegalToken(lx.line)}
  {
    DottedSpellings();
    hide ScanLongString, Test, TestBounded, Simple, HasPrefixAt, Spelling;
    ByteAtCursor(lx);
    OtherFirstBytes(lx);
    if Test(lx, "[[") || Test(lx, "[=") then ScanLongString(lx) else Simple(lx, 1, SepLbrack)
  }

  /** The bytes that start a separator or an operator. */
  predicate Punctuation(c: char) {
    SingleChar(c).Some? || c in ":/~=<>.["
  }

  /** The spellings `Composite` hands to `Paired`. */
  lemma PairedSpellings()
    ensures Spelling(SepLabel) == Some(Partner(':')) && Spelling(SepColon) == Some([':'])
    ensures Spelling(OpIDiv) == Some(Partner('/')) && Spelling(OpDiv) == Some(['/'])
  {
  }

  /** The spellings `Composite` hands to `Paired`, continued. */
  lemma PairedSpellingsCont()
    ensures Spelling(OpNe) == Some(Partner('~')) && Spelling(OpWave) == Some(['~'])
    ensures Spelling(OPEq) == Some(Partner('=')) && Spelling(OpAssign) == Some(['='])
  {
  }

  /** The spellings `Composite` hands to `Angled`. */
  lemma AngledSpellings()
    ensures Spelling(OpShl) == Some(['<', '<']) && Spelling(OpLe) == Some(['<', '=']) && Spelling(OpLt) == Some(['<'])
    ensures Spelling(OpShr) == Some(['>', '>']) && Spelling(OpGe) == Some(['>', '=']) && Spelling(OpGt) == Some(['>'])
  {
  }

  /** The arms for the bytes that may begin a two-byte spelling: `:`, `/`, `~`, `=`, `<` and `>`. */
  function Composite(lx: Lexer): (r: Step<Token>)
    requires !IsEof(lx) && lx.chunk[lx.index] in ":/~=<>"
    ensures Forward(lx, r.lx)
    ensures r.out.Ok? ==> r.lx.index > lx.index && r.out.value != Eof
    ensures r.out.Ok? ==> Spelling(r.out.value).Some? && TookLongestSpelling(lx, r)
    ensures r.out.Err? ==> r.out.error == EOF(lx.line)
  {
    hide Paired, Angled, TookLongestSpelling, Forward, Spelling, Partner;
    PairedSpellings();
    PairedSpellingsCont();
    AngledSpellings();
    var ch := lx.chunk[lx.index];
    if ch == ':' then Paired(lx, SepLabel, SepColon)
    else if ch == '/' then Paired(lx, OpIDiv, OpDiv)
    else if ch == '~' then Paired(lx, OpNe, OpWave)
    else if ch == '=' then Paired(lx, OPEq, OpAssign)
    else if ch == '<' then Angled(lx, OpShl, OpLe, OpLt)
    else Angled(lx, OpShr, OpGe, OpGt)
  }

  /** The arms of `next_token` for separators and operators, and the numbers and long strings they lead into. */
  function Punctuator(lx: Lexer): (r: Step<Token>)
    requires !IsEof(lx) && Punctuation(lx.chunk[lx.index])
    ensures Forward(lx, r.lx)
    ensures r.out.Ok? ==> r.lx.index > lx.index && r.out.value != Eof
    ensures r.out.Ok? && Spelling(r.out.value).Some? ==> TookLongestSpelling(lx, r)
    ensures r.out.Err? ==> r.out.error in {EOF(lx.line), IllegalToken(lx.line)}
  {
    hide Single, Composite, Dotted, Bracketed, TookLongestSpelling, Forward;
    var ch := lx.chunk[lx.index];
    if SingleChar(ch).Some? then Single(lx)
    else if ch in ":/~=<>" then Composite(lx)
    else if ch == '.' then Dotted(lx)
    else Bracketed(lx)
  }

  /** A byte some arm of the dispatch handles. */
  predicate HandledByArm(c: char) {
    Punctuation(c) || c == '\'' || c == '"' || IsDigit(c) || c == '_' || IsAlpha(c)
  }

  /** Every byte listed as starting a token has an arm. */
  lemma StartsTokenHandled(c: char)
    requires StartsToken(c)
    ensures HandledByArm(c)
  {
  }

  /** Every byte with an arm is listed as starting a token. */
  lemma HandledStartsToken(c: char)
    requires HandledByArm(c)
    ensures StartsToken(c)
  {
  }

  /** The bytes that start a token are exactly those some arm of the dispatch handles. */
  lemma StartsTokenArms(c: char)
    ensures StartsToken(c) <==> HandledByArm(c)
  {
    if StartsToken(c) { StartsTokenHandled(c); }
    if HandledByArm(c) { HandledStartsToken(c); }
  }

  /**
   * The body of `next_token` once whitespace is skipped and a byte is
   * under the cursor. A byte no arm handles reaches `unreachable!()`.
   */
  function Dispatch(lx: Lexer): (r: Option<Step<Token>>)
    requires !IsEof(lx)
    ensures r.None? <==> !StartsToken(lx.chunk[lx.index])
    ensures r.Some? ==> Forward(lx, r.value.lx)
    ensures r.Some? && r.value.out.Ok? ==> r.value.lx.index > lx.index && r.value.out.value != Eof
    ensures r.Some? && r.value.out.Ok? && Spelling(r.value.out.value).Some? ==> TookLongestSpelling(lx, r.value)
    ensures r.Some? && r.value.out.Err? ==> r.value.out.error in {EOF(lx.line), IllegalToken(lx.line)}
  {
    StartsTokenArms(lx.chunk[lx.index]);
    hide Punctuator, ScanShortString, ScanIdentifier, ScanNumber, TookLongestSpelling, Forward, StartsToken, Punctuation;
    var ch := lx.chunk[lx.index];
    if Punctuation(ch) then Some(Punctuator(lx))
    else if ch == '\'' || ch == '"' then Some(ScanShortString(lx))
    else if IsDigit(ch) then Some(ScanNumber(lx))
    else if ch == '_' || IsAlpha(ch) then Some(ScanIdentifier(lx))
    else None
  }

  /**
   * `next_token`: skip whitespace and comments, report EOF at the end of
   * input, otherwise dispatch on the byte under the cursor.
   */
  function NextToken(lx: Lexer): (r: Option<Step<Token>>)
    ensures r.Some? ==> r.value.lx.chunk == lx.chunk && r.value.lx.index >= lx.index
    ensures r.Some? ==> r.value.lx.line >= lx.line
    ensures r.Some? && r.value.out.Ok? ==> r.value.out.value != Eof
    ensures r.Some? && r.value.out.Ok? ==> r.value.lx.index > lx.index
  {
    hide Dispatch, SkipWhitespaces;
    match SkipWhitespaces(lx)
    case None => None
    case Some(skipped) =>
      if skipped.out.Err? then Some(Step(Err(skipped.out.error), skipped.lx))
      else if IsEof(skipped.lx) then Some(Step(Err(EOF(skipped.lx.line)), skipped.lx))
      else Dispatch(skipped.lx)
  }

  /**
   * The dispatch compares through the corrected `Test`. On a final `:` the
   * code as written reads past the end in `test("::")`, where the model
   * reports EOF, as `next` does for the last byte.
   */
  lemma LastColonDiverges()
    ensures var lx := Lexer(":", 0, 1);
      TestAsWritten(lx, "::").None? &&
      NextToken(lx) == Some(Step(Err(EOF(1)), Lexer(":", 1, 1)))
  {
    hide SkipWhitespaces, Dispatch;
    FinalColonSkips();
    FinalColonDispatches();
  }

  lemma FinalColonSkips()
    ensures SkipWhitespaces(Lexer(":", 0, 1)) == Some(Step(Ok(()), Lexer(":", 0, 1)))
  {
    var lx := Lexer(":", 0, 1);
    assert !Test(lx, "--") && !Test(lx, "\r\n") && !Test(lx, "\n\r");
  }

  lemma FinalColonDispatches()
    ensures !IsEof(Lexer(":", 0, 1))
    ensures Dispatch(Lexer(":", 0, 1)) == Some(Step(Err(EOF(1)), Lexer(":", 1, 1)))
  {
    var lx := Lexer(":", 0, 1);
    assert Punctuation(':') && SingleChar(':').None?;
    FinalColonPairs();
    hide Paired;
    assert Composite(lx) == Paired(lx, SepLabel, SepColon);
    hide Composite;
    assert Punctuator(lx) == Composite(lx);
  }

  lemma FinalColonPairs()
    ensures var lx := Lexer(":", 0, 1);
      !IsEof(lx) && Spelling(SepLabel) == Some(Partner(':')) && Spelling(SepColon) == Some([':']) &&
      Paired(lx, SepLabel, SepColon) == Step(Err(EOF(1)), Lexer(":", 1, 1))
  {
    var lx := Lexer(":", 0, 1);
    PairedSpellings();
    assert !Test(lx, "::");
  }
}

=== FILE: lexer_scenario.dfy ===
/**
 * The lexer unit test of `lexer.rs`, rebuilt from general step lemmas:
 * a run of spaces is skipped on the same line, a line break followed by
 * indentation counts one line, and each kind of token the test uses is
 * dispatched from a cursor where its text stands before a line break.
 */
module LexerScenario {
  import opened Wrappers
  import opened Errors
  import opened Tokens
  import opened Lexing

  /** Spaces up to a byte where skipping stops are consumed on the same line. */
  lemma {:induction false} SkipsSpaces(lx: Lexer, j: nat)
    requires lx.index <= j < |lx.chunk|
    requires forall k | lx.index <= k < j :: lx.chunk[k] == ' '
    requires StopsAt(lx.(index := j))
    ensures SkipWhitespaces(lx) == Some(Step(Ok(()), lx.(index := j)))
    decreases j - lx.index
  {
    FirstByteDiffers(lx, "\r\n");
    FirstByteDiffers(lx, "\n\r");
    if lx.index < j {
      FirstByteDiffers(lx, "--");
      SkipsSpaces(lx.(index := lx.index + 1), j);
    } else {
      assert lx == lx.(index := j);
    }
  }

  /** A spelling whose second byte differs from the one after the cursor is not there. */
  lemma SecondByteDiffers(lx: Lexer, sp: string)
    requires lx.index + 1 < |lx.chunk| && |sp| >= 2 && lx.chunk[lx.index + 1] != sp[1]
    ensures !HasPrefixAt(lx, sp)
  {
  }

  /** A line break followed by spaces up to a stopping byte counts one line. */
  lemma SkipsIndent(lx: Lexer, j: nat)
    requires lx.index < j < |lx.chunk| && lx.chunk[lx.index] == '\n'
    requires forall k | lx.index < k < j :: lx.chunk[k] == ' '
    requires StopsAt(lx.(index := j))
    ensures SkipWhitespaces(lx) == Some(Step(Ok(()), Lexer(lx.chunk, j, lx.line + 1)))
  {
    hide SkipComment, TestBounded;
    FirstByteDiffers(lx, "--");
    FirstByteDiffers(lx, "\r\n");
    SecondByteDiffers(lx, "\n\r");
    var after := Lexer(lx.chunk, lx.index + 1, lx.line + 1);
    assert NextLine(lx, 1) == Step(Ok(()), after);
    SkipsSpaces(after, j);
  }

  /** Spaces running to the end of input end in EOF once the last one is consumed. */
  lemma {:induction false} SpacesToEnd(lx: Lexer)
    requires lx.index < |lx.chunk|
    requires forall k | lx.index <= k < |lx.chunk| :: lx.chunk[k] == ' '
    ensures SkipWhitespaces(lx) == Some(Step(Err(EOF(lx.line)), lx.(index := |lx.chunk|)))
    decreases |lx.chunk| - lx.index
  {
    FirstByteDiffers(lx, "--");
    FirstByteDiffers(lx, "\r\n");
    FirstByteDiffers(lx, "\n\r");
    if lx.index + 1 < |lx.chunk| {
      SpacesToEnd(lx.(index := lx.index + 1));
    }
  }

  /** The end of `Span`: a run of `cls` from `i` to `j` that stops at `j`. */
  lemma SpanAt(t: string, i: nat, j: nat, cls: Class)
    requires i <= j <= |t|
    requires forall k | i <= k < j :: In(t[k], cls)
    requires j < |t| ==> !In(t[j], cls)
    ensures Span(t, i, cls) == j
  {
    SpanIsLongest(t, i, cls, j);
  }

  /** The text `w` stands at the cursor, followed by a line break. */
  predicate Ahead(lx: Lexer, w: string) {
    lx.index + |w| < |lx.chunk| && lx.chunk[lx.index..lx.index + |w| + 1] == w + "\n"
  }

  /** The bytes ahead of the cursor, by position. */
  lemma AheadBytes(lx: Lexer, w: string)
    requires Ahead(lx, w)
    ensures forall k | 0 <= k < |w| :: lx.chunk[lx.index..][k] == w[k]
    ensures lx.chunk[lx.index..][|w|] == '\n'
  {
    assert forall k | 0 <= k <= |w| :: lx.chunk[lx.index..][k] == (w + "\n")[k];
  }

  /** A one-byte separator or operator before a line break. */
  lemma DispatchSingle(lx: Lexer, c: char)
    requires Ahead(lx, [c]) && SingleChar(c).Some?
    ensures Dispatch(lx) == Some(Step(Ok(SingleChar(c).value), lx.(index := lx.index + 1)))
  {
    AheadBytes(lx, [c]);
    assert lx.chunk[lx.index] == c;
  }

  /** `>>` before a line break. */
  lemma DispatchShiftRight(lx: Lexer)
    requires Ahead(lx, ">>")
    ensures Dispatch(lx) == Some(Step(Ok(OpShr), lx.(index := lx.index + 2)))
  {
    hide ScanLongString, ScanShortString, ScanNumber, ScanIdentifier, Single, Dotted, Bracketed, Paired;
    hide Test, TestBounded, TookLongestSpelling, Forward;
    AheadBytes(lx, ">>");
    assert lx.chunk[lx.index] == '>';
    assert HasPrefixAt(lx, ['>', '>']);
    assert Angled(lx, OpShr, OpGe, OpGt) == Simple(lx, 2, OpShr);
    assert Punctuator(lx) == Composite(lx) == Angled(lx, OpShr, OpGe, OpGt);
  }

  /** `==` before a line break. */
  lemma DispatchEquality(lx: Lexer)
    requires Ahead(lx, "==")
    ensures Dispatch(lx) == Some(Step(Ok(OPEq), lx.(index := lx.index + 2)))
  {
    AheadBytes(lx, "==");
    assert lx.chunk[lx.index] == '=';
    assert HasPrefixAt(lx, Partner('='));
  }

  /** A quote hands the cursor to the short-string scanner. */
  lemma DispatchQuote(lx: Lexer)
    requires !IsEof(lx) && (lx.chunk[lx.index] == '\'' || lx.chunk[lx.index] == '"')
    ensures Dispatch(lx) == Some(ScanShortString(lx))
  {
    hide ScanLongString, ScanShortString, ScanNumber, ScanIdentifier, Punctuator, Punctuation;
    hide TookLongestSpelling, Spelling, Forward;
    QuoteIsNotPunctuation(lx.chunk[lx.index]);
  }

  lemma QuoteIsNotPunctuation(c: char)
    requires c == '\'' || c == '"'
    ensures !Punctuation(c)
  {
  }

  /** An opening long bracket hands the cursor to the long-string scanner. */
  lemma DispatchLongBracket(lx: Lexer)
    requires HasPrefixAt(lx, "[[")
    ensures Dispatch(lx) == Some(ScanLongString(lx))
  {
    hide ScanLongString, ScanShortString, ScanNumber, ScanIdentifier, Single, Composite, Dotted;
    hide Test, TestBounded, Simple, TookLongestSpelling, Forward;
    assert lx.chunk[lx.index..lx.index + 2][0] == lx.chunk[lx.index];
    assert Bracketed(lx) == ScanLongString(lx);
    assert SingleChar('[').None? && '[' !in ":/~=<>" && Punctuation('[');
    assert Punctuator(lx) == Bracketed(lx);
  }

  /** `FindClose` passes over bytes that neither close a bracket nor break a line. */
  lemma {:induction false} FindCloseSkips(t: string, k: nat, m: nat)
    requires k <= m <= |t|
    requires forall q | k <= q < m :: t[q] != ']' && t[q] != '\n'
    ensures FindClose(t, k) == FindClose(t, m)
    decreases m - k
  {
    if k < m {
      FindCloseSkips(t, k + 1, m);
    }
  }

  /** `[[string]]` before a line break is a long string. */
  lemma ScansLongString(lx: Lexer)
    requires Ahead(lx, "[[string]]")
    ensures ScanLongString(lx) == Step(Ok(String("string")), lx.(index := lx.index + 10))
  {
    AheadBytes(lx, "[[string]]");
    var t := lx.chunk[lx.index..];
    LongBracketOfString(t);
    hide LongBracket;
  }

  /** The text `[[string]]` followed by a line feed is one level-0 long bracket. */
  lemma LongBracketOfString(t: string)
    requires |t| > 10 && t[10] == '\n'
    requires forall k | 0 <= k < 10 :: t[k] == "[[string]]"[k]
    ensures LongBracket(t) == Some((2, 8, 10)) && t[2..8] == "string"
  {
    hide Span, FindClose, CloseAt;
    SpanAt(t, 1, 1, Equals);
    ClosesAtEight(t);
    FindCloseSkips(t, 2, 8);
    assert FindClose(t, 2) == Some((8, 10));
  }

  /** The closing bracket of `[[string]]` is found at position 8. */
  lemma ClosesAtEight(t: string)
    requires |t| > 10 && t[10] == '\n'
    requires forall k | 0 <= k < 10 :: t[k] == "[[string]]"[k]
    ensures CloseAt(t, 8) == Some(10) && FindClose(t, 8) == Some((8, 10))
    ensures forall q | 2 <= q < 8 :: t[q] != ']' && t[q] != '\n'
  {
    hide Span;
    SpanAt(t, 9, 9, Equals);
  }

  lemma DispatchLongString(lx: Lexer)
    requires Ahead(lx, "[[string]]")
    ensures Dispatch(lx) == Some(Step(Ok(String("string")), lx.(index := lx.index + 10)))
  {
    ScansLongString(lx);
    AheadBytes(lx, "[[string]]");
    assert lx.chunk[lx.index..lx.index + 2] == "[[";
    DispatchLongBracket(lx);
  }

  /** `'string'` before a line break is a short string. */
  lemma ScansSingleQuoted(lx: Lexer)
    requires Ahead(lx, "'string'")
    ensures ScanShortString(lx) == Step(Ok(String("string")), lx.(index := lx.index + 8))
  {
    hide Span;
    AheadBytes(lx, "'string'");
    var t := lx.chunk[lx.index..];
    SpanAt(t, 1, 7, ShortStringChar);
    assert t[1..7] == "string";
  }

  lemma DispatchSingleQuoted(lx: Lexer)
    requires Ahead(lx, "'string'")
    ensures Dispatch(lx) == Some(Step(Ok(String("string")), lx.(index := lx.index + 8)))
  {
    ScansSingleQuoted(lx);
    AheadBytes(lx, "'string'");
    DispatchQuote(lx);
  }

  /** `"string"` before a line break is a short string. */
  lemma ScansDoubleQuoted(lx: Lexer)
    requires Ahead(lx, "\"string\"")
    ensures ScanShortString(lx) == Step(Ok(String("string")), lx.(index := lx.index + 8))
  {
    hide Span;
    AheadBytes(lx, "\"string\"");
    var t := lx.chunk[lx.index..];
    SpanAt(t, 1, 8, ShortStringChar);
    assert LastQuote(t, 1, 8) == Some(7);
    assert t[1..7] == "string";
  }

  lemma DispatchDoubleQuoted(lx: Lexer)
    requires Ahead(lx, "\"string\"")
    ensures Dispatch(lx) == Some(Step(Ok(String("string")), lx.(index := lx.index + 8)))
  {
    ScansDoubleQuoted(lx);
    AheadBytes(lx, "\"string\"");
    DispatchQuote(lx);
  }

  /** A digit hands the cursor to the number scanner. */
  lemma DispatchDigit(lx: Lexer)
    requires !IsEof(lx) && IsDigit(lx.chunk[lx.index])
    ensures Dispatch(lx) == Some(ScanNumber(lx))
  {
    hide ScanLongString, ScanShortString, ScanNumber, ScanIdentifier, Punctuator;
    var ch := lx.chunk[lx.index];
    assert SingleChar(ch).None?;
    assert !Punctuation(ch);
  }

  /** A letter or `_` hands the cursor to the identifier scanner. */
  lemma DispatchLetter(lx: Lexer)
    requires !IsEof(lx) && (IsAlpha(lx.chunk[lx.index]) || lx.chunk[lx.index] == '_')
    ensures Dispatch(lx) == Some(ScanIdentifier(lx))
  {
    hide ScanLongString, ScanShortString, ScanNumber, ScanIdentifier, Punctuator, Punctuation;
    hide TookLongestSpelling, Spelling, Forward;
    LetterIsNotPunctuation(lx.chunk[lx.index]);
  }

  lemma LetterIsNotPunctuation(c: char)
    requires IsAlpha(c) || c == '_'
    ensures !Punctuation(c) && !IsDigit(c) && c != '\'' && c != '"'
  {
  }

  /** `12.34E-56` before a line break is one decimal numeral. */
  lemma ScansDecimal(lx: Lexer)
    requires Ahead(lx, "12.34E-56")
    ensures ScanNumber(lx) == Step(Ok(Number("12.34E-56")), lx.(index := lx.index + 9))
  {
    hide Span;
    AheadBytes(lx, "12.34E-56");
    var t := lx.chunk[lx.index..];
    SpanAt(t, 0, 2, Digit);
    SpanAt(t, 3, 5, Digit);
    SpanAt(t, 7, 9, Digit);
    assert NumeralLength(t) == 9;
    assert t[..9] == "12.34E-56";
  }

  /** `0x12.abp-10` before a line break is one hexadecimal numeral. */
  lemma ScansHex(lx: Lexer)
    requires Ahead(lx, "0x12.abp-10")
    ensures ScanNumber(lx) == Step(Ok(Number("0x12.abp-10")), lx.(index := lx.index + 11))
  {
    hide Span;
    AheadBytes(lx, "0x12.abp-10");
    var t := lx.chunk[lx.index..];
    SpanAt(t, 2, 4, HexDigit);
    SpanAt(t, 5, 7, HexDigit);
    SpanAt(t, 9, 11, Digit);
    assert NumeralLength(t) == 11;
    assert t[..11] == "0x12.abp-10";
  }

  /**
   * A word before a line break is scanned whole, as its keyword when the
   * table has one and as an identifier otherwise.
   */
  lemma ScansWord(lx: Lexer, w: string)
    requires Ahead(lx, w) && |w| > 0
    requires forall k | 0 <= k < |w| :: In(w[k], Word)
    ensures ScanIdentifier(lx) == Step(Ok(Keyword(w).GetOr(Identifier(w))), lx.(index := lx.index + |w|))
  {
    hide Span, Keyword;
    AheadBytes(lx, w);
    var t := lx.chunk[lx.index..];
    SpanAt(t, 0, |w|, Word);
    assert t[..|w|] == w;
    assert lx.chunk[lx.index..lx.index + |w|] == w;
  }

  lemma DispatchDecimal(lx: Lexer)
    requires Ahead(lx, "12.34E-56")
    ensures Dispatch(lx) == Some(Step(Ok(Number("12.34E-56")), lx.(index := lx.index + 9)))
  {
    ScansDecimal(lx);
    AheadBytes(lx, "12.34E-56");
    DispatchDigit(lx);
  }

  lemma DispatchHex(lx: Lexer)
    requires Ahead(lx, "0x12.abp-10")
    ensures Dispatch(lx) == Some(Step(Ok(Number("0x12.abp-10")), lx.(index := lx.index + 11)))
  {
    ScansHex(lx);
    AheadBytes(lx, "0x12.abp-10");
    DispatchDigit(lx);
  }

  lemma DispatchBreak(lx: Lexer)
    requires Ahead(lx, "break")
    ensures Dispatch(lx) == Some(Step(Ok(KwBreak), lx.(index := lx.index + 5)))
  {
    WordKeywords();
    hide Dispatch, ScanIdentifier, Keyword;
    AheadBytes(lx, "break");
    ScansWord(lx, "break");
    DispatchLetter(lx);
  }

  lemma DispatchName(lx: Lexer)
    requires Ahead(lx, "name")
    ensures Dispatch(lx) == Some(Step(Ok(Identifier("name")), lx.(index := lx.index + 4)))
  {
    WordKeywords();
    hide Dispatch, ScanIdentifier, Keyword;
    AheadBytes(lx, "name");
    ScansWord(lx, "name");
    DispatchLetter(lx);
  }

  /** `break` is in the keyword table and `name` is not. */
  lemma WordKeywords()
    ensures Keyword("break") == Some(KwBreak) && Keyword("name") == None
  {
  }

  // ---------------------------------------------------------------------
  // One indented line, and the end of input
  // ---------------------------------------------------------------------

  /** A line break and `n` spaces of indentation before a word are skipped, counting one line. */
  lemma SkipsToWord(lx: Lexer, n: nat, w: string)
    requires lx.index + 1 + n + |w| < |lx.chunk| && lx.chunk[lx.index] == '\n'
    requires forall k | lx.index < k < lx.index + 1 + n :: lx.chunk[k] == ' '
    requires Ahead(Lexer(lx.chunk, lx.index + 1 + n, lx.line + 1), w)
    requires |w| > 0 && !IsAsciiWhitespace(w[0]) && (w + "\n")[..2] != "--"
    ensures SkipWhitespaces(lx) == Some(Step(Ok(()), Lexer(lx.chunk, lx.index + 1 + n, lx.line + 1)))
  {
    hide SkipWhitespaces, TestBounded;
    var at := Lexer(lx.chunk, lx.index + 1 + n, lx.line + 1);
    AheadBytes(at, w);
    assert lx.chunk[at.index..at.index + 2] == (w + "\n")[..2] by {
      assert lx.chunk[at.index..at.index + 2] == lx.chunk[at.index..at.index + |w| + 1][..2];
    }
    assert StopsAt(lx.(index := at.index));
    SkipsIndent(lx, at.index);
  }

  /**
   * A line break, `n` spaces of indentation and a word: `next_token`
   * returns whatever dispatching the word returns, on the next line.
   */
  lemma LineStep(lx: Lexer, n: nat, w: string, st: Step<Token>)
    requires lx.index + 1 + n + |w| < |lx.chunk| && lx.chunk[lx.index] == '\n'
    requires forall k | lx.index < k < lx.index + 1 + n :: lx.chunk[k] == ' '
    requires Ahead(Lexer(lx.chunk, lx.index + 1 + n, lx.line + 1), w)
    requires |w| > 0 && !IsAsciiWhitespace(w[0]) && (w + "\n")[..2] != "--"
    requires Dispatch(Lexer(lx.chunk, lx.index + 1 + n, lx.line + 1)) == Some(st)
    ensures NextToken(lx) == Some(st)
  {
    hide Dispatch, SkipWhitespaces, Ahead;
    SkipsToWord(lx, n, w);
  }

  /** A line break followed only by spaces: `next_token` fails with EOF on the next line. */
  lemma EndStep(lx: Lexer)
    requires lx.index + 1 < |lx.chunk| && lx.chunk[lx.index] == '\n'
    requires forall k | lx.index < k < |lx.chunk| :: lx.chunk[k] == ' '
    ensures NextToken(lx) == Some(Step(Err(EOF(lx.line + 1)), Lexer(lx.chunk, |lx.chunk|, lx.line + 1)))
  {
    hide Dispatch, SkipWhitespaces;
    SkipsTrailing(lx);
  }

  lemma SkipsTrailing(lx: Lexer)
    requires lx.index + 1 < |lx.chunk| && lx.chunk[lx.index] == '\n'
    requires forall k | lx.index < k < |lx.chunk| :: lx.chunk[k] == ' '
    ensures SkipWhitespaces(lx) == Some(Step(Err(EOF(lx.line + 1)), Lexer(lx.chunk, |lx.chunk|, lx.line + 1)))
  {
    hide SkipComment, TestBounded;
    FirstByteDiffers(lx, "--");
    FirstByteDiffers(lx, "\r\n");
    SecondByteDiffers(lx, "\n\r");
    var after := Lexer(lx.chunk, lx.index + 1, lx.line + 1);
    assert NextLine(lx, 1) == Step(Ok(()), after);
    SpacesToEnd(after);
  }

  // ---------------------------------------------------------------------
  // The test input
  // ---------------------------------------------------------------------

  /** The test's words, one per line, each indented by twelve spaces. */
  const WORDS: seq<string> :=
    ["+", "-", ">>", "==", "[[string]]", "'string'", "\"string\"", "12.34E-56", "0x12.abp-10", "break", "name"]

  /** The tokens the test expects, in order. */
  const TOKENS: seq<Token> :=
    [OpAdd, OpMinus, OpShr, OPEq, String("string"), String("string"), String("string"),
     Number("12.34E-56"), Number("0x12.abp-10"), KwBreak, Identifier("name")]

  const INDENT: string := "            "

  /** The raw string closes after a line break and eight spaces. */
  const TAIL: string := "\n        "

  function Line(w: string): string {
    "\n" + INDENT + w
  }

  function Lines(ws: seq<string>): string {
    if |ws| == 0 then "" else Line(ws[0]) + Lines(ws[1..])
  }

  /** The test input: an opening line break, the indented lines, the tail. */
  function TestInput(): string {
    Lines(WORDS) + TAIL
  }

  /** Where the line break before word `i` stands. */
  function Pos(i: nat): nat
    requires i <= |WORDS|
  {
    |Lines(WORDS[..i])|
  }

  /**
   * `k` successive calls of `next_token`, as the test makes them; the
   * calls stop early after a failure.
   */
  function Lex(lx: Lexer, k: nat): seq<Option<Step<Token>>>
    decreases k
  {
    hide NextToken;
    if k == 0 then []
    else
      var r := NextToken(lx);
      [r] + (if r.Some? && r.value.out.Ok? then Lex(r.value.lx, k - 1) else [])
  }

  lemma {:induction false} LinesAppend(a: seq<string>, b: seq<string>)
    ensures Lines(a + b) == Lines(a) + Lines(b)
    decreases |a|
  {
    if |a| == 0 {
      assert a + b == b;
    } else {
      assert (a + b)[1..] == a[1..] + b;
      LinesAppend(a[1..], b);
    }
  }

  /** The dispatch at the cursor takes word i whole and yields its token. */
  predicate DispatchesWord(lx: Lexer, i: nat)
    requires i < |WORDS|
  {
    !IsEof(lx) && Dispatch(lx) == Some(Step(Ok(TOKENS[i]), lx.(index := lx.index + |WORDS[i]|)))
  }

  /** Each word lexes as the token expected of it. */
  lemma DispatchWord(lx: Lexer, i: nat)
    requires i < |WORDS| && Ahead(lx, WORDS[i])
    ensures DispatchesWord(lx, i)
  {
    hide Dispatch, Ahead, DispatchesWord;
    if i < 3 { DispatchWordsA(lx, i); }
    else if i == 4 { DispatchWordLong(lx); }
    else if i < 6 { DispatchWordsB(lx, i); }
    else if i < 9 { DispatchWordsC(lx, i); }
    else { DispatchWordsD(lx, i); }
  }

  lemma PlusMinus()
    ensures SingleChar('+') == Some(OpAdd) && SingleChar('-') == Some(OpMinus)
  {
  }

  /** `+`, `-` and `>>`. */
  lemma DispatchWordsA(lx: Lexer, i: nat)
    requires i < 3 && Ahead(lx, WORDS[i])
    ensures DispatchesWord(lx, i)
  {
    assert !IsEof(lx);
    hide Dispatch, Ahead, SingleChar;
    if i == 0 {
      assert WORDS[i] == ['+'] && TOKENS[i] == OpAdd;
      PlusMinus();
      DispatchSingle(lx, '+');
    } else if i == 1 {
      assert WORDS[i] == ['-'] && TOKENS[i] == OpMinus;
      PlusMinus();
      DispatchSingle(lx, '-');
    } else {
      assert WORDS[i] == ">>" && TOKENS[i] == OpShr;
      DispatchShiftRight(lx);
    }
  }

  /** The long string. */
  lemma DispatchWordLong(lx: Lexer)
    requires Ahead(lx, WORDS[4])
    ensures DispatchesWord(lx, 4)
  {
    assert !IsEof(lx);
    hide Dispatch, Ahead;
    assert WORDS[4] == "[[string]]" && TOKENS[4] == String("string");
    DispatchLongString(lx);
  }

  /** `==` and the single-quoted string. */
  lemma DispatchWordsB(lx: Lexer, i: nat)
    requires (i == 3 || i == 5) && Ahead(lx, WORDS[i])
    ensures DispatchesWord(lx, i)
  {
    assert !IsEof(lx);
    hide Dispatch, Ahead;
    if i == 3 {
      assert WORDS[i] == "==" && TOKENS[i] == OPEq;
      DispatchEquality(lx);
    } else {
      assert WORDS[i] == "'string'" && TOKENS[i] == String("string");
      DispatchSingleQuoted(lx);
    }
  }

  /** The double-quoted string and the two numerals. */
  lemma DispatchWordsC(lx: Lexer, i: nat)
    requires 6 <= i < 9 && Ahead(lx, WORDS[i])
    ensures DispatchesWord(lx, i)
  {
    assert !IsEof(lx);
    hide Dispatch, Ahead;
    if i == 6 {
      assert WORDS[i] == "\"string\"" && TOKENS[i] == String("string");
      DispatchDoubleQuoted(lx);
    } else if i == 7 {
      assert WORDS[i] == "12.34E-56" && TOKENS[i] == Number("12.34E-56");
      DispatchDecimal(lx);
    } else {
      assert WORDS[i] == "0x12.abp-10" && TOKENS[i] == Number("0x12.abp-10");
      DispatchHex(lx);
    }
  }

  /** `break` and `name`. */
  lemma DispatchWordsD(lx: Lexer, i: nat)
    requires 9 <= i < |WORDS| && Ahead(lx, WORDS[i])
    ensures DispatchesWord(lx, i)
  {
    assert !IsEof(lx);
    hide Dispatch, Ahead;
    if i == 9 {
      assert WORDS[i] == "break" && TOKENS[i] == KwBreak;
      DispatchBreak(lx);
    } else {
      assert WORDS[i] == "name" && TOKENS[i] == Identifier("name");
      DispatchName(lx);
    }
  }



  /** The layout around one line of the input. */
  lemma LineLayout(a: string, w: string, b: string, line: nat)
    requires |b| > 0 && b[0] == '\n'
    ensures var chunk := a + Line(w) + b;
      |a| + 13 + |w| < |chunk| && chunk[|a|] == '\n' &&
      (forall k | |a| < k < |a| + 13 :: chunk[k] == ' ') &&
      Ahead(Lexer(chunk, |a| + 13, line), w)
  {
    var chunk := a + Line(w) + b;
    assert forall k | 0 <= k < 13 + |w| :: chunk[|a| + k] == Line(w)[k];
    assert chunk[|a| + 13 + |w|] == b[0];
    assert chunk[|a| + 13..|a| + 13 + |w| + 1] == w + "\n";
  }

  /** Every word starts with a byte where whitespace skipping stops. */
  lemma WordStarts(i: nat)
    requires i < |WORDS|
    ensures |WORDS[i]| > 0 && !IsAsciiWhitespace(WORDS[i][0]) && (WORDS[i] + "\n")[..2] != "--"
  {
    var w := WORDS[i];
    if i == 1 {
      assert (w + "\n")[..2][1] == '\n';
    } else {
      assert (w + "\n")[..2][0] == w[0] != '-';
    }
  }

  /** Lines seen from line `i`: those before it, its own, and those after it. */
  lemma LinesAround(ws: seq<string>, i: nat)
    requires i < |ws|
    ensures Lines(ws) == Lines(ws[..i]) + Line(ws[i]) + Lines(ws[i + 1..])
    ensures |Lines(ws[..i + 1])| == |Lines(ws[..i])| + 13 + |ws[i]|
  {
    assert ws == ws[..i] + ws[i..];
    LinesAppend(ws[..i], ws[i..]);
    assert ws[i..][1..] == ws[i + 1..];
    assert ws[..i + 1] == ws[..i] + [ws[i]];
    LinesAppend(ws[..i], [ws[i]]);
    assert Lines([ws[i]]) == Line(ws[i]) + Lines([]);
  }

  /** Text made of lines starts with a line break. */
  lemma LinesStart(ws: seq<string>)
    requires |ws| > 0
    ensures |Lines(ws)| > 0 && Lines(ws)[0] == '\n'
  {
    assert Lines(ws)[0] == Line(ws[0])[0];
  }

  /** The input seen from word `i`: what precedes it, its line, and what follows. */
  lemma InputAround(i: nat)
    requires i < |WORDS|
    ensures TestInput() == Lines(WORDS[..i]) + Line(WORDS[i]) + (Lines(WORDS[i + 1..]) + TAIL)
    ensures Pos(i + 1) == Pos(i) + 13 + |WORDS[i]|
    ensures |Lines(WORDS[i + 1..]) + TAIL| > 0 && (Lines(WORDS[i + 1..]) + TAIL)[0] == '\n'
  {
    hide WORDS;
    LinesAround(WORDS, i);
    if i + 1 < |WORDS| {
      LinesStart(WORDS[i + 1..]);
    } else {
      assert WORDS[i + 1..] == [];
    }
  }

  /** The input after the last word: a line break and spaces to the end. */
  lemma InputEnd()
    ensures Pos(|WORDS|) + 1 < |TestInput()| && TestInput()[Pos(|WORDS|)] == '\n'
    ensures forall k | Pos(|WORDS|) < k < |TestInput()| :: TestInput()[k] == ' '
  {
    hide Lines, WORDS;
    assert WORDS[..|WORDS|] == WORDS;
    var a := Lines(WORDS);
    assert forall k | |a| <= k < |a| + |TAIL| :: TestInput()[k] == TAIL[k - |a|];
  }

  /** From the line break before word `i`, `next_token` returns its token on the next line. */
  lemma StepAt(i: nat)
    requires i < |WORDS|
    ensures NextToken(Lexer(TestInput(), Pos(i), i + 1)) ==
      Some(Step(Ok(TOKENS[i]), Lexer(TestInput(), Pos(i + 1), i + 2)))
  {
    hide NextToken, Lines, TestInput, Dispatch, Line, Ahead, TookLongestSpelling, Spelling, Forward;
    InputAround(i);
    var w := WORDS[i];
    var a := Lines(WORDS[..i]);
    var b := Lines(WORDS[i + 1..]) + TAIL;
    var chunk := a + Line(w) + b;
    assert TestInput() == chunk;
    assert Pos(i) == |a|;
    assert Pos(i + 1) == |a| + 13 + |w|;
    hide Pos, WORDS;
    LineLayout(a, w, b, i + 2);
    DispatchWord(Lexer(chunk, |a| + 13, i + 2), i);
    WordStarts(i);
    LineStep(Lexer(chunk, |a|, i + 1), 12, w, Step(Ok(TOKENS[i]), Lexer(chunk, |a| + 13 + |w|, i + 2)));
    assert NextToken(Lexer(chunk, |a|, i + 1)) == Some(Step(Ok(TOKENS[i]), Lexer(chunk, |a| + 13 + |w|, i + 2)));
  }

  /** After the last word, `next_token` fails with EOF on the final line. */
  lemma StepAtEnd()
    ensures NextToken(Lexer(TestInput(), Pos(|WORDS|), |WORDS| + 1)) ==
      Some(Step(Err(EOF(|WORDS| + 2)), Lexer(TestInput(), |TestInput()|, |WORDS| + 2)))
  {
    hide NextToken, Lines, TestInput, Dispatch;
    InputEnd();
    EndStep(Lexer(TestInput(), Pos(|WORDS|), |WORDS| + 1));
  }

  /** What the test expects from the line break before word `i` on. */
  function ExpectedFrom(i: nat): seq<Option<Step<Token>>>
    requires i <= |WORDS|
    decreases |WORDS| - i
  {
    if i == |WORDS| then [Some(Step(Err(EOF(|WORDS| + 2)), Lexer(TestInput(), |TestInput()|, |WORDS| + 2)))]
    else [Some(Step(Ok(TOKENS[i]), Lexer(TestInput(), Pos(i + 1), i + 2)))] + ExpectedFrom(i + 1)
  }

  /** From the line break before word `i` on, the lexer does what the test expects. */
  lemma {:induction false} LexesFrom(i: nat)
    requires i <= |WORDS|
    ensures Lex(Lexer(TestInput(), Pos(i), i + 1), |WORDS| - i + 1) == ExpectedFrom(i)
    decreases |WORDS| - i
  {
    hide NextToken, Lines, TestInput, Pos, WORDS, TOKENS;
    var lx := Lexer(TestInput(), Pos(i), i + 1);
    var m := |WORDS| - i + 1;
    if i == |WORDS| {
      StepAtEnd();
      assert Lex(lx, m) == [NextToken(lx)];
    } else {
      StepAt(i);
      var next := Lexer(TestInput(), Pos(i + 1), i + 2);
      assert Lex(lx, m) == [NextToken(lx)] + Lex(next, m - 1);
      LexesFrom(i + 1);
    }
  }

  /** Entry `j` of what the test expects from word `i` on. */
  lemma {:induction false} ExpectedEntry(i: nat, j: nat)
    requires i <= |WORDS| && j <= |WORDS| - i
    ensures |ExpectedFrom(i)| == |WORDS| - i + 1
    ensures j < |WORDS| - i ==> ExpectedFrom(i)[j] == Some(Step(Ok(TOKENS[i + j]), Lexer(TestInput(), Pos(i + j + 1), i + j + 2)))
    ensures j == |WORDS| - i ==> ExpectedFrom(i)[j].Some? && ExpectedFrom(i)[j].value.out == Err(EOF(|WORDS| + 2))
    decreases |WORDS| - i
  {
    hide TestInput, Pos, WORDS, TOKENS;
    if i < |WORDS| {
      if j == 0 {
        ExpectedEntry(i + 1, 0);
      } else {
        ExpectedEntry(i + 1, j - 1);
      }
    }
  }

  /**
   * The unit test of `lexer.rs`: the input yields `+`, `-`, `>>`, `==`,
   * three strings, two numerals, `break` and `name`, the k-th of them with
   * the lexer on line k + 1, and then an error.
   */
  lemma LexerTest()
    ensures var out := Lex(New(TestInput()), 12);
      |out| == 12 &&
      (forall j | 0 <= j < 11 :: out[j].Some? && out[j].value.out == Ok(TOKENS[j]) && out[j].value.lx.line == j + 2) &&
      out[11].Some? && out[11].value.out.Err?
  {
    hide NextToken, TestInput, Lex, ExpectedFrom;
    assert Pos(0) == 0 by {
      assert WORDS[..0] == [];
    }
    LexesFrom(0);
    ExpectedEntry(0, 0);
    forall j | 0 <= j < 12
      ensures j < 11 ==> ExpectedFrom(0)[j].Some? && ExpectedFrom(0)[j].value.out == Ok(TOKENS[j]) && ExpectedFrom(0)[j].value.lx.line == j + 2
      ensures j == 11 ==> ExpectedFrom(0)[j].Some? && ExpectedFrom(0)[j].value.out.Err?
    {
      ExpectedEntry(0, j);
    }
  }
}

=== FILE: lua_stack.dfy ===
/**
 * The value stack (`lua_stack.rs`): a vector of values addressed by
 * 1-based indices counted from the bottom, or negative ones counted from
 * the top. A Rust panic (an `unwrap` of an empty pop, an invalid `set`, an
 * out-of-bounds swap) is `None`.
 */
module LuaStacks {
  import opened Wrappers
  import opened LuaValues

  datatype LuaStack = LuaStack(vec: seq<LuaValue>)

  /** `top`: the number of stored values. */
  function Top(s: LuaStack): (r: nat)
    ensures r == |s.vec|
  {
    |s.vec|
  }

  /** `push`: one more value, on top. */
  function Push(s: LuaStack, v: LuaValue): (r: LuaStack)
    ensures Top(r) == Top(s) + 1 && r.vec[Top(s)] == v
    ensures r.vec[..Top(s)] == s.vec
  {
    LuaStack(s.vec + [v])
  }

  /** `pop`: the top value and the stack without it; `None` on an empty stack. */
  function Pop(s: LuaStack): (r: Option<(LuaValue, LuaStack)>)
    ensures r.None? <==> Top(s) == 0
    ensures r.Some? ==> Push(r.value.1, r.value.0) == s
  {
    if |s.vec| == 0 then None else Some((s.vec[|s.vec| - 1], LuaStack(s.vec[..|s.vec| - 1])))
  }

  /** Popping what was just pushed gives back the value and the stack. */
  lemma PushThenPop(s: LuaStack, v: LuaValue)
    ensures Pop(Push(s, v)) == Some((v, s))
  {
    assert Push(s, v).vec[..Top(s)] == s.vec;
  }

  /** `abs_index`: a non-negative index as it is; a negative one counted from the top, -1 being the top. */
  function AbsIndex(s: LuaStack, idx: int): (r: int)
    ensures idx >= 0 ==> r == idx
    ensures idx < 0 ==> r == idx + Top(s) + 1 && r <= Top(s)
  {
    if idx >= 0 then idx else idx + |s.vec| + 1
  }

  /** `is_valid`: the index names a stored value. */
  predicate IsValid(s: LuaStack, idx: int) {
    0 < AbsIndex(s, idx) <= Top(s)
  }

  /** Every stored value has exactly two valid indices, one positive and one negative. */
  lemma ValidIndices(s: LuaStack, idx: int)
    ensures IsValid(s, idx) <==> (1 <= idx <= Top(s) || (idx <= -1 && 0 <= idx + Top(s)))
    ensures 1 <= idx <= Top(s) ==> AbsIndex(s, idx - Top(s) - 1) == idx
  {
  }

  /** `get`: the value an index names, or `nil` for an invalid index. */
  function Get(s: LuaStack, idx: int): (r: LuaValue)
    ensures IsValid(s, idx) ==> r == s.vec[AbsIndex(s, idx) - 1]
    ensures !IsValid(s, idx) ==> r == Nil
  {
    var a := AbsIndex(s, idx);
    if 0 < a <= |s.vec| then s.vec[a - 1] else Nil
  }

  /** `set`: replace the value an index names; `None` (a panic) for an invalid index. */
  function Set(s: LuaStack, idx: int, v: LuaValue): (r: Option<LuaStack>)
    ensures r.Some? <==> IsValid(s, idx)
    ensures r.Some? ==> Top(r.value) == Top(s) && Get(r.value, idx) == v
    ensures r.Some? ==> forall i | 0 <= i < Top(s) && i != AbsIndex(s, idx) - 1 :: r.value.vec[i] == s.vec[i]
  {
    var a := AbsIndex(s, idx);
    if 0 < a <= |s.vec| then Some(LuaStack(s.vec[a - 1 := v])) else None
  }

  /** Setting a value and reading it back, through any index that names the same slot. */
  lemma SetThenGet(s: LuaStack, idx: int, other: int, v: LuaValue)
    requires IsValid(s, idx)
    ensures AbsIndex(s, other) == AbsIndex(s, idx) ==> Get(Set(s, idx, v).value, other) == v
    ensures AbsIndex(s, other) != AbsIndex(s, idx) ==> Get(Set(s, idx, v).value, other) == Get(s, other)
  {
  }

  /** The vector with the values at two positions exchanged. */
  function Swap(xs: seq<LuaValue>, i: nat, j: nat): (r: seq<LuaValue>)
    requires i < |xs| && j < |xs|
    ensures |r| == |xs| && r[i] == xs[j] && r[j] == xs[i]
    ensures forall k | 0 <= k < |xs| && k != i && k != j :: r[k] == xs[k]
    ensures multiset(r) == multiset(xs)
  {
    xs[i := xs[j]][j := xs[i]]
  }

  /**
   * `b` is `a` with the inclusive segment `from..to` mirrored and every
   * other position unchanged.
   */
  ghost predicate Mirrored(a: seq<LuaValue>, b: seq<LuaValue>, from: nat, to: nat) {
    |b| == |a| && (from < to ==> to < |a|) &&
    forall i {:trigger b[i]} | 0 <= i < |a| :: b[i] == (if from <= i <= to then a[from + to - i] else a[i])
  }

  /**
   * `reverse(from, to)`: swap the ends of the inclusive segment inward until
   * they meet. A swap with `to` past the end panics (`None`).
   */
  function Reverse(s: LuaStack, from: nat, to: nat): (r: Option<LuaStack>)
    ensures r.None? <==> from < to && to >= Top(s)
    ensures r.Some? ==> Top(r.value) == Top(s)
    decreases if from < to then to - from else 0
  {
    if from < to then
      if to >= |s.vec| then None else Reverse(LuaStack(Swap(s.vec, from, to)), from + 1, to - 1)
    else Some(s)
  }

  /** One step of `reverse`: swap the ends, then reverse the inside. */
  lemma ReverseStep(s: LuaStack, from: nat, to: nat)
    ensures from < to < Top(s) ==> Reverse(s, from, to) == Reverse(LuaStack(Swap(s.vec, from, to)), from + 1, to - 1)
    ensures from >= to ==> Reverse(s, from, to) == Some(s)
  {
  }

  /** `reverse` mirrors the segment and leaves the rest alone. */
  lemma {:induction false} ReverseMirrors(s: LuaStack, from: nat, to: nat)
    requires Reverse(s, from, to).Some?
    ensures Mirrored(s.vec, Reverse(s, from, to).value.vec, from, to)
    decreases if from < to then to - from else 0
  {
    hide Reverse, Swap;
    ReverseStep(s, from, to);
    if from < to {
      var t := LuaStack(Swap(s.vec, from, to));
      ReverseMirrors(t, from + 1, to - 1);
      MirrorStep(s.vec, t.vec, Reverse(t, from + 1, to - 1).value.vec, from, to);
    }
  }

  /** `reverse` keeps the same values: its result is a permutation of the stack. */
  lemma {:induction false} ReversePermutes(s: LuaStack, from: nat, to: nat)
    requires Reverse(s, from, to).Some?
    ensures multiset(Reverse(s, from, to).value.vec) == multiset(s.vec)
    decreases if from < to then to - from else 0
  {
    hide Reverse;
    ReverseStep(s, from, to);
    if from < to {
      var t := LuaStack(Swap(s.vec, from, to));
      ReversePermutes(t, from + 1, to - 1);
    }
  }

  /** Swapping the ends and mirroring the inside mirrors the whole segment. */
  lemma MirrorStep(a: seq<LuaValue>, t: seq<LuaValue>, r: seq<LuaValue>, from: nat, to: nat)
    requires from < to < |a| && t == Swap(a, from, to)
    requires Mirrored(t, r, from + 1, to - 1)
    ensures Mirrored(a, r, from, to)
  {
    forall i | 0 <= i < |a|
      ensures r[i] == (if from <= i <= to then a[from + to - i] else a[i])
    {
      if i == from || i == to {
        assert r[i] == t[i];
      } else if from < i < to {
        assert r[i] == t[from + to - i];
      } else {
        assert r[i] == t[i];
      }
    }
  }

  /** Reversing a segment twice restores the stack. */
  lemma ReverseTwice(s: LuaStack, from: nat, to: nat)
    requires to < Top(s)
    ensures Reverse(Reverse(s, from, to).value, from, to) == Some(s)
  {
    var m := Reverse(s, from, to).value;
    ReverseMirrors(s, from, to);
    ReverseMirrors(m, from, to);
    var r := Reverse(m, from, to).value;
    assert r.vec == s.vec;
  }
}

=== FILE: lua_state.dfy ===
/**
 * The basic stack manipulation of the Lua API (`lua_state.rs`) over the
 * value stack. A panic is `None`.
 *
 * `rotate` works by three segment reversals with `usize` bounds. The model
 * keeps that code as written (`RotateAsWritten`) and a corrected `Rotate`
 * that checks the rotation distance and does not reverse an empty prefix;
 * `insert` and `remove` use the corrected one.
 */
module LuaStates {
  import opened Wrappers
  import opened LuaValues
  import opened LuaStacks

  /** `usize::MAX + 1`. */
  const USIZE_LIMIT: int := 0x1_0000_0000_0000_0000

  /** `m as usize` for an `isize` value: negative values wrap around. */
  function AsUsize(m: int): (r: nat)
    requires -USIZE_LIMIT / 2 <= m < USIZE_LIMIT / 2
    ensures r < USIZE_LIMIT
    ensures m >= 0 ==> r == m
    ensures m < 0 ==> r >= USIZE_LIMIT / 2
  {
    if m >= 0 then m else m + USIZE_LIMIT
  }

  /** `get_top`. */
  function GetTop(s: LuaStack): (r: nat)
    ensures r == |s.vec|
  {
    Top(s)
  }

  /** `check_stack`: reserving room never fails and stores nothing. */
  function CheckStack(s: LuaStack, n: nat): (r: (bool, LuaStack))
    ensures r.0 && r.1.vec == s.vec
  {
    (true, s)
  }

  /** `type_id` at an index: the value's type id, or `LUA_TNONE` for an invalid index. */
  function TypeIdAt(s: LuaStack, idx: int): (r: int)
    ensures r == LUA_TNONE <==> !IsValid(s, idx)
    ensures IsValid(s, idx) ==> r == TypeId(s.vec[AbsIndex(s, idx) - 1])
  {
    if IsValid(s, idx) then TypeId(Get(s, idx)) else LUA_TNONE
  }

  /** `pop(n)`: pop `n` values one at a time; `None` if the stack runs out. */
  method PopN(s: LuaStack, n: nat) returns (r: Option<LuaStack>)
    ensures r.Some? <==> n <= Top(s)
    ensures r.Some? ==> r.value.vec == s.vec[..Top(s) - n]
  {
    var cur := s;
    var i := 0;
    while i < n
      invariant i <= n && i <= Top(s)
      invariant cur.vec == s.vec[..Top(s) - i]
    {
      match Pop(cur)
      case None =>
        return None;
      case Some((_, rest)) =>
        cur := rest;
        i := i + 1;
    }
    return Some(cur);
  }

  /** `copy(from, to)`: slot `to` gets the value at `from`; nothing else changes. */
  function Copy(s: LuaStack, from: int, to: int): (r: Option<LuaStack>)
    ensures r.Some? <==> IsValid(s, to)
    ensures r.Some? ==> Top(r.value) == Top(s) && Get(r.value, to) == Get(s, from)
    ensures r.Some? ==> forall i | 0 <= i < Top(s) && i != AbsIndex(s, to) - 1 :: r.value.vec[i] == s.vec[i]
  {
    Set(s, to, Get(s, from))
  }

  /** `push_value(idx)`: push a copy of the value at `idx` (`nil` for an invalid index). */
  function PushValue(s: LuaStack, idx: int): (r: LuaStack)
    ensures Top(r) == Top(s) + 1 && r.vec[..Top(s)] == s.vec
    ensures Get(r, -1) == Get(s, idx)
  {
    Push(s, Get(s, idx))
  }

  /**
   * `replace(idx)`: pop the top value and store it at `idx`, where `idx`
   * is resolved on the stack after the pop.
   */
  function Replace(s: LuaStack, idx: int): (r: Option<LuaStack>)
    ensures r.Some? <==> Top(s) > 0 && IsValid(LuaStack(s.vec[..Top(s) - 1]), idx)
    ensures r.Some? ==>
      var below := LuaStack(s.vec[..Top(s) - 1]);
      Top(r.value) == Top(s) - 1 && Get(r.value, idx) == s.vec[Top(s) - 1] &&
      forall i | 0 <= i < Top(s) - 1 && i != AbsIndex(below, idx) - 1 :: r.value.vec[i] == s.vec[i]
  {
    match Pop(s)
    case None => None
    case Some((v, below)) => Set(below, idx, v)
  }

  // ---------------------------------------------------------------------
  // rotate
  // ---------------------------------------------------------------------

  /**
   * The segment `xs` turned `n` places toward its end, for `|n| <= |xs|`:
   * the value at `j` moves to `j + n`, wrapping around.
   */
  function Rotated(xs: seq<LuaValue>, n: int): (r: seq<LuaValue>)
    requires -|xs| <= n <= |xs|
    ensures |r| == |xs|
  {
    var k := if n >= 0 then n else n + |xs|;
    seq(|xs|, j requires 0 <= j < |xs| => if j >= k then xs[j - k] else xs[j - k + |xs|])
  }

  /** Each value moves `n` places up, wrapping around. */
  lemma RotatedMoves(xs: seq<LuaValue>, n: int)
    requires -|xs| <= n <= |xs|
    ensures var k := if n >= 0 then n else n + |xs|;
      (forall j | 0 <= j < |xs| - k :: Rotated(xs, n)[j + k] == xs[j]) &&
      (forall j | |xs| - k <= j < |xs| :: Rotated(xs, n)[j + k - |xs|] == xs[j])
  {
    hide Rotated;
    var k := if n >= 0 then n else n + |xs|;
    forall j | 0 <= j < |xs| - k ensures Rotated(xs, n)[j + k] == xs[j] {
      RotatedAt(xs, n, j + k);
    }
    forall j | |xs| - k <= j < |xs| ensures Rotated(xs, n)[j + k - |xs|] == xs[j] {
      RotatedAt(xs, n, j + k - |xs|);
    }
  }

  /** Turning a segment keeps the same values, each as often. */
  lemma RotatedSameValues(xs: seq<LuaValue>, n: int)
    requires -|xs| <= n <= |xs|
    ensures multiset(Rotated(xs, n)) == multiset(xs)
  {
    hide Rotated;
    var k := if n >= 0 then n else n + |xs|;
    var r := Rotated(xs, n);
    var lo, hi := xs[..|xs| - k], xs[|xs| - k..];
    forall i | 0 <= i < k ensures r[i] == hi[i] {
      RotatedAt(xs, n, i);
    }
    forall i | k <= i < |xs| ensures r[i] == lo[i - k] {
      RotatedAt(xs, n, i);
    }
    assert r == hi + lo;
    assert xs == lo + hi;
  }

  /** Turning back by the same distance restores the segment. */
  lemma RotatedBack(xs: seq<LuaValue>, n: int)
    requires -|xs| <= n <= |xs|
    ensures Rotated(Rotated(xs, n), -n) == xs
  {
  }

  /** The value at position `i` of a turned segment. */
  lemma RotatedAt(xs: seq<LuaValue>, n: int, i: nat)
    requires -|xs| <= n <= |xs| && i < |xs|
    ensures var k := if n >= 0 then n else n + |xs|;
      Rotated(xs, n)[i] == if i >= k then xs[i - k] else xs[i - k + |xs|]
  {
  }

  /** The three reversals of `rotate`, with the prefix end `m` cast to `usize` as written. */
  function Reversals(s: LuaStack, p: nat, t: nat, m: int): (r: Option<LuaStack>)
    requires -USIZE_LIMIT / 2 <= m < USIZE_LIMIT / 2
  {
    var mu := AsUsize(m);
    match Reverse(s, p, mu)
    case None => None
    case Some(s1) =>
      if mu + 1 >= USIZE_LIMIT then None
      else match Reverse(s1, mu + 1, t)
        case None => None
        case Some(s2) => Reverse(s2, p, t)
  }

  /** The segment from an index to the top that `rotate` turns, and whether the index is acceptable. */
  predicate RotatableAt(s: LuaStack, idx: int) {
    var a := AbsIndex(s, idx);
    !(a < 0 || !IsValid(s, a))
  }

  lemma RotatableIsValid(s: LuaStack, idx: int)
    ensures RotatableAt(s, idx) <==> IsValid(s, idx)
  {
  }

  /**
   * `rotate(idx, n)` as written: the prefix end is `t - n` or `p - n - 1`,
   * used as a `usize`, with no check on `n`.
   */
  function RotateAsWritten(s: LuaStack, idx: int, n: int): (r: Option<LuaStack>)
    requires -USIZE_LIMIT / 4 <= n < USIZE_LIMIT / 4 && Top(s) < USIZE_LIMIT / 4
    ensures !RotatableAt(s, idx) ==> r.None?
  {
    if !RotatableAt(s, idx) then None
    else
      var t := Top(s) - 1;
      var p := AbsIndex(s, idx) - 1;
      var m := if n >= 0 then t - n else p - n - 1;
      Reversals(s, p, t, m)
  }

  /**
   * The three reversals with the prefix end kept signed: a prefix ending
   * before it starts is empty and is not reversed.
   */
  function SignedReversals(s: LuaStack, p: nat, t: nat, m: int): (r: Option<LuaStack>)
    requires p <= t < Top(s) && p - 1 <= m <= t
    ensures r.Some? && Top(r.value) == Top(s)
  {
    var s1 := if m < p then s else Reverse(s, p, m).value;
    var s2 := Reverse(s1, m + 1, t).value;
    Reverse(s2, p, t)
  }

  /**
   * `rotate(idx, n)` corrected: a distance longer than the segment is
   * refused (as the Lua 5.3 C API requires), and an empty prefix is
   * left alone instead of being reversed up to `usize::MAX`.
   */
  function Rotate(s: LuaStack, idx: int, n: int): (r: Option<LuaStack>)
    ensures r.Some? <==> IsValid(s, idx) && -(Top(s) - AbsIndex(s, idx) + 1) <= n <= Top(s) - AbsIndex(s, idx) + 1
    ensures r.Some? ==> Top(r.value) == Top(s)
  {
    if !RotatableAt(s, idx) then None
    else
      var t := Top(s) - 1;
      var p := AbsIndex(s, idx) - 1;
      if n > t - p + 1 || -n > t - p + 1 then None
      else
        var m := if n >= 0 then t - n else p - n - 1;
        SignedReversals(s, p, t, m)
  }

  /**
   * `rotate(idx, n)` turns the values from `idx` to the top `n` places
   * toward the top, wrapping around, and leaves the values below `idx`
   * where they were.
   */
  lemma RotateRotates(s: LuaStack, idx: int, n: int)
    requires Rotate(s, idx, n).Some?
    ensures var p := AbsIndex(s, idx) - 1;
      0 <= p < Top(s) &&
      Rotate(s, idx, n).value.vec == s.vec[..p] + Rotated(s.vec[p..], n)
  {
    hide Reverse, Mirrored, Rotated, SignedReversals;
    var p := AbsIndex(s, idx) - 1;
    var t := Top(s) - 1;
    var m := if n >= 0 then t - n else p - n - 1;
    assert Rotate(s, idx, n) == SignedReversals(s, p, t, m);
    RotateThreeReversals(s, p, n);
  }

  /**
   * Mirroring the prefix `p..m`, then the suffix `m+1..t`, then the whole
   * segment `p..t` moves the value at `j` (in the segment) to `j + (t - m)`,
   * wrapping around: at a position `j` of the segment sits the value that
   * was `t - m` places lower, or `t - m` places lower plus the segment length.
   */
  lemma ThreeMirrorsAt(a: seq<LuaValue>, b: seq<LuaValue>, c: seq<LuaValue>, d: seq<LuaValue>,
                       p: nat, m: int, t: nat, j: nat)
    requires p <= t < |a| && p - 1 <= m <= t && p <= j <= t
    requires if m < p then b == a else Mirrored(a, b, p, m)
    requires Mirrored(b, c, m + 1, t) && Mirrored(c, d, p, t)
    ensures var k := t - m;
      d[j] == if j - p >= k then a[j - k] else a[j - k + (t - p + 1)]
  {
    var q := p + t - j;
    assert d[j] == c[q];
    if q <= m {
      assert c[q] == b[q];
    } else {
      assert c[q] == b[m + 1 + t - q];
    }
  }

  /** One position of the outcome of the three mirrorings, against the turned segment. */
  lemma RotatedPoint(a: seq<LuaValue>, b: seq<LuaValue>, c: seq<LuaValue>, d: seq<LuaValue>,
                     p: nat, m: int, t: nat, n: int, j: nat)
    requires p <= t && t + 1 == |a| && -(t + 1 - p) <= n <= t + 1 - p && j < |a|
    requires m == if n >= 0 then t - n else p - n - 1
    requires if m < p then b == a else Mirrored(a, b, p, m)
    requires Mirrored(b, c, m + 1, t) && Mirrored(c, d, p, t)
    ensures d[j] == (a[..p] + Rotated(a[p..], n))[j]
  {
    hide Rotated;
    if j >= p {
      ThreeMirrorsAt(a, b, c, d, p, m, t, j);
      RotatedAt(a[p..], n, j - p);
      assert (a[..p] + Rotated(a[p..], n))[j] == Rotated(a[p..], n)[j - p];
    } else {
      assert d[j] == c[j] == b[j] == a[j];
    }
  }

  /**
   * Three reversals turn the segment from `p` to the top by `n`, for any
   * `|n|` up to the segment length.
   */
  lemma RotateThreeReversals(s: LuaStack, p: nat, n: int)
    requires p < Top(s) && -(Top(s) - p) <= n <= Top(s) - p
    ensures var t := Top(s) - 1;
      var m := if n >= 0 then t - n else p - n - 1;
      SignedReversals(s, p, t, m).value.vec == s.vec[..p] + Rotated(s.vec[p..], n)
  {
    hide Reverse, Mirrored, Rotated, SignedReversals;
    var t := Top(s) - 1;
    var m := if n >= 0 then t - n else p - n - 1;
    var s1, s2 := SignedReversalsMirror(s, p, t, m);
    var r := SignedReversals(s, p, t, m).value;
    var want := s.vec[..p] + Rotated(s.vec[p..], n);
    forall j | 0 <= j < Top(s) ensures r.vec[j] == want[j] {
      RotatedPoint(s.vec, s1.vec, s2.vec, r.vec, p, m, t, n, j);
    }
    assert r.vec == want;
  }

  /** The stacks between the three reversals, each a mirror image of the one before. */
  lemma SignedReversalsMirror(s: LuaStack, p: nat, t: nat, m: int) returns (s1: LuaStack, s2: LuaStack)
    requires p <= t < Top(s) && p - 1 <= m <= t
    ensures if m < p then s1 == s else Mirrored(s.vec, s1.vec, p, m)
    ensures Mirrored(s1.vec, s2.vec, m + 1, t)
    ensures Mirrored(s2.vec, SignedReversals(s, p, t, m).value.vec, p, t)
  {
    hide Reverse, Mirrored;
    s1 := if m < p then s else Reverse(s, p, m).value;
    if m >= p {
      ReverseMirrors(s, p, m);
    }
    s2 := Reverse(s1, m + 1, t).value;
    ReverseMirrors(s1, m + 1, t);
    ReverseMirrors(s2, p, t);
  }


  /**
   * As written, a distance longer than the segment reaches below `idx`:
   * turning the top value of `nil, true, false` by 2 swaps `true` and
   * `false`, though `true` lies below the segment.
   */
  lemma RotateAsWrittenCorrupts()
    ensures var s := LuaStack([Nil, Boolean(true), Boolean(false)]);
      RotateAsWritten(s, 3, 2) == Some(LuaStack([Nil, Boolean(false), Boolean(true)])) &&
      Rotate(s, 3, 2).None?
  {
    var s := LuaStack([Nil, Boolean(true), Boolean(false)]);
    assert Reverse(s, 2, 0) == Some(s);
    var s1 := LuaStack([Nil, Boolean(false), Boolean(true)]);
    assert Swap(s.vec, 1, 2) == s1.vec;
    assert Reverse(s, 1, 2) == Reverse(s1, 2, 1) == Some(s1);
    assert Reverse(s1, 2, 2) == Some(s1);
  }

  /**
   * As written, turning a whole stack by its full length from index 1
   * panics: the empty prefix ends at -1, which as a `usize` is past the
   * end. So `insert(1)` on a one-value stack panics, where the corrected
   * `Rotate` leaves the stack as it is.
   */
  lemma InsertAsWrittenPanics()
    ensures var s := LuaStack([Nil]);
      RotateAsWritten(s, 1, 1).None? && Rotate(s, 1, 1) == Some(s)
  {
    var s := LuaStack([Nil]);
    assert AsUsize(-1) == USIZE_LIMIT - 1;
    RotateRotates(s, 1, 1);
    assert Rotated(s.vec[0..], 1) == s.vec;
  }

  /** With a prefix end that is not negative, the `usize` reversals are the signed ones. */
  lemma ReversalsAgree(s: LuaStack, p: nat, t: nat, m: int)
    requires p <= t < Top(s) && p - 1 <= m <= t && 0 <= m && Top(s) < USIZE_LIMIT / 4
    ensures Reversals(s, p, t, m) == SignedReversals(s, p, t, m)
  {
    hide Reverse;
    assert AsUsize(m) == m;
    ReverseStep(s, p, m);
    var s1 := Reverse(s, p, m).value;
    assert s1 == if m < p then s else Reverse(s, p, m).value;
    assert Reversals(s, p, t, m) == match Reverse(s1, m + 1, t) case None => None case Some(s2) => Reverse(s2, p, t);
  }

  /** Apart from a full turn from index 1, the code as written agrees with the corrected rotation within its range. */
  lemma RotateAsWrittenAgrees(s: LuaStack, idx: int, n: int)
    requires -USIZE_LIMIT / 4 <= n < USIZE_LIMIT / 4 && Top(s) < USIZE_LIMIT / 4
    requires Rotate(s, idx, n).Some? && !(AbsIndex(s, idx) == 1 && n == Top(s))
    ensures RotateAsWritten(s, idx, n) == Rotate(s, idx, n)
  {
    hide Reverse, Reversals, SignedReversals;
    var t := Top(s) - 1;
    var p := AbsIndex(s, idx) - 1;
    var m := if n >= 0 then t - n else p - n - 1;
    assert Rotate(s, idx, n) == SignedReversals(s, p, t, m);
    assert RotateAsWritten(s, idx, n) == Reversals(s, p, t, m);
    ReversalsAgree(s, p, t, m);
  }

  // ---------------------------------------------------------------------
  // insert, remove, set_top
  // ---------------------------------------------------------------------

  /** `insert(idx)`: `rotate(idx, 1)`. */
  function Insert(s: LuaStack, idx: int): (r: Option<LuaStack>)
    ensures r.Some? <==> IsValid(s, idx)
    ensures r.Some? ==> Top(r.value) == Top(s)
  {
    Rotate(s, idx, 1)
  }

  /**
   * `insert(idx)` as written: `rotate(idx, 1)` with the unsigned prefix
   * end. It panics on a one-value stack and otherwise is the corrected
   * `Insert`.
   */
  function InsertAsWritten(s: LuaStack, idx: int): (r: Option<LuaStack>)
    requires Top(s) < USIZE_LIMIT / 4
    ensures r.Some? <==> IsValid(s, idx) && Top(s) != 1
    ensures r.Some? ==> r == Insert(s, idx)
  {
    if IsValid(s, idx) && Top(s) == 1 then
      assert AbsIndex(s, idx) == 1;
      assert AsUsize(-1) == USIZE_LIMIT - 1;
      RotateAsWritten(s, idx, 1)
    else if IsValid(s, idx) then
      RotateAsWrittenAgrees(s, idx, 1);
      RotateAsWritten(s, idx, 1)
    else
      RotateAsWritten(s, idx, 1)
  }

  /** `insert` moves the top value to `idx` and shifts the values from `idx` up by one. */
  lemma InsertMovesTop(s: LuaStack, idx: int)
    requires IsValid(s, idx)
    ensures var p := AbsIndex(s, idx) - 1;
      Insert(s, idx).value.vec == s.vec[..p] + [s.vec[Top(s) - 1]] + s.vec[p..Top(s) - 1]
  {
    var p := AbsIndex(s, idx) - 1;
    assert Insert(s, idx) == Rotate(s, idx, 1);
    RotateRotates(s, idx, 1);
    hide Rotate, Insert, Rotated;
    var seg := s.vec[p..];
    RotatedByOne(seg);
    assert seg[|seg| - 1] == s.vec[Top(s) - 1];
    assert seg[..|seg| - 1] == s.vec[p..Top(s) - 1];
  }

  /** Turning by one puts the last value first. */
  lemma RotatedByOne(seg: seq<LuaValue>)
    requires |seg| > 0
    ensures Rotated(seg, 1) == [seg[|seg| - 1]] + seg[..|seg| - 1]
  {
    forall i | 0 <= i < |seg| ensures Rotated(seg, 1)[i] == ([seg[|seg| - 1]] + seg[..|seg| - 1])[i] {
      RotatedAt(seg, 1, i);
    }
  }

  /** Turning by -1 moves the value at `idx` to the top and shifts the values above it down. */
  lemma RotateDown(s: LuaStack, idx: int)
    requires IsValid(s, idx)
    ensures var p := AbsIndex(s, idx) - 1;
      Rotate(s, idx, -1).Some? &&
      Rotate(s, idx, -1).value.vec == s.vec[..p] + s.vec[p + 1..] + [s.vec[p]]
  {
    var p := AbsIndex(s, idx) - 1;
    RotateRotates(s, idx, -1);
    var seg := s.vec[p..];
    forall i | 0 <= i < |seg| ensures Rotated(seg, -1)[i] == (seg[1..] + [seg[0]])[i] {
      RotatedAt(seg, -1, i);
    }
    assert Rotated(seg, -1) == seg[1..] + [seg[0]];
  }

  /** `remove(idx)`: `rotate(idx, -1)`, then pop one value. */
  method Remove(s: LuaStack, idx: int) returns (r: Option<LuaStack>)
    ensures r.Some? <==> IsValid(s, idx)
    ensures r.Some? ==> var p := AbsIndex(s, idx) - 1;
      r.value.vec == s.vec[..p] + s.vec[p + 1..]
  {
    var rotated := Rotate(s, idx, -1);
    if rotated.None? {
      return None;
    }
    RotateDown(s, idx);
    r := PopN(rotated.value, 1);
    var p := AbsIndex(s, idx) - 1;
    assert rotated.value.vec[..Top(s) - 1] == s.vec[..p] + s.vec[p + 1..];
  }

  /**
   * `set_top(idx)`: pop down to, or push `nil` up to, the absolute index;
   * `None` (a panic) when that index is negative.
   */
  method SetTop(s: LuaStack, idx: int) returns (r: Option<LuaStack>)
    ensures r.Some? <==> AbsIndex(s, idx) >= 0
    ensures r.Some? ==> Top(r.value) == AbsIndex(s, idx)
    ensures r.Some? ==> forall i | 0 <= i < Top(r.value) ::
      r.value.vec[i] == (if i < Top(s) then s.vec[i] else Nil)
  {
    var newTop := AbsIndex(s, idx);
    if newTop < 0 {
      return None;
    }
    var n := Top(s) - newTop;
    var cur := s;
    if n > 0 {
      var i := 0;
      while i < n
        invariant 0 <= i <= n
        invariant cur.vec == s.vec[..Top(s) - i]
      {
        cur := Pop(cur).value.1;
        i := i + 1;
      }
    } else if n < 0 {
      var i := n;
      while i < 0
        invariant n <= i <= 0
        invariant |cur.vec| == Top(s) + (i - n)
        invariant cur.vec[..Top(s)] == s.vec
        invariant forall j | Top(s) <= j < |cur.vec| :: cur.vec[j] == Nil
      {
        cur := Push(cur, Nil);
        i := i + 1;
      }
    }
    return Some(cur);
  }
}

=== FILE: lua_value.dfy ===
/**
 * Lua values as the state keeps them (`lua_value.rs`), with their type
 * ids and truthiness. A float is kept as its 64-bit pattern.
 *
 * The type ids are those of Lua 5.3's `lua.h`; the Rust constants module
 * (`api::consts`) is not part of this model.
 */
module LuaValues {
  import opened Bits

  const LUA_TNONE: int := -1
  const LUA_TNIL: int := 0
  const LUA_TBOOLEAN: int := 1
  const LUA_TNUMBER: int := 3
  const LUA_TSTRING: int := 4

  datatype LuaValue =
    | Nil
    | Boolean(b: bool)
    | Number(bits: u64)
    | Integer(i: i64)
    | Str(s: string)

  /** `type_id`: floats and integers share the number type; every other kind has its own id. */
  function TypeId(v: LuaValue): (r: int)
    ensures r == LUA_TNUMBER <==> v.Number? || v.Integer?
    ensures r == LUA_TNIL <==> v.Nil?
    ensures r == LUA_TBOOLEAN <==> v.Boolean?
    ensures r == LUA_TSTRING <==> v.Str?
    ensures r != LUA_TNONE
  {
    match v
    case Nil => LUA_TNIL
    case Boolean(_) => LUA_TBOOLEAN
    case Number(_) => LUA_TNUMBER
    case Integer(_) => LUA_TNUMBER
    case Str(_) => LUA_TSTRING
  }

  /** Two values have the same type id exactly when they are of the same kind, counting both number kinds as one. */
  lemma SameTypeId(u: LuaValue, v: LuaValue)
    ensures TypeId(u) == TypeId(v) <==>
      (u.Nil? && v.Nil?) || (u.Boolean? && v.Boolean?) || (u.Str? && v.Str?) ||
      ((u.Number? || u.Integer?) && (v.Number? || v.Integer?))
  {
  }

  /** `to_boolean`: only `nil` and `false` are false. */
  function ToBoolean(v: LuaValue): (r: bool)
    ensures !r <==> v == Nil || v == Boolean(false)
    ensures v.Boolean? ==> r == v.b
  {
    match v
    case Nil => false
    case Boolean(b) => b
    case _ => true
  }
}

=== FILE: opcode.dfy ===
/**
 * The Lua 5.3 opcode numbering and the per-opcode descriptor table.
 *
 * Each opcode is a 6-bit number; `OPCODES[op]` describes how the B and C
 * arguments are used, which of the four instruction layouts the opcode
 * uses, and its 8-character mnemonic, padded with spaces.
 */
module Opcode {

  const OP_MOVE: nat := 0x00
  const OP_LOADK: nat := 0x01
  const OP_LOADKX: nat := 0x02
  const OP_LOADBOOL: nat := 0x03
  const OP_LOADNIL: nat := 0x04
  const OP_GETUPVAL: nat := 0x05
  const OP_GETTABUP: nat := 0x06
  const OP_GETTABLE: nat := 0x07
  const OP_SETTABUP: nat := 0x08
  const OP_SETUPVAL: nat := 0x09
  const OP_SETTABLE: nat := 0x0a
  const OP_NEWTABLE: nat := 0x0b
  const OP_SELF: nat := 0x0c
  const OP_ADD: nat := 0x0d
  const OP_SUB: nat := 0x0e
  const OP_MUL: nat := 0x0f
  const OP_MOD: nat := 0x10
  const OP_POW: nat := 0x11
  const OP_DIV: nat := 0x12
  const OP_IDIV: nat := 0x13
  const OP_BAND: nat := 0x14
  const OP_BOR: nat := 0x15
  const OP_BXOR: nat := 0x16
  const OP_SHL: nat := 0x17
  const OP_SHR: nat := 0x18
  const OP_UNM: nat := 0x19
  const OP_BNOT: nat := 0x1a
  const OP_NOT: nat := 0x1b
  const OP_LEN: nat := 0x1c
  const OP_CONCAT: nat := 0x1d
  const OP_JMP: nat := 0x1e
  const OP_EQ: nat := 0x1f
  const OP_LT: nat := 0x20
  const OP_LE: nat := 0x21
  const OP_TEST: nat := 0x22
  const OP_TESTSET: nat := 0x23
  const OP_CALL: nat := 0x24
  const OP_TAILCALL: nat := 0x25
  const OP_RETURN: nat := 0x26
  const OP_FORLOOP: nat := 0x27
  const OP_FORPREP: nat := 0x28
  const OP_TFORCALL: nat := 0x29
  const OP_TFORLOOP: nat := 0x2a
  const OP_SETLIST: nat := 0x2b
  const OP_CLOSURE: nat := 0x2c
  const OP_VARARG: nat := 0x2d
  const OP_EXTRAARG: nat := 0x2e

  /** The four instruction layouts (iABC, iABx, iAsBx, iAx). */
  datatype OpMode = ABC | ABx | AsBx | Ax

  /** How an argument is used: not used, used, register, register-or-constant. */
  datatype OpArgMask = N | U | R | K

  /** One row of the descriptor table. */
  datatype OpCode = OpCode(bMode: OpArgMask, cMode: OpArgMask, opMode: OpMode, name: string)

  /** The descriptor of one opcode: one row of the table, in opcode order. */
  function Row(op: int): OpCode {
    match op
      case 0 => OpCode(R, N, ABC, "MOVE    ")
      case 1 => OpCode(K, N, ABx, "LOADK   ")
      case 2 => OpCode(N, N, ABx, "LOADKX  ")
      case 3 => OpCode(U, U, ABC, "LOADBOOL")
      case 4 => OpCode(U, N, ABC, "LOADNIL ")
      case 5 => OpCode(U, N, ABC, "GETUPVAL")
      case 6 => OpCode(U, K, ABC, "GETTABUP")
      case 7 => OpCode(R, K, ABC, "GETTABLE")
      case 8 => OpCode(K, K, ABC, "SETTABUP")
      case 9 => OpCode(U, N, ABC, "SETUPVAL")
      case 10 => OpCode(K, K, ABC, "SETTABLE")
      case 11 => OpCode(U, U, ABC, "NEWTABLE")
      case 12 => OpCode(R, K, ABC, "SELF    ")
      case 13 => OpCode(K, K, ABC, "ADD     ")
      case 14 => OpCode(K, K, ABC, "SUB     ")
      case 15 => OpCode(K, K, ABC, "MUL     ")
      case 16 => OpCode(K, K, ABC, "MOD     ")
      case 17 => OpCode(K, K, ABC, "POW     ")
      case 18 => OpCode(K, K, ABC, "DIV     ")
      case 19 => OpCode(K, K, ABC, "IDIV    ")
      case 20 => OpCode(K, K, ABC, "BAND    ")
      case 21 => OpCode(K, K, ABC, "BOR     ")
      case 22 => OpCode(K, K, ABC, "BXOR    ")
      case 23 => OpCode(K, K, ABC, "SHL     ")
      case 24 => OpCode(K, K, ABC, "SHR     ")
      case 25 => OpCode(R, N, ABC, "UNM     ")
      case 26 => OpCode(R, N, ABC, "BNOT    ")
      case 27 => OpCode(R, N, ABC, "NOT     ")
      case 28 => OpCode(R, N, ABC, "LEN     ")
      case 29 => OpCode(R, R, ABC, "CONCAT  ")
      case 30 => OpCode(R, N, AsBx, "JMP     ")
      case 31 => OpCode(K, K, ABC, "EQ      ")
      case 32 => OpCode(K, K, ABC, "LT      ")
      case 33 => OpCode(K, K, ABC, "LE      ")
      case 34 => OpCode(N, U, ABC, "TEST    ")
      case 35 => OpCode(R, U, ABC, "TESTSET ")
      case 36 => OpCode(U, U, ABC, "CALL    ")
      case 37 => OpCode(U, U, ABC, "TAILCALL")
      case 38 => OpCode(U, N, ABC, "RETURN  ")
      case 39 => OpCode(R, N, AsBx, "FORLOOP ")
      case 40 => OpCode(R, N, AsBx, "FORPREP ")
      case 41 => OpCode(N, U, ABC, "TFORCALL")
      case 42 => OpCode(R, N, AsBx, "TFORLOOP")
      case 43 => OpCode(U, U, ABC, "SETLIST ")
      case 44 => OpCode(U, N, ABx, "CLOSURE ")
      case 45 => OpCode(U, N, ABC, "VARARG  ")
      case _ => OpCode(U, U, Ax, "EXTRAARG")
  }

  /** The descriptor table, indexed by opcode. */
  const OPCODES: seq<OpCode> := Table()

  function Table(): (t: seq<OpCode>)
    ensures |t| == OP_EXTRAARG + 1
    ensures forall op | 0 <= op < |t| :: t[op] == Row(op)
  {
    seq(OP_EXTRAARG + 1, Row)
  }

  /** Opcode numbers are exactly the indices of the descriptor table. */
  predicate IsOpcode(op: int) { 0 <= op <= OP_EXTRAARG }

  lemma TableCoversOpcodes()
    ensures |OPCODES| == OP_EXTRAARG + 1 && OP_EXTRAARG < 64
    ensures forall op: int :: 0 <= op < |OPCODES| <==> IsOpcode(op)
  {
  }

  lemma AsBxExactly()
    ensures forall op | 0 <= op < |OPCODES| ::
      OPCODES[op].opMode == AsBx <==> op == OP_JMP || op == OP_FORLOOP || op == OP_FORPREP || op == OP_TFORLOOP
  {
    forall op | 0 <= op < |OPCODES|
      ensures OPCODES[op].opMode == AsBx <==> op == OP_JMP || op == OP_FORLOOP || op == OP_FORPREP || op == OP_TFORLOOP
    {
      assert OPCODES[op] == Row(op);
    }
  }

  lemma ABxAndAxExactly()
    ensures forall op | 0 <= op < |OPCODES| ::
      OPCODES[op].opMode == ABx <==> op == OP_LOADK || op == OP_LOADKX || op == OP_CLOSURE
    ensures forall op | 0 <= op < |OPCODES| :: OPCODES[op].opMode == Ax <==> op == OP_EXTRAARG
  {
    forall op | 0 <= op < |OPCODES|
      ensures OPCODES[op].opMode == ABx <==> op == OP_LOADK || op == OP_LOADKX || op == OP_CLOSURE
      ensures OPCODES[op].opMode == Ax <==> op == OP_EXTRAARG
    {
      assert OPCODES[op] == Row(op);
    }
  }

  lemma NamesArePadded()
    ensures forall op | 0 <= op < |OPCODES| :: |OPCODES[op].name| == 8
  {
    forall op | 0 <= op < |OPCODES|
      ensures |OPCODES[op].name| == 8
    {
      assert OPCODES[op] == Row(op);
    }
  }
}

=== FILE: parser.dfy ===
/**
 * The block-level helpers of `parser.rs`.
 *
 * The parser reads the lexer through `look_ahead` and `next_token`; here
 * the lexer is a `Stream` of already-lexed results, each with the line the
 * lexer is on after producing it. Statement parsing (`parse_stat`) is not
 * written in the source, so `parse_stats` is modelled against a `Plan`: the
 * outcome of each successive `parse_stat` call and how many tokens it
 * consumes.
 */
module Parsing {
  import opened Wrappers
  import opened Errors
  import opened Tokens
  import opened Ast

  datatype Lexed = Lexed(tok: Result<Token, Error>, line: Line)

  /** The lexer as seen by the parser: its results, a cursor and the current line. */
  datatype Stream = Stream(items: seq<Lexed>, pos: nat, line: Line)

  /** `look_ahead`: the next result without consuming it; past the end, an EOF error. */
  function LookAhead(s: Stream): (r: Result<Token, Error>)
    ensures s.pos < |s.items| ==> r == s.items[s.pos].tok
    ensures s.pos >= |s.items| ==> r == Err(EOF(s.line))
  {
    if s.pos < |s.items| then s.items[s.pos].tok else Err(EOF(s.line))
  }

  /** `next_token`: the next result, consumed, and the line it leaves the lexer on. */
  function Next(s: Stream): (r: (Result<Token, Error>, Stream))
    ensures r.0 == LookAhead(s)
    ensures r.1.items == s.items
    ensures s.pos < |s.items| ==> r.1.pos == s.pos + 1 && r.1.line == s.items[s.pos].line
    ensures s.pos >= |s.items| ==> r.1 == s
  {
    if s.pos < |s.items| then (s.items[s.pos].tok, s.(pos := s.pos + 1, line := s.items[s.pos].line))
    else (Err(EOF(s.line)), s)
  }

  /** `n` calls of `next_token`, results discarded. */
  function Advance(s: Stream, n: nat): (r: Stream)
    ensures r.items == s.items
    ensures s.pos <= |s.items| ==> r.pos == if s.pos + n <= |s.items| then s.pos + n else |s.items|
    ensures s.pos > |s.items| ==> r.pos == s.pos
    decreases n
  {
    if n == 0 then s else Advance(Next(s).1, n - 1)
  }

  // ---------------------------------------------------------------------
  // Token predicates
  // ---------------------------------------------------------------------

  /** `is_err_eof`: the result is an EOF error (whatever its line). */
  predicate IsErrEof(tok: Result<Token, Error>) {
    tok.Err? && tok.error.EOF?
  }

  /** The keywords that close a block or start its return statement. */
  predicate ClosesBlock(t: Token) {
    t == KwReturn || t == KwEnd || t == KwElse || t == KwElseIf || t == KwUntil
  }

  /**
   * `is_return_or_block_end`: one of the five keywords, or an EOF error.
   * Every other token and every other error is not a block end.
   */
  function IsReturnOrBlockEnd(tok: Result<Token, Error>): (b: bool)
    ensures tok.Ok? ==> (b <==> ClosesBlock(tok.value))
    ensures tok.Err? ==> (b <==> tok.error.EOF?)
  {
    match tok
    case Ok(t) => t == KwReturn || t == KwEnd || t == KwElse || t == KwElseIf || t == KwUntil
    case Err(_) => IsErrEof(tok)
  }

  /** `err_eof_to_token`: an EOF error becomes the `Eof` token; anything else passes through. */
  function ErrEofToToken(tok: Result<Token, Error>): (r: Result<Token, Error>)
    ensures IsErrEof(tok) ==> r == Ok(Eof)
    ensures !IsErrEof(tok) ==> r == tok
    ensures !IsErrEof(r)
  {
    match tok
    case Err(EOF(_)) => Ok(Eof)
    case _ => tok
  }

  /** Converting twice is converting once, and only an EOF error turns into `Eof`. */
  lemma ErrEofToTokenFacts(tok: Result<Token, Error>)
    ensures ErrEofToToken(ErrEofToToken(tok)) == ErrEofToToken(tok)
    ensures tok != Ok(Eof) ==> (ErrEofToToken(tok) == Ok(Eof) <==> IsErrEof(tok))
  {
  }

  /**
   * Away from the `Eof` token, which the lexer never produces, a block ends
   * exactly when the converted result is one of the closing keywords or `Eof`.
   */
  lemma BlockEndAfterConversion(tok: Result<Token, Error>)
    requires tok != Ok(Eof)
    ensures IsReturnOrBlockEnd(tok) <==>
      ErrEofToToken(tok).Ok? && (ClosesBlock(ErrEofToToken(tok).value) || ErrEofToToken(tok).value == Eof)
  {
  }

  // ---------------------------------------------------------------------
  // parse_stats
  // ---------------------------------------------------------------------

  /** One `parse_stat` call: what it returns and how many tokens it consumes. */
  datatype StatCall = StatCall(out: Result<Stat, Error>, consumed: nat)

  type Plan = seq<StatCall>

  /** The statements of a list with every `Stat::Empty` dropped, in order. */
  function NonEmpty(xs: seq<Stat>): (r: seq<Stat>)
    ensures |r| <= |xs|
    ensures forall i | 0 <= i < |r| :: r[i] != Empty
  {
    if xs == [] then []
    else if xs[0] == Empty then NonEmpty(xs[1..])
    else [xs[0]] + NonEmpty(xs[1..])
  }

  lemma {:induction false} NonEmptyAppend(a: seq<Stat>, b: seq<Stat>)
    ensures NonEmpty(a + b) == NonEmpty(a) + NonEmpty(b)
  {
    if a == [] {
      assert a + b == b;
    } else {
      assert (a + b)[0] == a[0];
      assert (a + b)[1..] == a[1..] + b;
      NonEmptyAppend(a[1..], b);
    }
  }

  /** Dropping `Empty` keeps every other statement as often as it occurs. */
  lemma {:induction false} NonEmptyKeeps(xs: seq<Stat>)
    ensures forall st | st != Empty :: multiset(NonEmpty(xs))[st] == multiset(xs)[st]
  {
    if xs != [] {
      NonEmptyKeeps(xs[1..]);
      assert xs == [xs[0]] + xs[1..];
      if xs[0] == Empty {
        assert NonEmpty(xs) == NonEmpty(xs[1..]);
      } else {
        assert NonEmpty(xs) == [xs[0]] + NonEmpty(xs[1..]);
      }
    }
  }

  /** A list without `Empty` comes back unchanged. */
  lemma {:induction false} NonEmptyIdentity(xs: seq<Stat>)
    requires forall i | 0 <= i < |xs| :: xs[i] != Empty
    ensures NonEmpty(xs) == xs
  {
    if xs != [] {
      NonEmptyIdentity(xs[1..]);
      assert NonEmpty(xs) == [xs[0]] + NonEmpty(xs[1..]);
    }
  }

  /** The statements produced by the first `k` calls of a plan whose calls all succeed. */
  function Produced(plan: Plan, k: nat): (r: seq<Stat>)
    requires k <= |plan| && forall i | 0 <= i < k :: plan[i].out.Ok?
    ensures |r| == k
    ensures forall i | 0 <= i < k :: r[i] == plan[i].out.value
  {
    if k == 0 then [] else Produced(plan, k - 1) + [plan[k - 1].out.value]
  }

  /** The outcome of `parse_stats`: the statements or an error, the stream, and how many calls were made. */
  datatype StatsRun = StatsRun(out: Result<seq<Stat>, Error>, rest: Stream, calls: nat)

  /**
   * `parse_stats`: call `parse_stat` until the look-ahead is a block end,
   * keeping every statement but `Empty` and stopping at the first error.
   * `None` when the plan runs out before the loop stops.
   */
  function ParseStats(s: Stream, plan: Plan): (r: Option<StatsRun>)
    ensures r.Some? ==> r.value.calls <= |plan| && r.value.rest.items == s.items
    ensures r.Some? && r.value.out.Ok? ==>
      IsReturnOrBlockEnd(LookAhead(r.value.rest)) &&
      (forall i | 0 <= i < r.value.calls :: plan[i].out.Ok?) &&
      r.value.out.value == NonEmpty(Produced(plan, r.value.calls))
    ensures r.Some? && r.value.out.Err? ==>
      0 < r.value.calls &&
      (forall i | 0 <= i < r.value.calls - 1 :: plan[i].out.Ok?) &&
      plan[r.value.calls - 1].out == Err(r.value.out.error)
    ensures IsReturnOrBlockEnd(LookAhead(s)) ==> r == Some(StatsRun(Ok([]), s, 0))
    decreases |plan|
  {
    if IsReturnOrBlockEnd(LookAhead(s)) then Some(StatsRun(Ok([]), s, 0))
    else if plan == [] then None
    else match plan[0].out
      case Err(e) => Some(StatsRun(Err(e), Advance(s, plan[0].consumed), 1))
      case Ok(st) =>
        match ParseStats(Advance(s, plan[0].consumed), plan[1..])
        case None => None
        case Some(run) =>
          if run.out.Err? then Some(run.(calls := run.calls + 1))
          else
            var ss := if st == Empty then run.out.value else [st] + run.out.value;
            ProducedShift(plan, run.calls);
            Some(StatsRun(Ok(ss), run.rest, run.calls + 1))
  }

  /** The statements of `k + 1` calls are the first call's statement followed by those of the remaining `k`. */
  lemma {:induction false} ProducedShift(plan: Plan, k: nat)
    requires k + 1 <= |plan| && forall i | 0 <= i < k + 1 :: plan[i].out.Ok?
    ensures Produced(plan, k + 1) == [plan[0].out.value] + Produced(plan[1..], k)
    ensures NonEmpty(Produced(plan, k + 1)) ==
      (if plan[0].out.value == Empty then [] else [plan[0].out.value]) + NonEmpty(Produced(plan[1..], k))
  {
    var a := Produced(plan, k + 1);
    var b := [plan[0].out.value] + Produced(plan[1..], k);
    assert |a| == |b|;
    forall i | 0 <= i < |a| ensures a[i] == b[i] {
      if i > 0 {
        assert plan[1..][i - 1] == plan[i];
      }
    }
    assert a == b;
    NonEmptyAppend([plan[0].out.value], Produced(plan[1..], k));
  }

  // ---------------------------------------------------------------------
  // parse_ret_exps and parse_block
  // ---------------------------------------------------------------------

  /** The tokens after `return` that end the return list with no expressions. */
  predicate EndsReturn(t: Token) {
    t == Eof || t == KwEnd || t == KwElse || t == KwElseIf || t == KwUntil
  }

  /**
   * `parse_ret_exps` as written: it consumes a token when the look-ahead is
   * NOT `return`, then returns no expressions if a block end (or `;`, also
   * consumed) follows. Every other path reaches `unimplemented!()` (`None`).
   */
  function ParseRetExpsAsWritten(s: Stream): (r: Option<(Result<seq<Exp>, Error>, Stream)>)
    ensures r.Some? ==> ErrEofToToken(LookAhead(s)) != Ok(KwReturn)
    ensures r.Some? && r.value.0.Ok? ==> r.value.0.value == [] && (s.pos < |s.items| ==> r.value.1.pos > s.pos)
  {
    if ErrEofToToken(LookAhead(s)) == Ok(KwReturn) then None
    else
      var (tok, s1) := Next(s);
      if tok.Err? then Some((Err(tok.error), s1))
      else match LookAhead(s1)
        case Ok(t) =>
          if EndsReturn(t) then Some((Ok([]), s1))
          else if t == SepSemi then Some((Ok([]), Next(s1).1))
          else None
        case Err(_) => None
  }

  /**
   * A block without a return statement loses its closing keyword: before
   * `end end`, the first `end` is consumed as if it followed `return`.
   */
  lemma RetExpsAsWrittenEatsEnd()
    ensures var s := Stream([Lexed(Ok(KwEnd), 1), Lexed(Ok(KwEnd), 2)], 0, 1);
      ParseRetExpsAsWritten(s) == Some((Ok([]), Stream(s.items, 1, 1)))
  {
  }

  /**
   * `parse_ret_exps` as the branches evidently intend: without `return`
   * there are no return expressions and nothing is consumed; after
   * `return`, a block end gives none, and `;` is consumed as well.
   * Reading an expression list (`parse_exp_list`) is not written in the
   * source, which is `None` here.
   */
  function ParseRetExps(s: Stream): (r: Option<(Result<seq<Exp>, Error>, Stream)>)
    ensures ErrEofToToken(LookAhead(s)) != Ok(KwReturn) ==> r == Some((Ok([]), s))
    ensures r.Some? && r.value.0.Ok? ==> r.value.0.value == [] && r.value.1.items == s.items
    ensures r.Some? && r.value.1 != s ==> LookAhead(s) == Ok(KwReturn)
  {
    if ErrEofToToken(LookAhead(s)) != Ok(KwReturn) then Some((Ok([]), s))
    else
      var s1 := Next(s).1;
      match ErrEofToToken(LookAhead(s1))
      case Ok(t) =>
        if EndsReturn(t) then Some((Ok([]), s1))
        else if t == SepSemi then Some((Ok([]), Next(s1).1))
        else None
      case Err(e) => Some((Err(e), s1))
  }

  /** `return` followed by a block end yields an empty list and consumes only `return`. */
  lemma BareReturn(s: Stream)
    requires s.pos + 1 < |s.items| && s.items[s.pos].tok == Ok(KwReturn)
    requires s.items[s.pos + 1].tok.Ok? && EndsReturn(s.items[s.pos + 1].tok.value)
    ensures ParseRetExps(s) == Some((Ok([]), s.(pos := s.pos + 1, line := s.items[s.pos].line)))
  {
  }

  /**
   * `parse_block`: the statements, then the return expressions, then the
   * current line; the first error is the block's error and the later
   * parts are not read.
   */
  function ParseBlock(s: Stream, plan: Plan): (r: Option<(Result<Block, Error>, Stream)>)
    ensures var run := ParseStats(s, plan);
      r.Some? && r.value.0.Ok? ==>
        run.Some? && run.value.out.Ok? &&
        var ret := ParseRetExps(run.value.rest);
        ret.Some? && ret.value.0.Ok? && r.value.1 == ret.value.1 &&
        r.value.0.value == Block(run.value.out.value, ret.value.0.value, ret.value.1.line)
    ensures var run := ParseStats(s, plan);
      run.Some? && run.value.out.Err? ==> r == Some((Err(run.value.out.error), run.value.rest))
    ensures var run := ParseStats(s, plan);
      run.Some? && run.value.out.Ok? ==>
        var ret := ParseRetExps(run.value.rest);
        (ret.None? ==> r.None?) &&
        (ret.Some? && ret.value.0.Err? ==> r == Some((Err(ret.value.0.error), ret.value.1)))
  {
    match ParseStats(s, plan)
    case None => None
    case Some(run) =>
      if run.out.Err? then Some((Err(run.out.error), run.rest))
      else match ParseRetExps(run.rest)
        case None => None
        case Some((ret, s2)) =>
          if ret.Err? then Some((Err(ret.error), s2))
          else Some((Ok(Block(run.out.value, ret.value, s2.line)), s2))
  }

  /** A block whose first token closes it is empty, ends on the current line and consumes nothing. */
  lemma EmptyBlock(s: Stream, plan: Plan)
    requires LookAhead(s).Ok? && ClosesBlock(LookAhead(s).value) && LookAhead(s) != Ok(KwReturn)
    ensures ParseBlock(s, plan) == Some((Ok(Block([], [], s.line)), s))
  {
  }

  /**
   * `parse_block` as written, over the written `parse_ret_exps`: a block
   * that parses always has no return expressions and has consumed the
   * token that ended its statements.
   */
  function ParseBlockAsWritten(s: Stream, plan: Plan): (r: Option<(Result<Block, Error>, Stream)>)
    ensures var run := ParseStats(s, plan);
      r.Some? && r.value.0.Ok? ==>
        run.Some? && run.value.out.Ok? &&
        r.value.0.value.stats == run.value.out.value && r.value.0.value.retExps == [] &&
        (run.value.rest.pos < |run.value.rest.items| ==> r.value.1.pos > run.value.rest.pos)
    ensures var run := ParseStats(s, plan);
      run.Some? && run.value.out.Err? ==> r == Some((Err(run.value.out.error), run.value.rest))
    ensures var run := ParseStats(s, plan);
      run.Some? && run.value.out.Ok? ==>
        var ret := ParseRetExpsAsWritten(run.value.rest);
        (ret.None? ==> r.None?) &&
        (ret.Some? && ret.value.0.Err? ==> r == Some((Err(ret.value.0.error), ret.value.1)))
  {
    match ParseStats(s, plan)
    case None => None
    case Some(run) =>
      if run.out.Err? then Some((Err(run.out.error), run.rest))
      else match ParseRetExpsAsWritten(run.rest)
        case None => None
        case Some((ret, s2)) =>
          if ret.Err? then Some((Err(ret.error), s2))
          else Some((Ok(Block(run.out.value, ret.value, s2.line)), s2))
  }

  /**
   * Before `end end`, the block as written consumes the first `end`,
   * where the corrected block stops in front of it.
   */
  lemma BlockAsWrittenEatsEnd(plan: Plan)
    ensures var s := Stream([Lexed(Ok(KwEnd), 1), Lexed(Ok(KwEnd), 2)], 0, 1);
      ParseBlockAsWritten(s, plan) == Some((Ok(Block([], [], 1)), Stream(s.items, 1, 1))) &&
      ParseBlock(s, plan) == Some((Ok(Block([], [], 1)), s))
  {
    var s := Stream([Lexed(Ok(KwEnd), 1), Lexed(Ok(KwEnd), 2)], 0, 1);
    EmptyBlock(s, plan);
    RetExpsAsWrittenEatsEnd();
  }

  /**
   * An error in the token after `return` is the block's error, and the
   * stream stops past `return`; the block as written never gets that far,
   * since its return list reaches `unimplemented!()` on `return`.
   */
  lemma BlockReturnError(plan: Plan)
    ensures var s := Stream([Lexed(Ok(KwReturn), 1), Lexed(Err(IllegalToken(1)), 1)], 0, 1);
      ParseBlock(s, plan) == Some((Err(IllegalToken(1)), Stream(s.items, 1, 1))) &&
      ParseBlockAsWritten(s, plan) == None
  {
  }

  /** Statements the plan produces reach the block in order, with `Empty` dropped. */
  lemma BlockKeepsStatements(s: Stream, plan: Plan)
    requires ParseBlock(s, plan).Some? && ParseBlock(s, plan).value.0.Ok?
    ensures var b := ParseBlock(s, plan).value.0.value;
      var k := ParseStats(s, plan).value.calls;
      b.retExps == [] &&
      (forall i | 0 <= i < |b.stats| :: b.stats[i] != Empty) &&
      forall st | st != Empty :: multiset(b.stats)[st] == multiset(Produced(plan, k))[st]
  {
    NonEmptyKeeps(Produced(plan, ParseStats(s, plan).value.calls));
  }
}

=== FILE: reader.dfy ===
/**
 * Deserialisation of a Lua 5.3 binary chunk.
 *
 * The Rust `Reader` keeps a cursor `pos` into its data. Here every reader
 * takes the bytes that remain and returns the value it decoded together
 * with the bytes that remain after it (`pos` is `|data| - |rest|`). Each
 * panic of the Rust reader is an `Err`: an index past the end of the data
 * (`OutOfBounds`), a string size of zero after the 0xFF escape (the
 * `size - 1` underflow), an unknown constant tag, and each header
 * assertion, which names the field that did not match.
 */
module Reader {
  import opened Bits
  import opened Wrappers
  import opened Chunk

  datatype Parsed<+T> = Parsed(value: T, rest: seq<u8>)

  /** The header fields in the order `check_header` compares them. */
  datatype HeaderField =
    | Signature       // "not a precompiled chunk!"
    | Version         // "version mismatch!"
    | Format          // "format mismatch!"
    | LuacData        // "corrupted!"
    | CIntSize        // "int size mismatch!"
    | CSizeTSize      // "size_t size mismatch!"
    | InstructionSize // "instruction size mismatch!"
    | LuaIntegerSize  // "lua_Integer size mismatch!"
    | LuaNumberSize   // "lua_Number size mismatch!"
    | LuacInt         // "endianness mismatch!"
    | LuacNum         // "float format mismatch!"

  datatype ReadError =
    | OutOfBounds
    | SizeUnderflow
    | CorruptedTag(tag: u8)
    | HeaderMismatch(field: HeaderField)

  /** A reader that, when it succeeds, consumes at least one byte. */
  ghost predicate Consumes<T>(item: seq<u8> -> Result<Parsed<T>, ReadError>)
  {
    forall t :: item(t).Ok? ==> |item(t).value.rest| < |t|
  }

  /** `read_byte`: the byte at the cursor; past the end it panics. */
  function ReadByte(s: seq<u8>): (r: Result<Parsed<u8>, ReadError>)
    ensures r.Ok? <==> |s| >= 1
    ensures r.Ok? ==> r.value.value == s[0] && r.value.rest == s[1..]
  {
    if |s| == 0 then Err(OutOfBounds) else Ok(Parsed(s[0], s[1..]))
  }

  /** `read_bytes(n)`: `n` calls of `read_byte`. */
  function ReadBytes(s: seq<u8>, n: nat): (r: Result<Parsed<seq<u8>>, ReadError>)
    ensures r.Ok? <==> |s| >= n
    ensures r.Ok? ==> r.value.value + r.value.rest == s && |r.value.value| == n
  {
    if |s| < n then Err(OutOfBounds) else Ok(Parsed(s[..n], s[n..]))
  }

  /** `read_u32`: `(a3 << 24) | (a2 << 16) | (a1 << 8) | a0` over the next four bytes. */
  function ReadU32(s: seq<u8>): (r: Result<Parsed<u32>, ReadError>)
    ensures r.Ok? <==> |s| >= 4
    ensures r.Ok? ==> r.value.value == LeValue(s[..4]) && r.value.rest == s[4..]
  {
    var a0 :- ReadByte(s);
    var a1 :- ReadByte(a0.rest);
    var a2 :- ReadByte(a1.rest);
    var a3 :- ReadByte(a2.rest);
    OrOfShiftedBytes(a0.value, a1.value, a2.value, a3.value);
    LeValue4(s[..4]);
    var v := BitOr(BitOr(BitOr(a3.value * 0x100_0000, a2.value * 0x1_0000), a1.value * 0x100), a0.value);
    Ok(Parsed(v, a3.rest))
  }

  /** `read_u64`: the low word first, then `(a1 << 32) | a0`. */
  function ReadU64(s: seq<u8>): (r: Result<Parsed<u64>, ReadError>)
    ensures r.Ok? <==> |s| >= 8
    ensures r.Ok? ==> r.value.value == LeValue(s[..8]) && r.value.rest == s[8..]
  {
    var a0 :- ReadU32(s);
    var a1 :- ReadU32(a0.rest);
    OrOfShiftedWords(a0.value, a1.value);
    LeValueSplit(s[..8]);
    assert s[..8][..4] == s[..4] && s[..8][4..] == a0.rest[..4];
    var v := BitOr(a1.value * 0x1_0000_0000, a0.value);
    Ok(Parsed(v, a1.rest))
  }

  lemma LeValueSplit(bs: seq<u8>)
    requires |bs| == 8
    ensures LeValue(bs) == LeValue(bs[..4]) + 0x1_0000_0000 * LeValue(bs[4..])
  {
    var a, b := bs[..4], bs[4..];
    assert bs == a + b;
    var t1, t2, t3 := bs[1..], bs[2..], bs[3..];
    assert t1[1..] == t2 && t2[1..] == t3 && t3[1..] == b;
    assert LeValue(t3) == bs[3] as int + 0x100 * LeValue(b);
    assert LeValue(t2) == bs[2] as int + 0x100 * LeValue(t3);
    assert LeValue(t1) == bs[1] as int + 0x100 * LeValue(t2);
    LeValue4(a);
  }

  /** `read_lua_integer`: the next eight bytes reinterpreted as an `i64`. */
  function ReadLuaInteger(s: seq<u8>): (r: Result<Parsed<i64>, ReadError>)
    ensures r.Ok? <==> |s| >= 8
    ensures r.Ok? ==> I64ToU64(r.value.value) == LeValue(s[..8]) && r.value.rest == s[8..]
  {
    var u :- ReadU64(s);
    Ok(Parsed(U64ToI64(u.value), u.rest))
  }

  /** `read_lua_number`: `f64::from_bits` of the next eight bytes, kept as the bits. */
  function ReadLuaNumber(s: seq<u8>): (r: Result<Parsed<u64>, ReadError>)
    ensures r.Ok? <==> |s| >= 8
    ensures r.Ok? ==> r.value.value == LeValue(s[..8]) && r.value.rest == s[8..]
  {
    ReadU64(s)
  }

  /**
   * `read_string0`: a size byte; 0 is `None`; 0xFF is followed by a 64-bit
   * size; then `size - 1` bytes, `None` when they are not UTF-8.
   */
  function ReadString0(s: seq<u8>): (r: Result<Parsed<Option<LuaString>>, ReadError>)
    ensures r.Ok? ==> |r.value.rest| < |s|
    ensures r.Ok? && r.value.value.Some? ==> ValidUtf8(r.value.value.value)
    ensures |s| >= 1 && s[0] == 0 ==> r == Ok(Parsed(None, s[1..]))
    ensures |s| >= 1 && 0 < s[0] < 0xFF ==>
      (r.Ok? <==> |s| >= s[0] as int) &&
      (r.Ok? ==> r.value.rest == s[s[0]..] &&
                 r.value.value == (if ValidUtf8(s[1..s[0]]) then Some(s[1..s[0]]) else None))
    ensures |s| >= 1 && s[0] == 0xFF && |s| < 9 ==> r.Err?
    ensures |s| >= 9 && s[0] == 0xFF && LeValue(s[1..9]) == 0 ==> r == Err(SizeUnderflow)
    ensures |s| >= 9 && s[0] == 0xFF && LeValue(s[1..9]) > 0 ==>
      var n := LeValue(s[1..9]);
      (r.Ok? <==> |s| >= 8 + n) &&
      (r.Ok? ==> r.value.rest == s[8 + n..] &&
                 r.value.value == (if ValidUtf8(s[9..8 + n]) then Some(s[9..8 + n]) else None))
  {
    hide ReadShortString0, ReadLongString0, LeValue, ValidUtf8;
    var size :- ReadByte(s);
    if size.value == 0 then Ok(Parsed(None, size.rest))
    else if size.value == 0xFF then ReadLongString0(s)
    else ReadShortString0(s)
  }

  /** The branch of a size byte below 0xFF: that many bytes minus one follow. */
  function ReadShortString0(s: seq<u8>): (r: Result<Parsed<Option<LuaString>>, ReadError>)
    requires |s| >= 1 && 0 < s[0] < 0xFF
    ensures r.Ok? ==> |r.value.rest| < |s|
    ensures r.Ok? && r.value.value.Some? ==> ValidUtf8(r.value.value.value)
    ensures (r.Ok? <==> |s| >= s[0] as int) &&
      (r.Ok? ==> r.value.rest == s[s[0]..] &&
                 r.value.value == (if ValidUtf8(s[1..s[0]]) then Some(s[1..s[0]]) else None))
  {
    var rest := s[1..];
    hide ReadSized, ValidUtf8;
    assert |rest| >= s[0] - 1 ==> rest[..s[0] - 1] == s[1..s[0]] && rest[s[0] - 1..] == s[s[0]..];
    ReadSized(rest, s[0])
  }

  /** The 0xFF branch: a 64-bit size follows, then that many bytes minus one. */
  function ReadLongString0(s: seq<u8>): (r: Result<Parsed<Option<LuaString>>, ReadError>)
    requires |s| >= 1 && s[0] == 0xFF
    ensures r.Ok? ==> |r.value.rest| < |s|
    ensures r.Ok? && r.value.value.Some? ==> ValidUtf8(r.value.value.value)
    ensures |s| < 9 ==> r.Err?
    ensures |s| >= 9 && LeValue(s[1..9]) == 0 ==> r == Err(SizeUnderflow)
    ensures |s| >= 9 && LeValue(s[1..9]) > 0 ==>
      var n := LeValue(s[1..9]);
      (r.Ok? <==> |s| >= 8 + n) &&
      (r.Ok? ==> r.value.rest == s[8 + n..] &&
                 r.value.value == (if ValidUtf8(s[9..8 + n]) then Some(s[9..8 + n]) else None))
  {
    hide LeValue, ReadU64, ReadSized, ValidUtf8;
    var n :- ReadU64(s[1..]);
    assert n.value == LeValue(s[1..9]) && n.rest == s[9..] by {
      assert s[1..][..8] == s[1..9];
    }
    assert n.value > 0 && |n.rest| >= n.value - 1 ==>
      n.rest[..n.value - 1] == s[9..8 + n.value] && n.rest[n.value - 1..] == s[8 + n.value..];
    ReadSized(n.rest, n.value)
  }

  /** The `size - 1` bytes behind a size, `None` when they are not UTF-8; a zero size underflows. */
  function ReadSized(s: seq<u8>, size: u64): (r: Result<Parsed<Option<LuaString>>, ReadError>)
    ensures r.Ok? ==> |r.value.rest| <= |s|
    ensures r.Ok? && r.value.value.Some? ==> ValidUtf8(r.value.value.value)
    ensures size == 0 ==> r == Err(SizeUnderflow)
    ensures size > 0 ==>
      (r.Ok? <==> |s| >= size - 1) &&
      (r.Ok? ==> r.value.rest == s[size - 1..] &&
                 r.value.value == (if ValidUtf8(s[..size - 1]) then Some(s[..size - 1]) else None))
  {
    if size == 0 then Err(SizeUnderflow)
    else
      var bytes :- ReadBytes(s, size - 1);
      assert bytes.value == s[..size - 1] && bytes.rest == s[size - 1..];
      Ok(Parsed(if ValidUtf8(bytes.value) then Some(bytes.value) else None, bytes.rest))
  }

  /** `read_string`: `read_string0` with `None` read as the empty string. */
  function ReadString(s: seq<u8>): (r: Result<Parsed<LuaString>, ReadError>)
    ensures r.Ok? ==> |r.value.rest| < |s| && ValidUtf8(r.value.value)
  {
    var str :- ReadString0(s);
    Ok(Parsed(str.value.GetOr([]), str.rest))
  }

  /** `n` elements, each by `item`, in order. */
  function ReadItems<T>(s: seq<u8>, n: nat, item: seq<u8> -> Result<Parsed<T>, ReadError>): (r: Result<Parsed<seq<T>>, ReadError>)
    requires Consumes(item)
    ensures r.Ok? ==> |r.value.value| == n && |r.value.rest| <= |s|
    decreases n
  {
    if n == 0 then Ok(Parsed([], s))
    else
      var head :- item(s);
      var tail :- ReadItems(head.rest, n - 1, item);
      Ok(Parsed([head.value] + tail.value, tail.rest))
  }

  /** `read_vec`: a u32 count `n`, then `n` elements. */
  function ReadVec<T>(s: seq<u8>, item: seq<u8> -> Result<Parsed<T>, ReadError>): (r: Result<Parsed<seq<T>>, ReadError>)
    requires Consumes(item)
    ensures r.Ok? ==> |s| >= 4 && |r.value.value| == LeValue(s[..4]) && |r.value.rest| < |s|
  {
    var n :- ReadU32(s);
    ReadItems(n.rest, n.value, item)
  }

  /** `check_header`: every field compared in order; the first mismatch is reported. */
  function CheckHeader(s: seq<u8>): (r: Result<seq<u8>, ReadError>)
    ensures r.Ok? ==> |s| >= 33 && r.value == s[33..]
  {
    var t1 :- CheckIdentity(s);
    var t2 :- CheckSizes(t1);
    CheckSentinels(t2)
  }

  /** Signature, version, format and the conversion-check bytes (12 bytes). */
  function CheckIdentity(s: seq<u8>): (r: Result<seq<u8>, ReadError>)
    ensures r.Ok? ==> |s| >= 12 && r.value == s[12..]
  {
    var sig :- ReadBytes(s, 4);
    if sig.value != LUA_SIGNATURE then Err(HeaderMismatch(Signature)) else
    var version :- ReadByte(sig.rest);
    if version.value != LUAC_VERSION then Err(HeaderMismatch(Version)) else
    var format :- ReadByte(version.rest);
    if format.value != LUAC_FORMAT then Err(HeaderMismatch(Format)) else
    var data :- ReadBytes(format.rest, 6);
    if data.value != LUAC_DATA then Err(HeaderMismatch(LuacData)) else
    Ok(data.rest)
  }

  /** The five platform-size bytes. */
  function CheckSizes(s: seq<u8>): (r: Result<seq<u8>, ReadError>)
    ensures r.Ok? ==> |s| >= 5 && r.value == s[5..]
  {
    var cint :- ReadByte(s);
    if cint.value != CINT_SIZE then Err(HeaderMismatch(CIntSize)) else
    var csizet :- ReadByte(cint.rest);
    if csizet.value != CSIZET_SIZE then Err(HeaderMismatch(CSizeTSize)) else
    var instr :- ReadByte(csizet.rest);
    if instr.value != INSTRUCTION_SIZE then Err(HeaderMismatch(InstructionSize)) else
    var lint :- ReadByte(instr.rest);
    if lint.value != LUA_INTEGER_SIZE then Err(HeaderMismatch(LuaIntegerSize)) else
    var lnum :- ReadByte(lint.rest);
    if lnum.value != LUA_NUMBER_SIZE then Err(HeaderMismatch(LuaNumberSize)) else
    Ok(lnum.rest)
  }

  /**
   * The integer and float sentinels. The float is compared by its bits:
   * 370.5 has exactly one binary64 encoding, so bit equality and `f64`
   * equality agree on it.
   */
  function CheckSentinels(s: seq<u8>): (r: Result<seq<u8>, ReadError>)
    ensures r.Ok? ==> |s| >= 16 && r.value == s[16..]
  {
    var endian :- ReadLuaInteger(s);
    if endian.value != LUAC_INT then Err(HeaderMismatch(LuacInt)) else
    var num :- ReadLuaNumber(endian.rest);
    if num.value != LUAC_NUM then Err(HeaderMismatch(LuacNum)) else
    Ok(num.rest)
  }

  /** `read_constant`: a tag byte, then the payload that tag announces. */
  function ReadConstant(s: seq<u8>): (r: Result<Parsed<Constant>, ReadError>)
    ensures r.Ok? ==> |r.value.rest| < |s|
    ensures |s| >= 1 && s[0] !in {TAG_NIL, TAG_BOOLEAN, TAG_INTEGER, TAG_NUMBER, TAG_SHORT_STR, TAG_LONG_STR}
            ==> r == Err(CorruptedTag(s[0]))
    ensures r.Ok? ==> match r.value.value
                      case Nil => s[0] == TAG_NIL
                      case Boolean(b) => s[0] == TAG_BOOLEAN && |s| >= 2 && b == (s[1] != 0)
                      case Integer(_) => s[0] == TAG_INTEGER
                      case Number(_) => s[0] == TAG_NUMBER
                      case Str(_) => s[0] == TAG_SHORT_STR || s[0] == TAG_LONG_STR
  {
    var tag :- ReadByte(s);
    var t := tag.rest;
    if tag.value == TAG_NIL then Ok(Parsed(Nil, t))
    else if tag.value == TAG_BOOLEAN then
      var b :- ReadByte(t);
      Ok(Parsed(Boolean(b.value != 0), b.rest))
    else if tag.value == TAG_INTEGER then
      var i :- ReadLuaInteger(t);
      Ok(Parsed(Integer(i.value), i.rest))
    else if tag.value == TAG_NUMBER then
      var n :- ReadLuaNumber(t);
      Ok(Parsed(Number(n.value), n.rest))
    else if tag.value == TAG_SHORT_STR || tag.value == TAG_LONG_STR then
      var str :- ReadString(t);
      Ok(Parsed(Str(str.value), str.rest))
    else Err(CorruptedTag(tag.value))
  }

  /** `read_up_value`: `instack`, then `idx`. */
  function ReadUpValue(s: seq<u8>): (r: Result<Parsed<UpValue>, ReadError>)
    ensures r.Ok? <==> |s| >= 2
    ensures r.Ok? ==> r.value == Parsed(UpValue(s[0], s[1]), s[2..])
  {
    var instack :- ReadByte(s);
    var idx :- ReadByte(instack.rest);
    Ok(Parsed(UpValue(instack.value, idx.value), idx.rest))
  }

  /** `read_loc_var`: the name, then `start_pc` and `end_pc`. */
  function ReadLocVar(s: seq<u8>): (r: Result<Parsed<LocalVar>, ReadError>)
    ensures r.Ok? ==> |r.value.rest| < |s|
  {
    var name :- ReadString(s);
    var startPc :- ReadU32(name.rest);
    var endPc :- ReadU32(startPc.rest);
    Ok(Parsed(LocalVar(name.value, startPc.value, endPc.value), endPc.rest))
  }

  /** The fields `read_proto0` reads before the children. */
  datatype ProtoHead = ProtoHead(
    lineDefined: u32, lastLineDefined: u32,
    numParams: u8, isVararg: u8, maxStackSize: u8,
    code: seq<u32>, constants: seq<Constant>, upValues: seq<UpValue>)

  /** The (debug) vectors `read_proto0` reads after the children. */
  datatype ProtoTail = ProtoTail(lineInfo: seq<u32>, localVars: seq<LocalVar>, upValueNames: seq<LuaString>)

  function ReadProtoHead(s: seq<u8>): (r: Result<Parsed<ProtoHead>, ReadError>)
    ensures r.Ok? ==> |r.value.rest| < |s|
  {
    var lineDefined :- ReadU32(s);
    var lastLineDefined :- ReadU32(lineDefined.rest);
    var numParams :- ReadByte(lastLineDefined.rest);
    var isVararg :- ReadByte(numParams.rest);
    var maxStackSize :- ReadByte(isVararg.rest);
    var code :- ReadVec(maxStackSize.rest, ReadU32);
    var constants :- ReadVec(code.rest, ReadConstant);
    var upValues :- ReadVec(constants.rest, ReadUpValue);
    Ok(Parsed(ProtoHead(lineDefined.value, lastLineDefined.value,
                        numParams.value, isVararg.value, maxStackSize.value,
                        code.value, constants.value, upValues.value),
              upValues.rest))
  }

  function ReadProtoTail(s: seq<u8>): (r: Result<Parsed<ProtoTail>, ReadError>)
    ensures r.Ok? ==> |r.value.rest| < |s|
  {
    var lineInfo :- ReadVec(s, ReadU32);
    var localVars :- ReadVec(lineInfo.rest, ReadLocVar);
    var names :- ReadVec(localVars.rest, ReadString);
    Ok(Parsed(ProtoTail(lineInfo.value, localVars.value, names.value), names.rest))
  }

  /** A prototype from its source, the fields around its children, and the children. */
  function Assemble(source: Option<LuaString>, h: ProtoHead, protos: seq<Prototype>, t: ProtoTail): Prototype
  {
    Prototype(source, h.lineDefined, h.lastLineDefined, h.numParams, h.isVararg, h.maxStackSize,
              h.code, h.constants, h.upValues, protos, t.lineInfo, t.localVars, t.upValueNames)
  }

  /**
   * `read_proto0`: the source (inherited from the parent when absent), the
   * scalar fields, then the seven vectors; the children are read with this
   * prototype's resolved source as their parent's.
   */
  function ReadProto0(s: seq<u8>, parent: Option<LuaString>): (r: Result<Parsed<Prototype>, ReadError>)
    ensures r.Ok? ==> |s| >= 1 && |r.value.rest| < |s|
    ensures r.Ok? && s[0] == 0 ==> r.value.value.source == parent
    decreases |s|, 0
  {
    var src :- ReadString0(s);
    var source := src.value.Or(parent);
    var head :- ReadProtoHead(src.rest);
    var count :- ReadU32(head.rest);
    var protos :- ReadProtos(count.rest, count.value, source);
    var tail :- ReadProtoTail(protos.rest);
    Ok(Parsed(Assemble(source, head.value, protos.value, tail.value), tail.rest))
  }

  /** `n` child prototypes, each read with `parent` as the inherited source. */
  function ReadProtos(s: seq<u8>, n: nat, parent: Option<LuaString>): (r: Result<Parsed<seq<Prototype>>, ReadError>)
    ensures r.Ok? ==> |r.value.value| == n && |r.value.rest| <= |s|
    decreases |s|, 1, n
  {
    if n == 0 then Ok(Parsed([], s))
    else
      var head :- ReadProto0(s, parent);
      var tail :- ReadProtos(head.rest, n - 1, parent);
      Ok(Parsed([head.value] + tail.value, tail.rest))
  }

  /** Every prototype read below a sourced parent has a source, all the way down. */
  lemma {:induction false} ReadProtoSourced(s: seq<u8>, parent: Option<LuaString>)
    requires parent.Some? && ReadProto0(s, parent).Ok?
    ensures AllSourced(ReadProto0(s, parent).value.value)
    decreases |s|, 0
  {
    hide ReadProtoHead, ReadProtoTail;
    var src := ReadString0(s).value;
    var source := src.value.Or(parent);
    var head := ReadProtoHead(src.rest).value;
    var count := ReadU32(head.rest).value;
    ReadProtosSourced(count.rest, count.value, source);
  }

  lemma {:induction false} ReadProtosSourced(s: seq<u8>, n: nat, parent: Option<LuaString>)
    requires parent.Some? && ReadProtos(s, n, parent).Ok?
    ensures forall i | 0 <= i < n :: AllSourced(ReadProtos(s, n, parent).value.value[i])
    decreases |s|, 1, n
  {
    hide *;
    if n > 0 {
      ReadProtosTail(s, n, parent);
      var head := ReadProto0(s, parent).value;
      var tail := ReadProtos(head.rest, n - 1, parent).value;
      ReadProtosSourced(head.rest, n - 1, parent);
      ReadProtoSourced(s, parent);
      var all := ReadProtos(s, n, parent).value.value;
      forall i | 0 <= i < n
        ensures AllSourced(all[i])
      {
        if i > 0 {
          assert all[i] == tail.value[i - 1];
        }
      }
    }
  }

  /** A successful read of `n > 0` children is a first child followed by `n - 1` more. */
  lemma ReadProtosTail(s: seq<u8>, n: nat, parent: Option<LuaString>)
    requires n > 0 && ReadProtos(s, n, parent).Ok?
    ensures ReadProto0(s, parent).Ok?
    ensures ReadProtos(ReadProto0(s, parent).value.rest, n - 1, parent).Ok?
    ensures ReadProtos(s, n, parent).value.value
            == [ReadProto0(s, parent).value.value] + ReadProtos(ReadProto0(s, parent).value.rest, n - 1, parent).value.value
  {
    hide ReadProto0;
  }
}

=== FILE: token.dfy ===
/**
 * Lexical tokens of Lua 5.3, one constructor per Rust `Token` variant.
 */
module Tokens {

  datatype Token =
    // separators
    | Vararg | SepSemi | SepComma | SepDot | SepColon | SepLabel
    | SepLparen | SepRparen | SepLbrack | SepRbrack | SepLcurly | SepRcurly
    // operators
    | OpAssign | OpMinus | OpWave | OpAdd | OpMul | OpDiv | OpIDiv | OpPow
    | OpMod | OpBitAnd | OpBitOr | OpShr | OpShl | OpConcat
    | OpLt | OpLe | OpGt | OpGe | OPEq | OpNe | OpLen | OpAnd | OpOr | OpNot
    // keywords
    | KwBreak | KwDo | KwElse | KwElseIf | KwEnd | KwFalse | KwFor | KwFunction
    | KwGoto | KwIf | KwIn | KwLocal | KwNil | KwRepeat | KwReturn | KwThen
    | KwTrue | KwUntil | KwWhile
    // literals
    | Identifier(name: string)
    | Number(text: string)
    | String(text: string)
    /**
     * End of input as a token. The parser converts an EOF error into this
     * token, but the Rust `Token` enum never declares it; the lexer never
     * produces it.
     */
    | Eof
}

=== FILE: wrappers.dfy ===
/**
 * Failure-compatible wrappers shared by every module of the model.
 *
 * The Rust code reports failure in three ways: `Option`, `Result` and a
 * panic. Options and Results keep their shape here; a panic reached from
 * program data (an index out of bounds, an `unwrap` of `None`, an
 * `unimplemented!()` branch) becomes an outcome the contracts can name:
 * the `Err` side of a `Result` in the binary codec, and `None` in the
 * lexer, the parser and the value stack.
 */
module Wrappers {

  datatype Option<+T> = None | Some(value: T) {

    /** `Option::or`: keep this value when present, otherwise use `other`. */
    function Or(other: Option<T>): Option<T> {
      if Some? then this else other
    }

    /** `Option::unwrap_or`. */
    function GetOr(default: T): T {
      if Some? then value else default
    }
  }

  datatype Result<+T, +E> = Ok(value: T) | Err(error: E) {

    predicate IsFailure() {
      Err?
    }

    function PropagateFailure<U>(): Result<U, E>
      requires Err?
    {
      Err(error)
    }

    function Extract(): T
      requires Ok?
    {
      value
    }
  }
}

=== FILE: writer.dfy ===
/**
 * Serialisation of a prototype tree into a Lua 5.3 binary chunk.
 *
 * The Rust `Writer` pushes bytes onto a growing vector. Here every writer
 * returns the bytes it appends, and a composite writer is the concatenation
 * of its parts, so "writing only appends" holds by construction.
 *
 * Strings come in two layouts. `AsWritten` is the code as it stands: an
 * empty string writes nothing, a non-empty one writes its length minus one,
 * and a string of 255 bytes or more stops at `unimplemented!()`. `Lua53` is
 * the layout the reader expects (length plus one, 0xFF and a 64-bit size for
 * long strings); the chunk round trip is stated for it.
 */
module Writer {
  import opened Bits
  import opened Wrappers
  import opened Chunk

  datatype StringLayout = AsWritten | Lua53

  datatype WriteError =
    | MissingSource   // `proto.source.clone().unwrap()` on `None`
    | LongString      // the `unimplemented!()` branch of `write_string0`

  /** `write_u32`: four bytes, least significant first. */
  function WriteU32(v: u32): (r: seq<u8>)
    ensures |r| == 4 && LeValue(r) == v
  {
    var r := [v % 0x100, (v / 0x100) % 0x100, (v / 0x1_0000) % 0x100, (v / 0x100_0000) % 0x100];
    LeValue4(r);
    BytesOfU32(v);
    r
  }

  /** `write_u64`: the low 32-bit half, then the high half. */
  function WriteU64(v: u64): (r: seq<u8>)
    ensures |r| == 8 && LeValue(r) == v
  {
    var lo := WriteU32(v % 0x1_0000_0000);
    var hi := WriteU32(v / 0x1_0000_0000);
    LeValueAppend(lo, hi);
    lo + hi
  }

  /** Little-endian value of a concatenation. */
  lemma {:induction false} LeValueAppend(a: seq<u8>, b: seq<u8>)
    requires |a| == 4
    ensures LeValue(a + b) == LeValue(a) + 0x1_0000_0000 * LeValue(b)
  {
    var ab := a + b;
    assert ab[1..] == a[1..] + b;
    assert ab[1..][1..] == a[1..][1..] + b;
    assert ab[1..][1..][1..] == a[1..][1..][1..] + b;
    assert ab[1..][1..][1..][1..] == b;
    assert a[1..][1..][1..][1..] == [];
    assert LeValue(ab[1..][1..][1..]) == a[3] as int + 0x100 * LeValue(b);
    assert LeValue(ab[1..][1..]) == a[2] as int + 0x100 * a[3] as int + 0x1_0000 * LeValue(b);
    assert LeValue(ab[1..]) == a[1] as int + 0x100 * a[2] as int + 0x1_0000 * a[3] as int + 0x100_0000 * LeValue(b);
    LeValue4(a);
  }

  /** `write_lua_integer`: the two's-complement bits of an `i64`. */
  function WriteLuaInteger(i: i64): (r: seq<u8>)
    ensures |r| == 8 && LeValue(r) == I64ToU64(i)
  {
    WriteU64(I64ToU64(i))
  }

  /** `write_string0` in either layout. */
  function WriteString0(layout: StringLayout, s: LuaString): (r: Result<seq<u8>, WriteError>)
    ensures r.Ok? <==> (layout == Lua53 || |s| < 0xFF)
    ensures r.Ok? && layout == AsWritten ==> |r.value| == (if |s| == 0 then 0 else |s| + 1)
    ensures r.Ok? && (layout == Lua53 || |s| > 0) ==> |r.value| > |s| && r.value[|r.value| - |s|..] == s
  {
    match layout
    case AsWritten =>
      if |s| == 0 then Ok([])
      else if |s| < 0xFF then Ok([|s| - 1] + s)
      else Err(LongString)
    case Lua53 =>
      var size := (|s| + 1) % 0x1_0000_0000_0000_0000;
      if size < 0xFF then Ok([size] + s)
      else Ok([0xFF] + WriteU64(size) + s)
  }

  /**
   * `write_string`: `write_string0` with the `Option` result discarded,
   * which changes nothing about the bytes written.
   */
  function WriteString(layout: StringLayout, s: LuaString): Result<seq<u8>, WriteError>
  {
    WriteString0(layout, s)
  }

  /** `write_header`: the fixed 33-byte Lua 5.3 chunk header. */
  function WriteHeader(): (r: seq<u8>)
    ensures |r| == 33
  {
    LUA_SIGNATURE
    + [LUAC_VERSION, LUAC_FORMAT]
    + LUAC_DATA
    + [CINT_SIZE, CSIZET_SIZE, INSTRUCTION_SIZE, LUA_INTEGER_SIZE, LUA_NUMBER_SIZE]
    + WriteLuaInteger(LUAC_INT)
    + WriteU64(LUAC_NUM)
  }

  /** The tag byte `write_constant` puts before each constant. */
  function ConstantTag(c: Constant): u8
  {
    match c
    case Nil => TAG_NIL
    case Boolean(_) => TAG_BOOLEAN
    case Integer(_) => TAG_INTEGER
    case Number(_) => TAG_NUMBER
    case Str(s) => if |s| >= 255 then TAG_LONG_STR else TAG_SHORT_STR
  }

  /** `write_constant`: the tag byte followed by the payload. */
  function WriteConstant(layout: StringLayout, c: Constant): (r: Result<seq<u8>, WriteError>)
    ensures r.Ok? <==> !(c.Str? && layout == AsWritten && |c.s| >= 0xFF)
    ensures r.Ok? ==> |r.value| >= 1 && r.value[0] == ConstantTag(c)
  {
    match c
    case Nil => Ok([TAG_NIL])
    case Boolean(b) => Ok([TAG_BOOLEAN, if b then 1 else 0])
    case Integer(i) => Ok([TAG_INTEGER] + WriteLuaInteger(i))
    case Number(bits) => Ok([TAG_NUMBER] + WriteU64(bits))
    case Str(s) =>
      var tag := if |s| >= 255 then TAG_LONG_STR else TAG_SHORT_STR;
      var body :- WriteString(layout, s);
      Ok([tag] + body)
  }

  /** `write_up_value`: `instack`, then `idx`. */
  function WriteUpValue(u: UpValue): (r: seq<u8>)
    ensures |r| == 2
  {
    [u.instack, u.idx]
  }

  /** `write_loc_var`: the name, then the two program counters. */
  function WriteLocVar(layout: StringLayout, v: LocalVar): (r: Result<seq<u8>, WriteError>)
    ensures r.Ok? <==> (layout == Lua53 || |v.varName| < 0xFF)
  {
    var name :- WriteString(layout, v.varName);
    Ok(name + WriteU32(v.startPc) + WriteU32(v.endPc))
  }

  /** The `Vec::len() as u32` count prefix: the length modulo 2^32. */
  function WriteCount(n: nat): (r: seq<u8>)
    ensures |r| == 4 && LeValue(r) == n % 0x1_0000_0000
  {
    WriteU32(n % 0x1_0000_0000)
  }

  /** The elements of a vector, each by `item`, back to back. */
  function WriteItems<T>(xs: seq<T>, item: T -> Result<seq<u8>, WriteError>): (r: Result<seq<u8>, WriteError>)
    ensures r.Ok? <==> forall i | 0 <= i < |xs| :: item(xs[i]).Ok?
    decreases |xs|
  {
    if |xs| == 0 then Ok([])
    else
      var head :- item(xs[0]);
      var tail :- WriteItems(xs[1..], item);
      assert forall i | 1 <= i < |xs| :: xs[i] == xs[1..][i - 1];
      Ok(head + tail)
  }

  /** The elements of a vector whose items cannot fail, back to back. */
  function WriteAll<T>(xs: seq<T>, item: T -> seq<u8>): seq<u8>
    decreases |xs|
  {
    if |xs| == 0 then [] else item(xs[0]) + WriteAll(xs[1..], item)
  }

  /** A vector of `write_proto`'s loops: the count, then the elements. */
  function WriteVec<T>(xs: seq<T>, item: T -> Result<seq<u8>, WriteError>): Result<seq<u8>, WriteError>
  {
    var body :- WriteItems(xs, item);
    Ok(WriteCount(|xs|) + body)
  }

  function U32Writer(): u32 -> seq<u8> {
    (v: u32) => WriteU32(v)
  }

  function ConstantWriter(layout: StringLayout): Constant -> Result<seq<u8>, WriteError> {
    (c: Constant) => WriteConstant(layout, c)
  }

  function UpValueWriter(): UpValue -> seq<u8> {
    (u: UpValue) => WriteUpValue(u)
  }

  function LocVarWriter(layout: StringLayout): LocalVar -> Result<seq<u8>, WriteError> {
    (v: LocalVar) => WriteLocVar(layout, v)
  }

  function StringWriter(layout: StringLayout): LuaString -> Result<seq<u8>, WriteError> {
    (s: LuaString) => WriteString(layout, s)
  }

  /** Every string stored directly in `p` (not in its children) is shorter than 255 bytes. */
  predicate ShortStrings(p: Prototype)
  {
    && (p.source.Some? ==> |p.source.value| < 0xFF)
    && (forall i | 0 <= i < |p.constants| :: p.constants[i].Str? ==> |p.constants[i].s| < 0xFF)
    && (forall i | 0 <= i < |p.localVars| :: |p.localVars[i].varName| < 0xFF)
    && (forall i | 0 <= i < |p.upValueNames| :: |p.upValueNames[i]| < 0xFF)
  }

  /**
   * The trees `write_proto` can write without panicking: every prototype has
   * a source, and under the as-written layout no string is 255 bytes long.
   */
  predicate Writable(layout: StringLayout, p: Prototype)
    decreases p
  {
    && p.source.Some?
    && (layout == AsWritten ==> ShortStrings(p))
    && forall i | 0 <= i < |p.protos| :: Writable(layout, p.protos[i])
  }

  /** The part of `write_proto` between the source and the children. */
  function WriteProtoHead(layout: StringLayout, p: Prototype): (r: Result<seq<u8>, WriteError>)
    ensures r.Ok? <==> forall i | 0 <= i < |p.constants| :: WriteConstant(layout, p.constants[i]).Ok?
  {
    var constants :- WriteVec(p.constants, ConstantWriter(layout));
    var code := WriteCount(|p.code|) + WriteAll(p.code, U32Writer());
    var upValues := WriteCount(|p.upValues|) + WriteAll(p.upValues, UpValueWriter());
    Ok(WriteU32(p.lineDefined) + (WriteU32(p.lastLineDefined)
       + ([p.numParams, p.isVararg, p.maxStackSize] + (code + (constants + upValues)))))
  }

  /** The part of `write_proto` after the children. */
  function WriteProtoTail(layout: StringLayout, p: Prototype): (r: Result<seq<u8>, WriteError>)
    ensures r.Ok? <==> (layout == Lua53 || (
      && (forall i | 0 <= i < |p.localVars| :: |p.localVars[i].varName| < 0xFF)
      && (forall i | 0 <= i < |p.upValueNames| :: |p.upValueNames[i]| < 0xFF)))
  {
    var localVars :- WriteVec(p.localVars, LocVarWriter(layout));
    var names :- WriteVec(p.upValueNames, StringWriter(layout));
    var lineInfo := WriteCount(|p.lineInfo|) + WriteAll(p.lineInfo, U32Writer());
    Ok(lineInfo + (localVars + names))
  }

  /**
   * `write_proto`: the source, the scalar fields, then the seven vectors,
   * the children written recursively in the fourth.
   */
  function WriteProto(layout: StringLayout, p: Prototype): (r: Result<seq<u8>, WriteError>)
    decreases p, 1
  {
    if p.source.None? then Err(MissingSource)
    else
      var source :- WriteString0(layout, p.source.value);
      var head :- WriteProtoHead(layout, p);
      var protos :- WriteProtos(layout, p, 0);
      var tail :- WriteProtoTail(layout, p);
      Ok(source + (head + (WriteCount(|p.protos|) + (protos + tail))))
  }

  /** The children `parent.protos[i..]`, each by `write_proto`, back to back. */
  function WriteProtos(layout: StringLayout, parent: Prototype, i: nat): (r: Result<seq<u8>, WriteError>)
    requires i <= |parent.protos|
    decreases parent, 0, |parent.protos| - i
  {
    if i == |parent.protos| then Ok([])
    else
      var head :- WriteProto(layout, parent.protos[i]);
      var tail :- WriteProtos(layout, parent, i + 1);
      Ok(head + tail)
  }

  /** `write_proto` fails exactly on the trees that are not writable. */
  lemma {:induction false} WriteProtoOk(layout: StringLayout, p: Prototype)
    ensures WriteProto(layout, p).Ok? <==> Writable(layout, p)
    decreases p, 1
  {
    hide WriteProtoHead, WriteProtoTail;
    if p.source.Some? {
      WriteProtosOk(layout, p, 0);
      if layout == AsWritten && WriteString0(layout, p.source.value).Ok? && WriteProtoHead(layout, p).Ok?
         && WriteProtoTail(layout, p).Ok? {
        forall i | 0 <= i < |p.constants| && p.constants[i].Str?
          ensures |p.constants[i].s| < 0xFF
        {
          assert WriteConstant(layout, p.constants[i]).Ok?;
        }
      }
    }
  }

  /** The children from `i` are written exactly when each of them is writable. */
  lemma {:induction false} WriteProtosOk(layout: StringLayout, parent: Prototype, i: nat)
    requires i <= |parent.protos|
    ensures WriteProtos(layout, parent, i).Ok? <==> forall j | i <= j < |parent.protos| :: Writable(layout, parent.protos[j])
    decreases parent, 0, |parent.protos| - i
  {
    hide WriteProtoHead, WriteProtoTail;
    if i < |parent.protos| {
      WriteProtoOk(layout, parent.protos[i]);
      WriteProtosOk(layout, parent, i + 1);
    }
  }
}
